=== FILE: README.md ===
# gimme-ts resolution engine, in Dafny

This project models the resolution engine of the gimme-ts dependency-injection
container and proves what it promises. The engine has two parts.

- The **registry builder** (`ContainerBuilder`, `RegistrationBuilder`).
  `for(a)` appends a tentative registration and returns a handle to it. The
  handle's `use`, `useFactory`, `useInstance` and `in*Lifecycle` calls overwrite
  one field of that registration. `build()` freezes the registrations, in
  order, into the table of a new root container.
- The **resolver** (`Container`). It turns an abstraction identifier into an
  instance by recursive constructor injection. It handles:
  - three lifecycles: Transient, Scoped and Singleton;
  - a tree of scopes that share the table and each keep their own cache;
  - delegation of singletons to the root;
  - detection of dependency cycles, using a stack of the concretions under
    construction.

## How the model is built

The model passes state explicitly; nothing in it is mutable.

- **Scope tree.** All containers created from one `build()` form one
  `ContainerTree`. It holds:
  - the shared registration table;
  - the parent of every scope (scope 0 is the root, and every other scope's
    parent has a smaller index);
  - one cache per scope;
  - a heap of the objects allocated so far.
- **Objects.** A constructed object is `Object(n)`, and `heap[n]` records
  its concretion identifier and its constructor arguments in order. This
  lets identity, freshness and argument sharing be stated.
  - A value given to `useInstance` is `Supplied(v)`, a value the container
    did not allocate, so it is never mistaken for a constructed object.
  - Factories either return one fixed supplied value (`ReturnInstance`) or
    allocate a new object on every call (`Manufacture`).
- **Errors.** Exceptions become `Failure(e)` with
  `e ∈ {UnregisteredType, MissingProducer, DependencyCycle, IncorrectImplementation}`.
  Every internal step returns the updated tree and pending stack along with
  its result.
- **Termination.** `resolveByTypeIdInternal`, `createConcretion` and the
  parameter loop are one mutually recursive group. It is proved to terminate
  on every input, cyclic registrations included. The decreasing measure is,
  in order:
  1. the number of registered concretions not on the pending stack;
  2. the distance of the scope from the root;
  3. the position in the call chain;
  4. the number of parameters left.
- **Dead branch.** The "Incorrect implementation" branch of
  `createConcretion` is kept, and the proof shows it is unreachable.

Files:

- `wrappers.dfy`: `Option` and `Result`.
- `types.dfy`: type identifiers and concretion descriptors (src/type.ts).
- `container.dfy`: the resolver and its invariants (src/container.ts).
- `container_builder.dfy`: the registry builder (src/container-builder.ts).
- `lifecycles.dfy`: lifecycle, scope and pending-stack properties across resolutions.
- `construction.dfy`: properties of constructor injection.
- `builder_properties.dfy`: builder laws and how `build` meets resolution.
- `scenarios.dfy`: the container tests' scenarios, proved for every choice of identifiers.
- `three_level.dfy`: the three-level lifecycle tests (`C1(I2, I2, I3, I3)`, `C2(I3, I3)`, `C3()`), resolved twice in each of two scopes. It proves what the tests observe: which first-, second- and third-level instances are equal and which differ.

Behaviours of the source the model reproduces:

- **Failed constructions keep their nested results.** A construction can
  fail after some of its dependencies were already resolved. Scoped and
  Singleton dependencies resolved successfully before the failure stay in
  their caches, because the source pushes to the cache and never rolls back.
  So a failed resolution returns the updated tree. `FailedResolutionCachesNothing`
  states the part that does hold: nothing is stored for the abstraction that
  failed.
- **Missing producer is detected late.** A registration that never got a
  producer is frozen by `build` with `concretionTypeOrFactoryFn` undefined.
  It fails only when it is resolved, and only after the cache check, in
  `createConcretion`, where `undefined.id` is dereferenced. The model
  raises `MissingProducer` at that point.
- **Duplicate registrations: the first one wins.** Registering one
  abstraction twice keeps both entries. Lookup is `_.find`, so the first
  entry is used and the later one is ignored.

## Model

| member | source | states |
|---|---|---|
| Container.FirstRegistration | src/container.ts:40-44 | The index found is that of the first registration whose abstraction id equals the requested id; `None` exactly when no registration has that id |
| Container.FindInstance | src/container.ts:58-61 | The cache lookup answers with the instance of the first entry for the abstraction, the one no earlier entry is for; `None` exactly when the abstraction is not among the scope's cached ids |
| Container.ResolveByIdInternal | src/container.ts:37-83 | An unregistered id fails with the tree unchanged. On success the value comes from the registered producer and the pending stack is as on entry. A singleton changes no cache but the root's. A cache hit in the instance's home scope returns the cached instance and changes nothing. After a success, a Scoped or Singleton instance is in its home cache. An allocating producer without a cached instance yields a brand-new object. The "Incorrect implementation" error never occurs |
| Container.ResolveInScope | src/container.ts:55-82 | In the scope that keeps the instance: for Scoped and Singleton a cache hit returns the cached instance with nothing changed, and after a success the instance is in this scope's cache; a Transient or uncached allocating producer yields a fresh object; a success comes from the registered producer with the pending stack as on entry |
| Container.Produce | src/container.ts:68-73 | A registration without a producer fails with MissingProducer and changes nothing. A success does not come from an abstraction whose concretion is under construction. A success leaves a missing cache entry for the abstraction missing. An allocating producer yields a fresh object |
| Container.CreateConcretion | src/container.ts:85-114 | A concretion already on the pending stack is rejected with DependencyCycle and the tree unchanged. Otherwise the new object is fresh and records the concretion id. Its arguments come, position by position, from the registrations of the declared parameters. The pending stack on success is as on entry, and "Incorrect implementation" is never raised |
| Container.ResolveParams | src/container.ts:96-104 | The parameters are resolved in declared order, in the same scope. On success there is one value per parameter, each produced by that parameter's registration. The pending stack is as on entry |
| Container.ResolveById | src/container.ts:29-35 | The public resolve keeps the tree well formed and only lets it grow (`Grows`, hence `Extends`); an unregistered id fails with the tree unchanged; a success comes from the registered producer; "Incorrect implementation" never surfaces |
| Container.CreateScope | src/container.ts:116-118 | The new scope shares the table, has the creating scope as parent and an empty cache, is one level deeper, and leaves every existing scope, cache and object as it was (`Extends`) |
| Container.ExtendsTransitive | src/container.ts:29-35 | Any sequence of resolutions and scope creations extends the tree it started from: `Extends` composes |
| Container.Store | src/container.ts:75-80 | Saving an instance appends to one scope's cache only; afterwards that scope answers the abstraction with the saved instance if it had no entry for it, and with its old entry otherwise; table, parents, other caches and objects are unchanged |
| Container.StoreKeepsOtherAnswers | src/container.ts:75-80 | Saving an instance for one abstraction leaves the answer for every other abstraction in that scope exactly as it was |
| Container.Invoke | src/container.ts:68-70 | Calling a factory always succeeds, leaves caches and pending stack alone, and either hands back exactly the supplied value (nothing allocated) or allocates exactly one new object recording the factory |
| ContainerBuilder.NewBuilder | src/container-builder.ts:5-6 | A new builder has no tentative registrations |
| ContainerBuilder.For | src/container-builder.ts:8-16 | Appends exactly one registration, for the given abstraction, Transient and without producer; earlier registrations are unchanged and the handle refers to the new one |
| ContainerBuilder.Use | src/container-builder.ts:44-47 | Only the handle's registration changes; its producer becomes the concretion and its lifecycle is kept |
| ContainerBuilder.UseFactory | src/container-builder.ts:54-57 | Only the handle's registration changes; its producer becomes the factory and its lifecycle is kept |
| ContainerBuilder.UseInstance | src/container-builder.ts:49-52 | Only the handle's registration changes; its producer becomes a factory returning exactly the given instance |
| ContainerBuilder.InLifecycle | src/container-builder.ts:71-74 | Only the handle's registration changes; its lifecycle becomes the given one and its producer is kept |
| ContainerBuilder.InTransientLifecycle | src/container-builder.ts:59-61 | Only the handle's registration changes; its lifecycle becomes Transient, producer kept |
| ContainerBuilder.InSingletonLifecycle | src/container-builder.ts:63-65 | Only the handle's registration changes; its lifecycle becomes Singleton, producer kept |
| ContainerBuilder.InScopedLifecycle | src/container-builder.ts:67-69 | Only the handle's registration changes; its lifecycle becomes Scoped, producer kept |
| ContainerBuilder.Build | src/container-builder.ts:18-27 | The table has one registration per tentative one, in order, with abstraction, producer and lifecycle copied and nothing validated. The container is a well-formed root with an empty cache |
| Lifecycles.SingletonResolvedAtRoot | src/container.ts:51-53 | Resolving a singleton from any scope gives exactly what resolving it at the root gives |
| Lifecycles.CachedOnlyWhereSaved | src/container.ts:55-66 | A cache entry exists only for a registered abstraction with a producer, whose lifecycle is Scoped or Singleton (a Singleton only at the root), and it holds an instance that producer made |
| Lifecycles.TransientNeverCached | src/container.ts:55-56 | No scope ever caches a Transient abstraction |
| Lifecycles.TransientNeverShared | tests/container/lifecycles/all-same-lifecycles.test.ts:8-15 | Two successful resolutions of a Transient abstraction with an allocating producer give different instances, from any scopes, whatever tree the second one runs in as long as it extends the tree the first one left (further resolutions and new scopes in between). This is about the requested instances; the test's nested second- and third-level fields are covered by ThreeLevel.AllTransientScenario |
| Lifecycles.ScopedInstanceReused | src/container.ts:58-66 | Once a Scoped abstraction is resolved in a scope, resolving it there again in any tree extending the one that resolution left (further resolutions, new scopes) returns the same instance and changes nothing |
| Lifecycles.ScopedSiblingsDistinct | tests/container/lifecycles/all-same-lifecycles.test.ts:17-34 | Once a Scoped abstraction with an allocating producer is resolved in one scope, any other scope holding no instance of its own gets a different instance, in any tree extending the one the first resolution left: further resolutions, new scopes, and a root followed by a descendant created later are all covered. This is about the requested instances; the test's `d21` and `d31` fields are covered by ThreeLevel.AllScopedScenario |
| Lifecycles.SingletonSharedByAllScopes | tests/container/lifecycles/all-same-lifecycles.test.ts:36-43 | Once a singleton is resolved from any scope, every scope of every tree extending the one that resolution left, scopes created later included, returns that same instance and changes nothing |
| Lifecycles.FactoryNeverFails | src/container.ts:68-70 | A registration with a factory always resolves and leaves the pending stack as it was |
| Lifecycles.SuppliedInstanceResolved | src/container-builder.ts:49-52 | An abstraction registered with `useInstance(v)` resolves to exactly `v` from every scope |
| Lifecycles.MissingProducerFails | src/container-builder.ts:19-22 | Resolving a registration that never got a producer fails with MissingProducer and changes nothing |
| Lifecycles.PendingConcretionRejected | src/container.ts:88-93 | An abstraction whose concretion is already under construction, and which is not cached in its home scope, fails with DependencyCycle and changes nothing |
| Lifecycles.FailedResolutionCachesNothing | src/container.ts:75-80 | A failed resolution leaves the requested abstraction uncached in its home scope |
| Construction.FactoryParamsResolved | src/container.ts:96-104 | Parameters that are all registered with factories are all resolved, and the pending stack is as on entry |
| Construction.InstancesPassedInOrder | src/container.ts:96-113 | When every parameter is registered as an instance, the object is constructed with exactly those instances in declared order |
| Construction.CachedParamReused | src/container.ts:58-66 | While the cache that serves a scope holds an instance of `b`, every occurrence of `b` among the parameters receives that instance |
| Construction.RepeatedParamShared | src/container.ts:96-104 | A Scoped or Singleton dependency that occurs twice among one constructor's parameters gets the same instance both times |
| Construction.SavedParamsCached | src/container.ts:75-80 | After the parameters are resolved, every Scoped or Singleton parameter is in the cache of its home scope (the root for singletons), holding exactly the value passed at its position |
| Construction.SavedArgsCached | src/container.ts:96-113 | Every Scoped or Singleton argument of a newly constructed object is what its home cache now keeps for that parameter |
| Construction.CachedParamsResolved | src/container.ts:58-66 | Parameters all Scoped or Singleton and all cached in their home scopes resolve with nothing produced and the tree and stack unchanged, each to its cached instance |
| Construction.CachedAfterFirst | src/container.ts:96-104 | When every parameter after the first is cached where its lifecycle keeps it once the first is resolved, the values are the first one's followed by those cached instances, and nothing else changes |
| Construction.TransientParamFresh | src/container.ts:68-73 | A Transient parameter with an allocating producer receives an object allocated while this parameter list was resolved |
| Construction.TransientAfterEarlier | src/container.ts:96-104 | A Transient parameter with an allocating producer receives an object allocated after every object an earlier parameter received |
| Construction.TransientValuesDistinct | tests/container/lifecycles/all-same-lifecycles.test.ts:8-15 | A Transient parameter with an allocating producer never receives a value an earlier parameter received, whether the two name the same abstraction or not |
| Construction.TransientParamsDistinct | tests/container/lifecycles/all-same-lifecycles.test.ts:8-15 | A new object's argument for a Transient parameter with an allocating producer differs from each of its earlier arguments: `C1`'s `d21` and `d22` are two objects |
| Construction.ConstructedOnMiss | src/container.ts:51-73 | An abstraction registered with a class and missing from its home cache is resolved by constructing that class in its home scope (the root for singletons): same result, stack and objects, and the tree is the construction's, or, after a success, that tree with the result stored for the abstraction in its home cache |
| Construction.ParameterlessConstructed | src/container.ts:85-114 | A parameterless class missing from its home cache and not pending resolves to one new object holding no arguments, the only object added |
| Construction.SavedParamTwice | src/container.ts:58-66 | A Scoped or Singleton dependency asked for twice in a row gives the same instance twice, the second request changing nothing |
| Construction.SingletonDependenciesResolvedAtRoot | tests/container/lifecycles/singleton-and-scoped-lifecycles.test.ts:66-76 | Resolving a singleton from any scope changes no cache other than the root's; when it is constructed afresh, each of its Scoped or Singleton arguments is the instance the root cache now keeps for that parameter, so its Scoped dependencies are resolved and shared at the root |
| BuilderProperties.LastProducerWins | src/container-builder.ts:44-57 | A second producer set on a handle overrides the first completely, in all four orders: `use` then `use`, `use` then `useFactory`, `useFactory` then `use`, and `useFactory` twice |
| BuilderProperties.LastLifecycleWins | src/container-builder.ts:71-74 | A second lifecycle call on a handle overrides the first completely |
| BuilderProperties.ProducerAndLifecycleCommute | src/container-builder.ts:44-74 | Setting the producer and setting the lifecycle give the same builder in either order |
| BuilderProperties.ForKeepsEarlierHandles | src/container-builder.ts:8-16 | A later `for` leaves every earlier handle valid and its registration unchanged, and returns a different handle |
| BuilderProperties.BuildResolvesFirstRegistration | src/container.ts:40-44 | Resolution in a built container uses, for each abstraction, its first registration with the producer and lifecycle it had at `build` |
| BuilderProperties.DuplicateRegistrationShadowed | src/container-builder.ts:8-16 | Registering an abstraction twice keeps both entries, and resolution uses the first one's producer |
| BuilderProperties.UnconfiguredRegistrationFailsOnResolve | src/container-builder.ts:18-24 | A registration without a producer survives `build`; only resolving it fails, with MissingProducer |
| BuilderProperties.RegisteredInstanceResolved | src/container-builder.ts:49-52 | After `for(a).useInstance(v)` in any lifecycle, resolving `a` from any scope of the built tree yields exactly `v` |
| Scenarios.TransientConcretionConstructed | src/container.ts:68-73 | A Transient registration with a concretion is resolved by constructing that concretion in the asking scope |
| Scenarios.FirstParamFailurePropagates | src/container.ts:98-101 | When a Transient concretion is already pending, resolving it fails with a cycle. Otherwise it fails exactly as its first parameter does |
| Scenarios.OneLevelCycleDetected | tests/container/cycles.test.ts:14-28 | A class whose constructor takes its own abstraction is rejected with DependencyCycle |
| Scenarios.TwoLevelCycleDetected | tests/container/cycles.test.ts:30-53 | Two classes taking each other's abstraction are rejected with DependencyCycle when the first abstraction is resolved. The test itself, at line 50, resolves the class rather than its interface, an id nothing is registered under because ids come from the declaring symbol (src/transformer.ts:282-294), and `expect(action).to.throw;` never calls the assertion; the lemma states the intended behaviour |
| Scenarios.ThreeLevelCycleDetected | tests/container/cycles.test.ts:55-87 | Three classes depending on each other in a ring are rejected with DependencyCycle when the first abstraction is resolved. As for the two-level test, line 84 resolves an unregistered class id and the `to.throw` assertion is never invoked; the lemma states the intended behaviour |
| Scenarios.NestedCycleDetected | tests/container/cycles.test.ts:89-109 | A class whose only dependency is self-dependent is rejected with DependencyCycle |
| Scenarios.InstanceDependenciesInjected | tests/container/basic-creation.test.ts:15-27 | A class taking two instance-registered dependencies resolves to a fresh object constructed with exactly those two instances, in declared order |
| Scenarios.ParameterlessConcretionResolves | src/container.ts:85-114 | A concretion without constructor parameters resolves in every lifecycle and scope, unless it is pending and has no cached instance to hand out |
| Scenarios.MixedRegistryScenario | src/container.ts:46-83 | In one built registry a Transient class resolved twice gives two distinct parameterless objects, a Singleton resolved from the root and then from a child scope gives the same instance, and a registration never given a producer fails with MissingProducer |
| Scenarios.ScopedPairBuilt | tests/container/lifecycles/three-level-registration-runner.ts:33-40 | A Scoped `C2(I3, I3)` over a Scoped parameterless `C3`, built by the root, is a new `C2` holding one new `C3` twice, and that `C3` is what the root cache keeps for `I3` |
| Scenarios.SingletonParamsShared | tests/container/lifecycles/three-level-registration-runner.ts:27-31 | The parameters of `C1(I2, I2, I3, I3)` resolved by the root are `[d, d, y, y]`: the `C2` built for the first `I2`, then the cached `C2` and the cached `C3` |
| Scenarios.SingletonOverScopedBuilt | tests/container/lifecycles/three-level-registration-runner.ts:27-40 | A Singleton `C1` over the Scoped pair, built by the root, holds one `C2` twice and one `C3` twice, and that `C3` is also both arguments of the `C2` |
| Scenarios.SingletonOverScopedScenario | tests/container/lifecycles/singleton-and-scoped-lifecycles.test.ts:66-76 | The Singleton, Scoped, Scoped three-level registry resolved twice in each of two scopes created from the root: all four results are one `C1`, whose `d21` and `d22` are one `C2` and whose `d31`, `d32`, `d21.d31` and `d21.d32` are one `C3` |
| ThreeLevel.FieldPairsAt | tests/container/lifecycles/three-level-registration-runner.ts:179-183 | Entry `i` of the flattened field list (as `getAll2sFrom1s` and `getAll3sFrom2s` build it) is field `k + i % 2` of instance `i / 2` |
| ThreeLevel.ThreeOfOne | tests/container/lifecycles/three-level-registration-runner.ts:185-193 | The third-level list holds six entries per first-level instance, and its first part is the `d31`, `d32` of each first-level instance in order |
| ThreeLevel.ThreeOfTwo | tests/container/lifecycles/three-level-registration-runner.ts:185-199 | After the first part, the third-level list continues with the `d31`, `d32` of each second-level instance in order |
| ThreeLevel.ThreeLevelTree | tests/container/lifecycles/three-level-registration-runner.ts:56-62 | Registering `I1`, `I2`, `I3` with their classes and lifecycles, building, and creating two scopes from the root gives a valid tree of three scopes, the two new ones distinct and empty, with nothing allocated, in which each abstraction resolves to its own registration |
| ThreeLevel.TransientTopBuilt | src/container.ts:85-114 | With every level Transient, one resolution of `I1` allocates nine objects: per `I2` parameter a `C2` over two new `C3`s, per `I3` parameter a new `C3`, and the `C1` last, which is the answer |
| ThreeLevel.TransientHeapDistinct | tests/container/lifecycles/three-level-registration-runner.ts:109-176 | After any number of Transient resolutions, the first-level instances, all their second-level fields and all third-level fields, nested ones included, are each pairwise different and of classes `C1`, `C2`, `C3` |
| ThreeLevel.AllTransientRun | tests/container/lifecycles/three-level-registration-runner.ts:64-68 | With every level Transient, the four resolutions from the two scopes each append one fresh nine-object layout and answer its `C1` |
| ThreeLevel.AllTransientScenario | tests/container/lifecycles/all-same-lifecycles.test.ts:8-15 | All Transient: the four `C1`s, their eight `I2` fields and their twenty-four `I3` fields are each pairwise different, nested ones included, and every instance has the expected class (runner lines 70-86) |
| ThreeLevel.SharedTopBuilt | src/container.ts:85-114 | A `C1` of any lifecycle over second and third levels kept in a cache, none cached yet, allocates exactly three objects: one `C3`, one `C2` holding it twice, and the `C1` holding that `C2` twice and that `C3` twice |
| ThreeLevel.ScopedResolvedTwice | src/container.ts:55-82 | With every level Scoped, the first request in a scope builds one shared three-object layout, the second request in that scope gets the same answer and tree back, and a different non-root scope's cache is left as it was |
| ThreeLevel.AllScopedRun | tests/container/lifecycles/three-level-registration-runner.ts:64-68 | With every level Scoped, each of the two scopes builds its own three-object layout on its first request and answers its second from its cache |
| ThreeLevel.AllScopedScenario | tests/container/lifecycles/all-same-lifecycles.test.ts:17-34 | All Scoped: within a scope both `C1`s are one object, its two `I2` fields are one `C2` and all its `I3` fields, nested ones included, are one `C3`; across the scopes the `C1`s, the `d21`s and the `d31`s differ; every instance has the expected class |
| ThreeLevel.SingletonResolvedOnce | src/container.ts:51-82 | A Singleton `C1` over cached levels is built once, by the first request from any scope, and every later request from either scope gets the same answer and tree back |
| ThreeLevel.SingletonOverCachedRun | tests/container/lifecycles/three-level-registration-runner.ts:64-68 | With a Singleton first level over Scoped or Singleton levels, the four requests all answer the one `C1` of a single three-object layout |
| ThreeLevel.SingletonOverCachedScenario | tests/container/lifecycles/singleton-and-scoped-lifecycles.test.ts:66-100 | Singleton over Scoped or Singleton levels in any combination (these three tests and the all-Singleton one at tests/container/lifecycles/all-same-lifecycles.test.ts:36-43): all `C1`s are one object, all `I2` fields one `C2`, all `I3` fields one `C3`, each of the expected class |

## Left out

- The compile-time transformers (src/transformer.ts, src/type-transformer.ts, src/functions-to-transform.ts, src/transformation-error.ts). They build identifiers from the TypeScript compiler's symbol API, which is not part of this model. Identifiers and constructor parameter lists arrive as plain data (`Types.Concretion`).
- `resolve(abstractionType)` versus `resolveByTypeId(id)`. The first only reads `.id` from its argument, so `ResolveById` takes the identifier directly.
- Error message texts. Errors are the four kinds of `ResolveError`.
- JavaScript `new`, `instanceof` and lodash. Construction is allocation of a heap record holding the concretion id and the ordered arguments.
- Arbitrary factory bodies. Only factories that return a fixed value (which is what `useInstance` makes) and factories that allocate a new object per call are modelled. A factory with side effects on the container is not.
- A factory that throws, and a constructor that throws. Neither can happen in the model, because neither body is modelled.
- Object identity across separately built containers. Each `build()` starts its own tree and heap, so objects of two trees are not compared.
- Handles and containers as references. A handle is the position of its registration, and a container is a scope index into its tree.
- The pending stack after a failure. The source leaves the identifiers of the aborted constructions on the stack. The exception ends the public call, which starts the next call with a fresh empty stack. So the model's contracts say nothing about the stack after a failure.
- The remaining three-level lifecycle tests (tests/container/lifecycles/all-different-lifecycles.test.ts, scoped-and-transient-lifecycles.test.ts, transient-and-singleton-lifecycles.test.ts, and the cases of singleton-and-scoped-lifecycles.test.ts with a Scoped first level). They are not restated as whole runs. Each resolution's own lifecycle behaviour is covered by the lifecycle lemmas (`TransientNeverShared`, `ScopedInstanceReused`, `SingletonSharedByAllScopes`, `ScopedSiblingsDistinct`), and sibling arguments by the argument lemmas in `Construction`. Their equalities and differences between nested fields across the four resolutions are not stated as lemmas.
- Scenarios.InstanceDependenciesInjected: states that the resolved object is the last one allocated, not that the heap holds only that object.

=== FILE: builder_properties.dfy ===
/**
 * What the registry builder promises (src/container-builder.ts): handles
 * configure only their own registration, the last configuration call of a
 * kind wins, and `build` freezes the registrations without validating them.
 */
module BuilderProperties {
  import opened Wrappers
  import opened Types
  import opened Container
  import opened ContainerBuilder
  import opened Lifecycles

  /** Setting the producer twice keeps only the second one, whichever of `use` / `useFactory` it was. */
  lemma LastProducerWins(b: Builder, h: RegistrationBuilder, c: Concretion, c': Concretion, f: Factory, f': Factory)
    requires Refers(b, h)
    ensures Use(Use(b, h, c), h, c') == Use(b, h, c')
    ensures UseFactory(Use(b, h, c), h, f) == UseFactory(b, h, f)
    ensures Use(UseFactory(b, h, f), h, c) == Use(b, h, c)
    ensures UseFactory(UseFactory(b, h, f), h, f') == UseFactory(b, h, f')
  {
  }

  /** Setting the lifecycle twice keeps only the second one. */
  lemma LastLifecycleWins(b: Builder, h: RegistrationBuilder, l: Lifecycle, l': Lifecycle)
    requires Refers(b, h)
    ensures InLifecycle(InLifecycle(b, h, l), h, l') == InLifecycle(b, h, l')
  {
  }

  /** Producer and lifecycle are independent settings: their order does not matter. */
  lemma ProducerAndLifecycleCommute(b: Builder, h: RegistrationBuilder, p: Producer, l: Lifecycle)
    requires Refers(b, h)
    ensures p.ClassType? ==> InLifecycle(Use(b, h, p.concretion), h, l) == Use(InLifecycle(b, h, l), h, p.concretion)
    ensures p.FactoryFn? ==> InLifecycle(UseFactory(b, h, p.factory), h, l) == UseFactory(InLifecycle(b, h, l), h, p.factory)
  {
  }

  /** A later `for` leaves every earlier handle referring to its own, unchanged registration. */
  lemma ForKeepsEarlierHandles(b: Builder, h: RegistrationBuilder, a: TypeId)
    requires Refers(b, h)
    ensures var (b', h') := For(b, a);
      Refers(b', h) && b'.tentative[h.index] == b.tentative[h.index] && h' != h
  {
  }

  /**
   * Resolution sees, for each abstraction, the first registration made for
   * it, frozen with the producer and lifecycle it had at `build`.
   */
  lemma BuildResolvesFirstRegistration(b: Builder, i: nat)
    requires i < |b.tentative|
    requires forall j | 0 <= j < i :: b.tentative[j].abstractionId != b.tentative[i].abstractionId
    ensures var reg := Lookup(Build(b).registrations, b.tentative[i].abstractionId);
      && reg.Some?
      && reg.value.producer == b.tentative[i].producer
      && reg.value.lifecycle == b.tentative[i].lifecycle
  {
    var t := Build(b);
    var k := FirstRegistration(t.registrations, b.tentative[i].abstractionId);
    assert t.registrations[i].abstractionId == b.tentative[i].abstractionId;
    assert k.Some?;
    forall j | 0 <= j < i
      ensures t.registrations[j].abstractionId != b.tentative[i].abstractionId
    {
    }
  }

  /**
   * Registering one abstraction twice keeps two entries; resolution uses the
   * one registered first, however the second is configured.
   */
  lemma DuplicateRegistrationShadowed(b: Builder, a: TypeId, c1: Concretion, c2: Concretion)
    requires forall j | 0 <= j < |b.tentative| :: b.tentative[j].abstractionId != a
    ensures var (b1, h1) := For(b, a);
      var b2 := Use(b1, h1, c1);
      var (b3, h2) := For(b2, a);
      var b4 := Use(b3, h2, c2);
      && |b4.tentative| == |b.tentative| + 2
      && Lookup(Build(b4).registrations, a).Some?
      && Lookup(Build(b4).registrations, a).value.producer == Some(ClassType(c1))
  {
    var (b1, h1) := For(b, a);
    var b2 := Use(b1, h1, c1);
    var (b3, h2) := For(b2, a);
    var b4 := Use(b3, h2, c2);
    assert b4.tentative[h1.index] == b2.tentative[h1.index];
    BuildResolvesFirstRegistration(b4, h1.index);
  }

  /**
   * `build` does not validate: a registration never given a producer is
   * frozen as it is, and only resolving it fails.
   */
  lemma UnconfiguredRegistrationFailsOnResolve(b: Builder, a: TypeId, l: Lifecycle)
    requires forall j | 0 <= j < |b.tentative| :: b.tentative[j].abstractionId != a
    ensures var (b1, h) := For(b, a);
      var t := Build(InLifecycle(b1, h, l));
      && |t.registrations| == |b.tentative| + 1
      && t.registrations[h.index].producer.None?
      && ResolveById(t, 0, a) == Resolved(Failure(MissingProducer), t)
  {
    var (b1, h) := For(b, a);
    var b2 := InLifecycle(b1, h, l);
    BuildResolvesFirstRegistration(b2, h.index);
    MissingProducerFails(Build(b2), 0, a, []);
  }

  /**
   * `useInstance(v)`: whatever the lifecycle, resolving the abstraction from
   * any scope of the built tree yields exactly `v`.
   */
  lemma RegisteredInstanceResolved(b: Builder, a: TypeId, v: nat, l: Lifecycle, t: ContainerTree, scope: ScopeId)
    requires forall j | 0 <= j < |b.tentative| :: b.tentative[j].abstractionId != a
    requires var (b1, h) := For(b, a);
      t.registrations == Build(InLifecycle(UseInstance(b1, h, v), h, l)).registrations
    requires Valid(t) && scope < |t.parents|
    ensures ResolveById(t, scope, a).result == Success(Supplied(v))
  {
    var (b1, h) := For(b, a);
    var b3 := InLifecycle(UseInstance(b1, h, v), h, l);
    BuildResolvesFirstRegistration(b3, h.index);
    SuppliedInstanceResolved(t, scope, a, v);
  }
}

=== FILE: construction.dfy ===
/**
 * Constructor injection (src/container.ts, `createConcretion`): parameters
 * are resolved in declared order, in the container that builds the object,
 * and handed to the constructor positionally.
 */
module Construction {
  import opened Wrappers
  import opened Types
  import opened Container
  import opened Lifecycles

  /** Every parameter is registered with a factory. */
  ghost predicate AllFactories(registrations: seq<Registration>, params: seq<TypeId>)
  {
    forall i | 0 <= i < |params| ::
      Lookup(registrations, params[i]).Some? && Lookup(registrations, params[i]).value.producer.Some?
      && Lookup(registrations, params[i]).value.producer.value.FactoryFn?
  }

  /** Parameters registered with factories are all resolved, leaving the stack as it was. */
  lemma {:induction false} FactoryParamsResolved(t: ContainerTree, scope: ScopeId, params: seq<TypeId>, pending: seq<TypeId>)
    requires Valid(t) && scope < |t.parents|
    requires AllFactories(t.registrations, params)
    ensures var r := ResolveParams(t, scope, params, pending);
      r.result.Success? && r.pending == pending
    decreases |params|
  {
    if |params| > 0 {
      FactoryNeverFails(t, scope, params[0], pending);
      var first := ResolveByIdInternal(t, scope, params[0], pending);
      assert AllFactories(first.tree.registrations, params[1..]) by {
        forall i | 0 <= i < |params[1..]|
          ensures Lookup(t.registrations, params[1..][i]).Some?
        {
          assert params[1..][i] == params[i + 1];
        }
      }
      FactoryParamsResolved(first.tree, scope, params[1..], pending);
    }
  }

  /**
   * Resolving a non-empty parameter list: it succeeds exactly when the first
   * parameter does and then the rest does, from the tree and stack the first
   * left; the values are the first one's followed by the rest's.
   */
  lemma ResolveParamsCons(t: ContainerTree, scope: ScopeId, params: seq<TypeId>, pending: seq<TypeId>)
    requires Valid(t) && scope < |t.parents| && |params| > 0
    ensures var first := ResolveByIdInternal(t, scope, params[0], pending);
      var rest := ResolveParams(first.tree, scope, params[1..], first.pending);
      && (ResolveParams(t, scope, params, pending).result.Success? <==> first.result.Success? && rest.result.Success?)
      && (first.result.Success? && rest.result.Success? ==>
            ResolveParams(t, scope, params, pending)
              == Resolution(Success([first.result.value] + rest.result.value), rest.tree, rest.pending))
  {
  }

  /**
   * A concretion whose parameters are all registered as instances receives
   * exactly those instances, position by position.
   */
  lemma InstancesPassedInOrder(t: ContainerTree, scope: ScopeId, c: Concretion, pending: seq<TypeId>, values: seq<Instance>)
    requires Valid(t) && scope < |t.parents| && c.id in ConcretionIds(t.registrations) && c.id !in pending
    requires |values| == |c.params|
    requires forall i | 0 <= i < |c.params| ::
      Lookup(t.registrations, c.params[i]).Some?
      && values[i].Supplied?
      && Lookup(t.registrations, c.params[i]).value.producer == Some(FactoryFn(ReturnInstance(values[i].value)))
    ensures var r := CreateConcretion(t, scope, c, pending);
      && r.result.Success?
      && r.tree.heap[r.result.value.ref] == Constructed(c.id, values)
  {
    FactoryParamsResolved(t, scope, c.params, pending + [c.id]);
    var r := CreateConcretion(t, scope, c, pending);
    var args := r.tree.heap[r.result.value.ref].args;
    assert args == values by {
      forall i | 0 <= i < |values|
        ensures args[i] == values[i]
      {
        ArgsMatchAt(t.registrations, r.tree.heap, c.params, args, i);
      }
    }
  }

  /**
   * While an instance of `b` sits in the cache that serves `scope`, every
   * occurrence of `b` among the parameters resolves to it.
   */
  lemma CachedParamReused(t: ContainerTree, scope: ScopeId, params: seq<TypeId>, pending: seq<TypeId>,
                           b: TypeId, v: Instance)
    requires Valid(t) && scope < |t.parents|
    requires Lookup(t.registrations, b).Some? && SavedInCache(Lookup(t.registrations, b).value.lifecycle)
    requires FindInstance(t.caches[Home(Lookup(t.registrations, b).value.lifecycle, scope)], b) == Some(v)
    ensures var r := ResolveParams(t, scope, params, pending);
      r.result.Success? ==> forall k | 0 <= k < |params| && params[k] == b :: r.result.value[k] == v
  {
    var r := ResolveParams(t, scope, params, pending);
    if r.result.Success? {
      var home := Home(Lookup(t.registrations, b).value.lifecycle, scope);
      FindInstanceInExtension(t.caches[home], r.tree.caches[home], b);
      SavedParamsCached(t, scope, params, pending);
    }
  }

  /**
   * Within one construction, a Scoped or Singleton dependency that appears
   * twice among the parameters is the same instance both times.
   */
  lemma RepeatedParamShared(t: ContainerTree, scope: ScopeId, params: seq<TypeId>, pending: seq<TypeId>, i: nat, j: nat)
    requires Valid(t) && scope < |t.parents|
    requires i < j < |params| && params[i] == params[j]
    requires Lookup(t.registrations, params[i]).Some? && SavedInCache(Lookup(t.registrations, params[i]).value.lifecycle)
    requires ResolveParams(t, scope, params, pending).result.Success?
    ensures var values := ResolveParams(t, scope, params, pending).result.value;
      values[i] == values[j]
  {
    SavedParamsCached(t, scope, params, pending);
  }


  /**
   * A constructed object holds exactly the values its parameters resolved
   * to, in the constructing scope with the concretion pushed on the stack;
   * the object is the only thing added after them.
   */
  lemma ConstructedFromParams(t: ContainerTree, scope: ScopeId, c: Concretion, pending: seq<TypeId>)
    requires Valid(t) && scope < |t.parents| && c.id in ConcretionIds(t.registrations)
    requires CreateConcretion(t, scope, c, pending).result.Success?
    ensures c.id !in pending
    ensures var r := CreateConcretion(t, scope, c, pending);
      var values := ResolveParams(t, scope, c.params, pending + [c.id]);
      && values.result.Success?
      && r.result.value == Object(|values.tree.heap|)
      && r.tree == values.tree.(heap := values.tree.heap + [Constructed(c.id, values.result.value)])
  {
  }

  /**
   * After the parameters are resolved, each Scoped or Singleton one sits in
   * the cache that serves `scope` (the root's for singletons), holding
   * exactly the value passed at its position.
   */
  lemma {:induction false} SavedParamsCached(t: ContainerTree, scope: ScopeId, params: seq<TypeId>, pending: seq<TypeId>)
    requires Valid(t) && scope < |t.parents|
    requires ResolveParams(t, scope, params, pending).result.Success?
    ensures var r := ResolveParams(t, scope, params, pending);
      forall k | 0 <= k < |params| && Lookup(t.registrations, params[k]).Some?
                 && SavedInCache(Lookup(t.registrations, params[k]).value.lifecycle) ::
        FindInstance(r.tree.caches[Home(Lookup(t.registrations, params[k]).value.lifecycle, scope)], params[k])
          == Some(r.result.value[k])
    decreases |params|
  {
    if |params| > 0 {
      var r := ResolveParams(t, scope, params, pending);
      var first := ResolveByIdInternal(t, scope, params[0], pending);
      var rest := ResolveParams(first.tree, scope, params[1..], first.pending);
      ResolveParamsCons(t, scope, params, pending);
      SavedParamsCached(first.tree, scope, params[1..], first.pending);
      forall k | 0 <= k < |params| && Lookup(t.registrations, params[k]).Some?
                 && SavedInCache(Lookup(t.registrations, params[k]).value.lifecycle)
        ensures FindInstance(r.tree.caches[Home(Lookup(t.registrations, params[k]).value.lifecycle, scope)], params[k])
          == Some(r.result.value[k])
      {
        var home := Home(Lookup(t.registrations, params[k]).value.lifecycle, scope);
        if k == 0 {
          FindInstanceInExtension(first.tree.caches[home], rest.tree.caches[home], params[0]);
        } else {
          assert params[1..][k - 1] == params[k];
        }
      }
    }
  }

  /**
   * Constructor injection leaves every Scoped or Singleton argument of the
   * new object in the cache that serves the constructing scope: a later
   * request for that abstraction there gets the very argument passed.
   */
  lemma SavedArgsCached(t: ContainerTree, scope: ScopeId, c: Concretion, pending: seq<TypeId>)
    requires Valid(t) && scope < |t.parents| && c.id in ConcretionIds(t.registrations)
    requires CreateConcretion(t, scope, c, pending).result.Success?
    ensures var r := CreateConcretion(t, scope, c, pending);
      var args := r.tree.heap[r.result.value.ref].args;
      && |args| == |c.params|
      && forall k | 0 <= k < |c.params| && Lookup(t.registrations, c.params[k]).Some?
                    && SavedInCache(Lookup(t.registrations, c.params[k]).value.lifecycle) ::
           FindInstance(r.tree.caches[Home(Lookup(t.registrations, c.params[k]).value.lifecycle, scope)], c.params[k])
             == Some(args[k])
  {
    ConstructedFromParams(t, scope, c, pending);
    SavedParamsCached(t, scope, c.params, pending + [c.id]);
  }

  /**
   * Parameters that are all Scoped or Singleton and already cached where
   * they are kept resolve without producing anything: the tree and stack
   * are unchanged and each value is the cached one.
   */
  lemma {:induction false} CachedParamsResolved(t: ContainerTree, scope: ScopeId, params: seq<TypeId>, pending: seq<TypeId>)
    requires Valid(t) && scope < |t.parents|
    requires forall k | 0 <= k < |params| ::
      && Lookup(t.registrations, params[k]).Some?
      && SavedInCache(Lookup(t.registrations, params[k]).value.lifecycle)
      && FindInstance(t.caches[Home(Lookup(t.registrations, params[k]).value.lifecycle, scope)], params[k]).Some?
    ensures var r := ResolveParams(t, scope, params, pending);
      && r.result.Success? && r.tree == t && r.pending == pending
      && |r.result.value| == |params|
      && forall k | 0 <= k < |params| ::
           Some(r.result.value[k])
             == FindInstance(t.caches[Home(Lookup(t.registrations, params[k]).value.lifecycle, scope)], params[k])
    decreases |params|
  {
    if |params| > 0 {
      var first := ResolveByIdInternal(t, scope, params[0], pending);
      assert first == Resolution(Success(first.result.value), t, pending);
      forall k | 0 <= k < |params[1..]|
        ensures params[1..][k] == params[k + 1]
      {
      }
      CachedParamsResolved(t, scope, params[1..], pending);
      var r := ResolveParams(t, scope, params, pending);
      var rest := ResolveParams(t, scope, params[1..], pending);
      assert r.result.value == [first.result.value] + rest.result.value;
      forall k | 0 <= k < |params|
        ensures Some(r.result.value[k])
          == FindInstance(t.caches[Home(Lookup(t.registrations, params[k]).value.lifecycle, scope)], params[k])
      {
        if k > 0 {
          assert r.result.value[k] == rest.result.value[k - 1];
        }
      }
    }
  }

  /** `a` is Transient with a producer that allocates: every resolution builds a new object. */
  ghost predicate AlwaysFresh(registrations: seq<Registration>, a: TypeId)
  {
    && Lookup(registrations, a).Some?
    && Lookup(registrations, a).value.lifecycle == Transient
    && Allocates(Lookup(registrations, a).value.producer)
  }

  /**
   * The value resolved for a Transient parameter with an allocating producer
   * is an object allocated during this resolution of the parameters.
   */
  lemma {:induction false} TransientParamFresh(t: ContainerTree, scope: ScopeId, params: seq<TypeId>,
                                               pending: seq<TypeId>, k: nat)
    requires Valid(t) && scope < |t.parents|
    requires k < |params| && AlwaysFresh(t.registrations, params[k])
    requires ResolveParams(t, scope, params, pending).result.Success?
    ensures var r := ResolveParams(t, scope, params, pending);
      && r.result.value[k].Object?
      && |t.heap| <= r.result.value[k].ref < |r.tree.heap|
    decreases k
  {
    var r := ResolveParams(t, scope, params, pending);
    var first := ResolveByIdInternal(t, scope, params[0], pending);
    var rest := ResolveParams(first.tree, scope, params[1..], first.pending);
    ResolveParamsCons(t, scope, params, pending);
    if k == 0 {
      assert Fresh(t, first.tree, first.result.value);
    } else {
      assert params[1..][k - 1] == params[k];
      TransientParamFresh(first.tree, scope, params[1..], first.pending, k - 1);
    }
  }

  /**
   * One step of the parameter loop, seen from the values: the first value is
   * the first parameter's resolution, an object already in the heap that the
   * remaining parameters are resolved against, and every later value is the
   * remaining parameters' value one position earlier.
   */
  lemma ParamValueAt(t: ContainerTree, scope: ScopeId, params: seq<TypeId>, pending: seq<TypeId>, k: nat)
    requires Valid(t) && scope < |t.parents| && k < |params|
    requires ResolveParams(t, scope, params, pending).result.Success?
    ensures var first := ResolveByIdInternal(t, scope, params[0], pending);
      var rest := ResolveParams(first.tree, scope, params[1..], first.pending);
      var values := ResolveParams(t, scope, params, pending).result.value;
      && first.result.Success? && rest.result.Success?
      && values[0] == first.result.value
      && (first.result.value.Object? ==> first.result.value.ref < |first.tree.heap|)
      && (0 < k ==> params[1..][k - 1] == params[k] && values[k] == rest.result.value[k - 1])
  {
    ResolveParamsCons(t, scope, params, pending);
  }

  /** The first step of `TransientAfterEarlier`: the first parameter's value. */
  lemma TransientAfterFirst(t: ContainerTree, scope: ScopeId, params: seq<TypeId>, pending: seq<TypeId>, j: nat)
    requires Valid(t) && scope < |t.parents|
    requires 0 < j < |params| && AlwaysFresh(t.registrations, params[j])
    requires ResolveParams(t, scope, params, pending).result.Success?
    ensures var values := ResolveParams(t, scope, params, pending).result.value;
      values[j].Object? && (values[0].Object? ==> values[0].ref < values[j].ref)
  {
    var first := ResolveByIdInternal(t, scope, params[0], pending);
    var values := ResolveParams(t, scope, params, pending).result.value;
    var later := ResolveParams(first.tree, scope, params[1..], first.pending).result.value;
    ParamValueAt(t, scope, params, pending, j);
    TransientParamFresh(first.tree, scope, params[1..], first.pending, j - 1);
    assert values[j] == later[j - 1] && |first.tree.heap| <= later[j - 1].ref;
  }

  /**
   * A Transient parameter with an allocating producer gets an object
   * allocated after every object resolved for an earlier parameter.
   */
  lemma {:induction false} TransientAfterEarlier(t: ContainerTree, scope: ScopeId, params: seq<TypeId>,
                                                 pending: seq<TypeId>, i: nat, j: nat)
    requires Valid(t) && scope < |t.parents|
    requires i < j < |params| && AlwaysFresh(t.registrations, params[j])
    requires ResolveParams(t, scope, params, pending).result.Success?
    ensures var values := ResolveParams(t, scope, params, pending).result.value;
      values[j].Object? && (values[i].Object? ==> values[i].ref < values[j].ref)
    decreases i
  {
    if i == 0 {
      TransientAfterFirst(t, scope, params, pending, j);
    } else {
      var first := ResolveByIdInternal(t, scope, params[0], pending);
      var values := ResolveParams(t, scope, params, pending).result.value;
      var later := ResolveParams(first.tree, scope, params[1..], first.pending).result.value;
      ParamValueAt(t, scope, params, pending, i);
      ParamValueAt(t, scope, params, pending, j);
      TransientAfterEarlier(first.tree, scope, params[1..], first.pending, i - 1, j - 1);
      assert values[i] == later[i - 1] && values[j] == later[j - 1];
    }
  }

  /**
   * A Transient parameter with an allocating producer never gets a value an
   * earlier parameter got: in particular two such parameters get two
   * different objects, whether they name the same abstraction or not.
   */
  lemma TransientValuesDistinct(t: ContainerTree, scope: ScopeId, params: seq<TypeId>, pending: seq<TypeId>, i: nat, j: nat)
    requires Valid(t) && scope < |t.parents|
    requires i < j < |params| && AlwaysFresh(t.registrations, params[j])
    requires ResolveParams(t, scope, params, pending).result.Success?
    ensures var values := ResolveParams(t, scope, params, pending).result.value;
      values[i] != values[j]
  {
    TransientAfterEarlier(t, scope, params, pending, i, j);
  }

  /**
   * A constructed object never receives one Transient object twice: the
   * argument for a Transient parameter with an allocating producer differs
   * from every earlier argument.
   */
  lemma TransientParamsDistinct(t: ContainerTree, scope: ScopeId, c: Concretion, pending: seq<TypeId>, i: nat, j: nat)
    requires Valid(t) && scope < |t.parents| && c.id in ConcretionIds(t.registrations)
    requires i < j < |c.params| && AlwaysFresh(t.registrations, c.params[j])
    requires CreateConcretion(t, scope, c, pending).result.Success?
    ensures var r := CreateConcretion(t, scope, c, pending);
      var args := r.tree.heap[r.result.value.ref].args;
      |args| == |c.params| && args[i] != args[j]
  {
    ConstructedFromParams(t, scope, c, pending);
    TransientValuesDistinct(t, scope, c.params, pending + [c.id], i, j);
  }

  /**
   * An abstraction registered with a concretion and not cached where its
   * lifecycle keeps it (never, for Transient) is resolved by constructing the
   * concretion in that scope: the root for singletons, the asking scope
   * otherwise. Result, stack and objects are the construction's; the tree is
   * the construction's too, or, after a success, that tree with the result
   * stored for `a` in the home cache.
   */
  lemma ConstructedOnMiss(t: ContainerTree, scope: ScopeId, a: TypeId, c: Concretion, pending: seq<TypeId>)
    requires Valid(t) && scope < |t.parents|
    requires Lookup(t.registrations, a).Some? && Lookup(t.registrations, a).value.producer == Some(ClassType(c))
    requires FindInstance(t.caches[Home(Lookup(t.registrations, a).value.lifecycle, scope)], a).None?
    ensures c.id in ConcretionIds(t.registrations)
    ensures var made := CreateConcretion(t, Home(Lookup(t.registrations, a).value.lifecycle, scope), c, pending);
      var r := ResolveByIdInternal(t, scope, a, pending);
      && r.result == made.result && r.pending == made.pending
      && r.tree.heap == made.tree.heap && Grows(made.tree, r.tree)
    ensures var home := Home(Lookup(t.registrations, a).value.lifecycle, scope);
      var made := CreateConcretion(t, home, c, pending);
      var r := ResolveByIdInternal(t, scope, a, pending);
      || r.tree == made.tree
      || (r.result.Success? && r.tree == Store(made.tree, home, a, r.result.value))
  {
    var reg := Lookup(t.registrations, a).value;
    var home := Home(reg.lifecycle, scope);
    LookupConcretionIsRegistered(t.registrations, a, c);
    if reg.lifecycle == Singleton {
      SingletonResolvedAtRoot(t, scope, a, pending);
    }
    var r := ResolveInScope(t, home, a, reg, pending);
    var made := Produce(t, home, a, reg, pending);
  }

  /**
   * Constructing a concretion that is not pending succeeds as soon as its
   * parameters resolve.
   */
  lemma ParamsResolvedConstructs(t: ContainerTree, scope: ScopeId, c: Concretion, pending: seq<TypeId>)
    requires Valid(t) && scope < |t.parents| && c.id in ConcretionIds(t.registrations) && c.id !in pending
    requires ResolveParams(t, scope, c.params, pending + [c.id]).result.Success?
    ensures var values := ResolveParams(t, scope, c.params, pending + [c.id]);
      CreateConcretion(t, scope, c, pending)
        == Resolution(Success(Object(|values.tree.heap|)),
                      values.tree.(heap := values.tree.heap + [Constructed(c.id, values.result.value)]), pending)
  {
  }

  /**
   * Once the first parameter is resolved, the rest being cached where they
   * are kept means nothing else happens: the values are the first one's
   * followed by the cached ones, in order.
   */
  lemma CachedAfterFirst(t: ContainerTree, scope: ScopeId, params: seq<TypeId>, pending: seq<TypeId>, cached: seq<Instance>)
    requires Valid(t) && scope < |t.parents| && |params| == |cached| + 1
    requires ResolveByIdInternal(t, scope, params[0], pending).result.Success?
    requires forall k | 1 <= k < |params| ::
      && Lookup(t.registrations, params[k]).Some?
      && SavedInCache(Lookup(t.registrations, params[k]).value.lifecycle)
      && FindInstance(ResolveByIdInternal(t, scope, params[0], pending)
                        .tree.caches[Home(Lookup(t.registrations, params[k]).value.lifecycle, scope)], params[k])
           == Some(cached[k - 1])
    ensures var first := ResolveByIdInternal(t, scope, params[0], pending);
      ResolveParams(t, scope, params, pending)
        == Resolution(Success([first.result.value] + cached), first.tree, first.pending)
  {
    var first := ResolveByIdInternal(t, scope, params[0], pending);
    var tail := params[1..];
    forall k | 0 <= k < |tail|
      ensures && Lookup(first.tree.registrations, tail[k]).Some?
              && SavedInCache(Lookup(first.tree.registrations, tail[k]).value.lifecycle)
              && FindInstance(first.tree.caches[Home(Lookup(first.tree.registrations, tail[k]).value.lifecycle, scope)], tail[k])
                   == Some(cached[k])
    {
      assert tail[k] == params[k + 1];
    }
    CachedParamsResolved(first.tree, scope, tail, first.pending);
    var rest := ResolveParams(first.tree, scope, tail, first.pending);
    assert rest.result.value == cached by {
      forall k | 0 <= k < |cached|
        ensures rest.result.value[k] == cached[k]
      {
        assert tail[k] == params[k + 1];
      }
    }
    ResolveParamsCons(t, scope, params, pending);
  }

  /**
   * A parameterless concretion not cached where its lifecycle keeps it, and
   * not pending, is built as one new object holding no arguments.
   */
  lemma ParameterlessConstructed(t: ContainerTree, scope: ScopeId, a: TypeId, c: Concretion, pending: seq<TypeId>)
    requires Valid(t) && scope < |t.parents|
    requires Lookup(t.registrations, a).Some? && Lookup(t.registrations, a).value.producer == Some(ClassType(c))
    requires c.params == [] && c.id !in pending
    requires FindInstance(t.caches[Home(Lookup(t.registrations, a).value.lifecycle, scope)], a).None?
    ensures var r := ResolveByIdInternal(t, scope, a, pending);
      && r.result == Success(Object(|t.heap|)) && r.pending == pending
      && r.tree.heap == t.heap + [Constructed(c.id, [])]
  {
    var home := Home(Lookup(t.registrations, a).value.lifecycle, scope);
    ConstructedOnMiss(t, scope, a, c, pending);
    assert ResolveParams(t, home, c.params, pending + [c.id]) == Resolution(Success([]), t, pending + [c.id]);
    ParamsResolvedConstructs(t, home, c, pending);
  }

  /**
   * A Scoped or Singleton dependency asked for twice in a row: the second
   * request is served from the cache the first one filled.
   */
  lemma SavedParamTwice(t: ContainerTree, scope: ScopeId, a: TypeId, pending: seq<TypeId>)
    requires Valid(t) && scope < |t.parents|
    requires Lookup(t.registrations, a).Some? && SavedInCache(Lookup(t.registrations, a).value.lifecycle)
    requires ResolveByIdInternal(t, scope, a, pending).result.Success?
    ensures var first := ResolveByIdInternal(t, scope, a, pending);
      ResolveParams(t, scope, [a, a], pending)
        == Resolution(Success([first.result.value, first.result.value]), first.tree, first.pending)
  {
    var first := ResolveByIdInternal(t, scope, a, pending);
    CachedAfterFirst(t, scope, [a, a], pending, [first.result.value]);
    assert [first.result.value] + [first.result.value] == [first.result.value, first.result.value];
  }

  /**
   * A singleton asked of any scope is built by the root, so its dependencies
   * are resolved there too: no cache but the root's changes, and when it is
   * constructed afresh, each of its Scoped or Singleton arguments is the
   * instance the root cache now keeps for that parameter.
   */
  lemma SingletonDependenciesResolvedAtRoot(t: ContainerTree, scope: ScopeId, a: TypeId)
    requires Valid(t) && scope < |t.parents|
    requires Lookup(t.registrations, a).Some? && Lookup(t.registrations, a).value.lifecycle == Singleton
    ensures var r := ResolveById(t, scope, a);
      forall s | 1 <= s < |t.caches| :: r.tree.caches[s] == t.caches[s]
    ensures var r := ResolveById(t, scope, a);
      var producer := Lookup(t.registrations, a).value.producer;
      r.result.Success? && producer.Some? && producer.value.ClassType? && FindInstance(t.caches[0], a).None? ==>
        var params := producer.value.concretion.params;
        var args := r.tree.heap[r.result.value.ref].args;
        && |args| == |params|
        && forall k | 0 <= k < |params| && Lookup(t.registrations, params[k]).Some?
                      && SavedInCache(Lookup(t.registrations, params[k]).value.lifecycle) ::
             FindInstance(r.tree.caches[0], params[k]) == Some(args[k])
  {
    var r := ResolveByIdInternal(t, scope, a, []);
    assert Untouched(t, r.tree, 0);
    var producer := Lookup(t.registrations, a).value.producer;
    if r.result.Success? && producer.Some? && producer.value.ClassType? && FindInstance(t.caches[0], a).None? {
      var c := producer.value.concretion;
      ConstructedOnMiss(t, scope, a, c, []);
      SavedArgsCached(t, 0, c, []);
      var made := CreateConcretion(t, 0, c, []);
      var args := made.tree.heap[made.result.value.ref].args;
      assert r.tree.heap[r.result.value.ref].args == args;
      forall k | 0 <= k < |c.params| && Lookup(t.registrations, c.params[k]).Some?
                 && SavedInCache(Lookup(t.registrations, c.params[k]).value.lifecycle)
        ensures FindInstance(r.tree.caches[0], c.params[k]) == Some(args[k])
      {
        FindInstanceInExtension(made.tree.caches[0], r.tree.caches[0], c.params[k]);
      }
    }
  }
}

=== FILE: container.dfy ===
/**
 * The resolver (src/container.ts): a tree of containers that share one
 * frozen registration table, each with its own cache of instances, and the
 * recursive constructor injection that resolves an abstraction identifier
 * into an instance.
 *
 * The mutable state of the source (every scope's cache, the objects created
 * so far and the pending stack of the current resolution) is passed in and
 * returned explicitly.
 */
module Container {
  import opened Wrappers
  import opened Types

  /** How instances of a registered abstraction are reused. */
  datatype Lifecycle = Transient | Scoped | Singleton

  /**
   * A value handed out by the container: an object the container allocated
   * (a reference into the heap) or a value supplied from outside by `useInstance`.
   */
  datatype Instance = Object(ref: nat) | Supplied(value: nat)

  /**
   * A zero-argument factory: one that always returns the same value supplied
   * from outside (`useInstance`), or one that allocates a new object on every call.
   */
  datatype Factory = ReturnInstance(value: nat) | Manufacture(token: string)

  /** The `concretionTypeOrFactoryFn` field of a registration. */
  datatype Producer = ClassType(concretion: Concretion) | FactoryFn(factory: Factory)

  /** A frozen registration; `producer` is `None` when no `use*` call configured it. */
  datatype Registration = Registration(abstractionId: TypeId, producer: Option<Producer>, lifecycle: Lifecycle)

  /** What an allocated object is: a constructed concretion with its arguments, or a factory product. */
  datatype ObjectRecord = Constructed(concretionId: TypeId, args: seq<Instance>) | Manufactured(token: string)

  /** An entry of a scope's cache (IInstantiatedConcretion). */
  datatype InstantiatedConcretion = InstantiatedConcretion(abstractionId: TypeId, instance: Instance)

  type ScopeId = nat
  type Cache = seq<InstantiatedConcretion>

  /**
   * All containers created from one `build()`: scope 0 is the root, every
   * other scope has the index of the container that created it as parent;
   * `caches[s]` is the cache of scope `s`; `heap[n]` describes `Object(n)`.
   */
  datatype ContainerTree = ContainerTree(
    registrations: seq<Registration>,
    parents: seq<Option<ScopeId>>,
    caches: seq<Cache>,
    heap: seq<ObjectRecord>)

  /** The errors a resolution can raise. */
  datatype ResolveError = UnregisteredType | MissingProducer | DependencyCycle | IncorrectImplementation

  /** The result of an internal resolution step with the tree and pending stack after it. */
  datatype Resolution<+T> = Resolution(result: Result<T, ResolveError>, tree: ContainerTree, pending: seq<TypeId>)

  /** The result of a public `resolve` call with the tree after it. */
  datatype Resolved = Resolved(result: Result<Instance, ResolveError>, tree: ContainerTree)

  // ---------------------------------------------------------------------------
  // Lookup
  // ---------------------------------------------------------------------------

  /** Index of the first registration for `a`, as `_.find` over the table. */
  function FirstRegistration(registrations: seq<Registration>, a: TypeId): (i: Option<nat>)
    ensures i.Some? ==> i.value < |registrations| && registrations[i.value].abstractionId == a
    ensures i.Some? ==> forall j | 0 <= j < i.value :: registrations[j].abstractionId != a
    ensures i.None? ==> forall j | 0 <= j < |registrations| :: registrations[j].abstractionId != a
  {
    if |registrations| == 0 then None
    else if registrations[0].abstractionId == a then Some(0)
    else
      match FirstRegistration(registrations[1..], a)
      case None => None
      case Some(k) => Some(k + 1)
  }

  /** The registration resolution uses for `a`: the first one registered. */
  function Lookup(registrations: seq<Registration>, a: TypeId): Option<Registration>
  {
    match FirstRegistration(registrations, a)
    case None => None
    case Some(i) => Some(registrations[i])
  }

  /** The abstraction each entry of `cache` is for, in order. */
  function CachedIds(cache: Cache): seq<TypeId>
  {
    if |cache| == 0 then [] else [cache[0].abstractionId] + CachedIds(cache[1..])
  }

  /** The position of the first entry for `a` in `cache`, or `|cache|` when there is none. */
  ghost function FirstEntry(cache: Cache, a: TypeId): nat
  {
    if |cache| == 0 || cache[0].abstractionId == a then 0 else 1 + FirstEntry(cache[1..], a)
  }

  /**
   * The instance cached for `a` in one scope: the first matching entry, the
   * one no entry before it is for `a`.
   */
  function FindInstance(cache: Cache, a: TypeId): (r: Option<Instance>)
    ensures r.Some? ==> var j := FirstEntry(cache, a);
      j < |cache| && cache[j] == InstantiatedConcretion(a, r.value) && a !in CachedIds(cache[..j])
    ensures r.None? <==> a !in CachedIds(cache)
  {
    if |cache| == 0 then None
    else if cache[0].abstractionId == a then (assert cache[..0] == []; Some(cache[0].instance))
    else
      var r := FindInstance(cache[1..], a);
      assert r.Some? ==> var j := FirstEntry(cache[1..], a); cache[..j + 1] == [cache[0]] + cache[1..][..j];
      r
  }

  lemma {:induction false} FindInstanceInExtension(cache: Cache, longer: Cache, a: TypeId)
    requires cache <= longer && FindInstance(cache, a).Some?
    ensures FindInstance(longer, a) == FindInstance(cache, a)
  {
    if cache[0].abstractionId != a {
      assert cache[1..] <= longer[1..];
      FindInstanceInExtension(cache[1..], longer[1..], a);
    }
  }

  lemma {:induction false} FindInstanceAfterAppend(cache: Cache, e: InstantiatedConcretion, a: TypeId)
    requires FindInstance(cache, a).None?
    ensures FindInstance(cache + [e], a) == if e.abstractionId == a then Some(e.instance) else None
  {
    if |cache| > 0 {
      assert (cache + [e])[1..] == cache[1..] + [e];
      FindInstanceAfterAppend(cache[1..], e, a);
    }
  }

  // ---------------------------------------------------------------------------
  // Well-formedness of a tree of containers
  // ---------------------------------------------------------------------------

  /** Scope 0 is the only root; every other scope was created by an earlier one. */
  ghost predicate WellFormedParents(parents: seq<Option<ScopeId>>)
  {
    && |parents| > 0
    && parents[0].None?
    && forall s | 1 <= s < |parents| :: parents[s].Some? && parents[s].value < s
  }

  /** Distance of a scope from the root. */
  ghost function Depth(parents: seq<Option<ScopeId>>, s: ScopeId): nat
    requires WellFormedParents(parents) && s < |parents|
    decreases s
  {
    if s == 0 then 0 else 1 + Depth(parents, parents[s].value)
  }

  /** `v` is something `producer` can hand out, given the objects in `heap`. */
  ghost predicate Produces(heap: seq<ObjectRecord>, producer: Option<Producer>, v: Instance)
  {
    match producer
    case None => false
    case Some(FactoryFn(ReturnInstance(x))) => v == Supplied(x)
    case Some(FactoryFn(Manufacture(token))) =>
      v.Object? && v.ref < |heap| && heap[v.ref] == Manufactured(token)
    case Some(ClassType(c)) =>
      && v.Object? && v.ref < |heap| && heap[v.ref].Constructed?
      && heap[v.ref].concretionId == c.id && |heap[v.ref].args| == |c.params|
  }

  /** The producer allocates a new object on every invocation. */
  predicate Allocates(producer: Option<Producer>)
  {
    producer.Some? && (producer.value.ClassType? || producer.value.factory.Manufacture?)
  }

  /** The lifecycles whose instances are saved in a cache (source line 55-56). */
  predicate SavedInCache(lifecycle: Lifecycle)
  {
    lifecycle == Singleton || lifecycle == Scoped
  }

  /**
   * The scope whose cache holds the instances of a cached registration
   * resolved from `scope`: the root for singletons, `scope` itself otherwise.
   */
  function Home(lifecycle: Lifecycle, scope: ScopeId): ScopeId
  {
    if lifecycle == Singleton then 0 else scope
  }

  /**
   * A cache entry is justified: its abstraction is registered, its lifecycle
   * caches in this scope (singletons only at the root), and its instance
   * comes from the registered producer.
   */
  ghost predicate Justified(t: ContainerTree, s: ScopeId, e: InstantiatedConcretion)
    requires s < |t.parents|
  {
    match Lookup(t.registrations, e.abstractionId)
    case None => false
    case Some(reg) =>
      && (reg.lifecycle == Scoped || (reg.lifecycle == Singleton && t.parents[s].None?))
      && Produces(t.heap, reg.producer, e.instance)
  }

  ghost predicate Valid(t: ContainerTree)
  {
    && WellFormedParents(t.parents)
    && |t.caches| == |t.parents|
    && forall s, j | 0 <= s < |t.caches| && 0 <= j < |t.caches[s]| :: Justified(t, s, t.caches[s][j])
  }

  // ---------------------------------------------------------------------------
  // Relations between the tree before and after a resolution
  // ---------------------------------------------------------------------------

  /** Same table and scopes; caches and heap only grow at their end. */
  ghost predicate Grows(t: ContainerTree, t': ContainerTree)
  {
    && t'.registrations == t.registrations
    && t'.parents == t.parents
    && |t'.caches| == |t.caches|
    && (forall s | 0 <= s < |t.caches| :: t.caches[s] <= t'.caches[s])
    && t.heap <= t'.heap
  }

  /**
   * Like `Grows`, but new scopes may have been created too: every existing
   * scope keeps its parent, and every existing cache only grows at its end.
   */
  ghost predicate Extends(t: ContainerTree, t': ContainerTree)
  {
    && t'.registrations == t.registrations
    && t.parents <= t'.parents
    && |t.caches| <= |t'.caches|
    && (forall s | 0 <= s < |t.caches| :: t.caches[s] <= t'.caches[s])
    && t.heap <= t'.heap
  }

  lemma ExtendsTransitive(t: ContainerTree, t': ContainerTree, t'': ContainerTree)
    requires Extends(t, t') && Extends(t', t'')
    ensures Extends(t, t'')
  {
    forall s | 0 <= s < |t.caches|
      ensures t.caches[s] <= t''.caches[s]
    {
      assert t.caches[s] <= t'.caches[s] <= t''.caches[s];
    }
  }

  /** Only the caches of `scope` and of the root may differ. */
  ghost predicate Untouched(t: ContainerTree, t': ContainerTree, scope: ScopeId)
  {
    && |t'.caches| == |t.caches|
    && forall x | 0 <= x < |t.caches| && x != scope && x != 0 :: t'.caches[x] == t.caches[x]
  }

  /** `b` resolves to a concretion that is currently under construction. */
  ghost predicate PendingAbstraction(registrations: seq<Registration>, b: TypeId, pending: seq<TypeId>)
  {
    match Lookup(registrations, b)
    case Some(Registration(_, Some(ClassType(c)), _)) => c.id in pending
    case _ => false
  }

  /** No scope gains a cache entry for an abstraction whose concretion is pending. */
  ghost predicate KeepsPendingUncached(t: ContainerTree, t': ContainerTree, pending: seq<TypeId>)
  {
    && |t'.caches| == |t.caches|
    && forall s, b | 0 <= s < |t.caches| && PendingAbstraction(t.registrations, b, pending)
                     && FindInstance(t.caches[s], b).None? :: FindInstance(t'.caches[s], b).None?
  }

  /** The frame every resolution step keeps. */
  ghost predicate Step(t: ContainerTree, t': ContainerTree, scope: ScopeId, pending: seq<TypeId>)
  {
    Valid(t') && Grows(t, t') && Untouched(t, t', scope) && KeepsPendingUncached(t, t', pending)
  }

  /** `v` is the object allocated last, and it did not exist in `t`. */
  ghost predicate Fresh(t: ContainerTree, t': ContainerTree, v: Instance)
  {
    v.Object? && |t.heap| <= v.ref && v.ref + 1 == |t'.heap|
  }

  /** Each argument was produced by the registration of the parameter at its position. */
  ghost predicate ArgsMatch(registrations: seq<Registration>, heap: seq<ObjectRecord>, params: seq<TypeId>, args: seq<Instance>)
    decreases |params|
  {
    && |args| == |params|
    && (|params| > 0 ==>
          && Lookup(registrations, params[0]).Some?
          && Produces(heap, Lookup(registrations, params[0]).value.producer, args[0])
          && ArgsMatch(registrations, heap, params[1..], args[1..]))
  }

  /** Argument `i` of a matching list comes from the registration of parameter `i`. */
  lemma {:induction false} ArgsMatchAt(registrations: seq<Registration>, heap: seq<ObjectRecord>, params: seq<TypeId>, args: seq<Instance>, i: nat)
    requires ArgsMatch(registrations, heap, params, args) && i < |params|
    ensures Lookup(registrations, params[i]).Some? && Produces(heap, Lookup(registrations, params[i]).value.producer, args[i])
    decreases i
  {
    if i > 0 {
      ArgsMatchAt(registrations, heap, params[1..], args[1..], i - 1);
    }
  }

  // ---------------------------------------------------------------------------
  // Termination measure
  // ---------------------------------------------------------------------------

  /** Identifiers of all concretions the table can construct. */
  ghost function ConcretionIds(registrations: seq<Registration>): set<TypeId>
  {
    set r | r in registrations && r.producer.Some? && r.producer.value.ClassType? :: r.producer.value.concretion.id
  }

  /** Concretions of the table that are not on the pending stack. */
  ghost function Unbuilt(registrations: seq<Registration>, pending: seq<TypeId>): nat
  {
    |ConcretionIds(registrations) - (set x | x in pending)|
  }

  lemma PushShrinksUnbuilt(registrations: seq<Registration>, pending: seq<TypeId>, id: TypeId)
    requires id in ConcretionIds(registrations) && id !in pending
    ensures Unbuilt(registrations, pending + [id]) < Unbuilt(registrations, pending)
  {
    var all := ConcretionIds(registrations);
    var before := all - (set x | x in pending);
    var after := all - (set x | x in pending + [id]);
    assert after == before - {id};
    assert id in before;
  }

  lemma LookupConcretionIsRegistered(registrations: seq<Registration>, a: TypeId, c: Concretion)
    requires Lookup(registrations, a).Some? && Lookup(registrations, a).value.producer == Some(ClassType(c))
    ensures c.id in ConcretionIds(registrations)
  {
    var r := Lookup(registrations, a).value;
    assert r in registrations;
  }

  // ---------------------------------------------------------------------------
  // Cache and heap updates
  // ---------------------------------------------------------------------------

  /**
   * Saves `a -> v` in the cache of `scope` (source lines 75-80). Lookups see
   * the first entry, so the new one answers only where `a` had none.
   */
  function Store(t: ContainerTree, scope: ScopeId, a: TypeId, v: Instance): (t': ContainerTree)
    requires scope < |t.caches|
    ensures t'.registrations == t.registrations && t'.parents == t.parents && t'.heap == t.heap
    ensures |t'.caches| == |t.caches| && t.caches[scope] <= t'.caches[scope]
    ensures forall x | 0 <= x < |t.caches| && x != scope :: t'.caches[x] == t.caches[x]
    ensures FindInstance(t.caches[scope], a).None? ==> FindInstance(t'.caches[scope], a) == Some(v)
    ensures FindInstance(t.caches[scope], a).Some? ==> FindInstance(t'.caches[scope], a) == FindInstance(t.caches[scope], a)
  {
    var cache := t.caches[scope] + [InstantiatedConcretion(a, v)];
    if FindInstance(t.caches[scope], a).None? then
      FindInstanceAfterAppend(t.caches[scope], InstantiatedConcretion(a, v), a);
      t.(caches := t.caches[scope := cache])
    else
      FindInstanceInExtension(t.caches[scope], cache, a);
      t.(caches := t.caches[scope := cache])
  }

  /**
   * Saving `a -> v` changes no other answer: in the saved scope every other
   * abstraction is found exactly as before, and every other scope is untouched.
   */
  lemma StoreKeepsOtherAnswers(t: ContainerTree, scope: ScopeId, a: TypeId, v: Instance)
    requires scope < |t.caches|
    ensures forall b | b != a ::
      FindInstance(Store(t, scope, a, v).caches[scope], b) == FindInstance(t.caches[scope], b)
  {
    var e := InstantiatedConcretion(a, v);
    forall b | b != a
      ensures FindInstance(Store(t, scope, a, v).caches[scope], b) == FindInstance(t.caches[scope], b)
    {
      assert Store(t, scope, a, v).caches[scope] == t.caches[scope] + [e];
      if FindInstance(t.caches[scope], b).Some? {
        FindInstanceInExtension(t.caches[scope], t.caches[scope] + [e], b);
      } else {
        FindInstanceAfterAppend(t.caches[scope], e, b);
      }
    }
  }

  /** Allocates a new object: its reference is the current size of the heap. */
  function Allocate(heap: seq<ObjectRecord>, record: ObjectRecord): (Instance, seq<ObjectRecord>)
  {
    (Object(|heap|), heap + [record])
  }

  /**
   * Calls a zero-argument factory (source line 70): it always succeeds, never
   * touches a cache or the pending stack, and either hands back the supplied
   * value or allocates one new object.
   */
  function Invoke(t: ContainerTree, f: Factory, pending: seq<TypeId>): (r: Resolution<Instance>)
    ensures r.result.Success? && r.pending == pending
    ensures r.tree == t.(heap := r.tree.heap) && t.heap <= r.tree.heap
    ensures f.ReturnInstance? ==> r.result.value == Supplied(f.value) && r.tree == t
    ensures f.Manufacture? ==>
      Fresh(t, r.tree, r.result.value) && r.tree.heap[r.result.value.ref] == Manufactured(f.token)
  {
    match f
    case ReturnInstance(v) => Resolution(Success(Supplied(v)), t, pending)
    case Manufacture(token) =>
      var (v, heap) := Allocate(t.heap, Manufactured(token));
      Resolution(Success(v), t.(heap := heap), pending)
  }

  lemma InvokeKeepsStep(t: ContainerTree, scope: ScopeId, f: Factory, pending: seq<TypeId>)
    requires Valid(t) && scope < |t.parents|
    ensures Step(t, Invoke(t, f, pending).tree, scope, pending)
  {
    GrowsKeepsValid(t, Invoke(t, f, pending).tree);
  }

  lemma KeepsPendingUncachedWeaken(t: ContainerTree, t': ContainerTree, pending: seq<TypeId>, id: TypeId)
    requires KeepsPendingUncached(t, t', pending + [id])
    ensures KeepsPendingUncached(t, t', pending)
  {
    forall b | PendingAbstraction(t.registrations, b, pending)
      ensures PendingAbstraction(t.registrations, b, pending + [id])
    {
    }
  }

  lemma ProducesInLargerHeap(heap: seq<ObjectRecord>, heap': seq<ObjectRecord>, producer: Option<Producer>, v: Instance)
    requires heap <= heap' && Produces(heap, producer, v)
    ensures Produces(heap', producer, v)
  {
    if v.Object? && v.ref < |heap| {
      assert heap'[v.ref] == heap[v.ref];
    }
  }

  lemma GrowsKeepsValid(t: ContainerTree, t': ContainerTree)
    requires Valid(t) && t' == t.(heap := t'.heap) && t.heap <= t'.heap
    ensures Valid(t')
  {
    forall s, j | 0 <= s < |t'.caches| && 0 <= j < |t'.caches[s]|
      ensures Justified(t', s, t'.caches[s][j])
    {
      assert Justified(t, s, t.caches[s][j]);
      var e := t.caches[s][j];
      var reg := Lookup(t.registrations, e.abstractionId).value;
      ProducesInLargerHeap(t.heap, t'.heap, reg.producer, e.instance);
    }
  }

  lemma StoreKeepsInvariants(t: ContainerTree, scope: ScopeId, a: TypeId, v: Instance, pending: seq<TypeId>)
    requires Valid(t) && scope < |t.parents|
    requires Lookup(t.registrations, a).Some?
    requires var reg := Lookup(t.registrations, a).value;
      && (reg.lifecycle == Scoped || (reg.lifecycle == Singleton && scope == 0))
      && Produces(t.heap, reg.producer, v)
    requires FindInstance(t.caches[scope], a).None?
    requires !PendingAbstraction(t.registrations, a, pending)
    ensures var t' := Store(t, scope, a, v);
      && Valid(t') && Grows(t, t') && Untouched(t, t', scope)
      && KeepsPendingUncached(t, t', pending)
      && FindInstance(t'.caches[scope], a) == Some(v)
  {
    var e := InstantiatedConcretion(a, v);
    var t' := Store(t, scope, a, v);
    forall s, j | 0 <= s < |t'.caches| && 0 <= j < |t'.caches[s]|
      ensures Justified(t', s, t'.caches[s][j])
    {
      if s == scope && j == |t.caches[scope]| {
        assert t'.caches[s][j] == e;
      } else {
        assert t'.caches[s][j] == t.caches[s][j];
        assert Justified(t, s, t.caches[s][j]);
      }
    }
    forall s, b | 0 <= s < |t.caches| && PendingAbstraction(t.registrations, b, pending)
                  && FindInstance(t.caches[s], b).None?
      ensures FindInstance(t'.caches[s], b).None?
    {
      if s == scope {
        FindInstanceAfterAppend(t.caches[s], e, b);
      }
    }
    FindInstanceAfterAppend(t.caches[scope], e, a);
  }

  // ---------------------------------------------------------------------------
  // Resolution
  // ---------------------------------------------------------------------------

  /**
   * `resolveByTypeIdInternal`: resolves `a` in container `scope` with the
   * given stack of concretions under construction. A singleton asked of a
   * container that has a parent is delegated, cache check included, to the
   * parent (source lines 51-53).
   */
  function ResolveByIdInternal(t: ContainerTree, scope: ScopeId, a: TypeId, pending: seq<TypeId>): (r: Resolution<Instance>)
    requires Valid(t) && scope < |t.parents|
    ensures Step(t, r.tree, scope, pending)
    ensures r.result.Success? ==> r.pending == pending
    ensures r.result != Failure(IncorrectImplementation)
    ensures Lookup(t.registrations, a).None? ==> r == Resolution(Failure(UnregisteredType), t, pending)
    ensures r.result.Success? ==>
      Lookup(t.registrations, a).Some? && Produces(r.tree.heap, Lookup(t.registrations, a).value.producer, r.result.value)
    // singletons are resolved, and their dependencies cached, by the root only
    ensures Lookup(t.registrations, a).Some? && Lookup(t.registrations, a).value.lifecycle == Singleton ==>
      Untouched(t, r.tree, 0)
    // cache hit: the stored instance, nothing produced, nothing changed
    ensures var reg := Lookup(t.registrations, a);
      reg.Some? && SavedInCache(reg.value.lifecycle)
      && FindInstance(t.caches[Home(reg.value.lifecycle, scope)], a).Some? ==>
        r == Resolution(Success(FindInstance(t.caches[Home(reg.value.lifecycle, scope)], a).value), t, pending)
    // after a successful resolution the instance is cached in its home scope
    ensures var reg := Lookup(t.registrations, a);
      r.result.Success? && reg.Some? && SavedInCache(reg.value.lifecycle) ==>
        FindInstance(r.tree.caches[Home(reg.value.lifecycle, scope)], a) == Some(r.result.value)
    // no cached instance to reuse: an allocating producer yields a brand-new object
    ensures var reg := Lookup(t.registrations, a);
      r.result.Success? && reg.Some? && Allocates(reg.value.producer)
      && (reg.value.lifecycle == Transient || FindInstance(t.caches[Home(reg.value.lifecycle, scope)], a).None?) ==>
        Fresh(t, r.tree, r.result.value)
    // `a` is cached, if at all, only in its home scope
    ensures var reg := Lookup(t.registrations, a);
      reg.Some? ==>
        forall s | 0 <= s < |t.caches| && s != Home(reg.value.lifecycle, scope) && FindInstance(t.caches[s], a).None? ::
          FindInstance(r.tree.caches[s], a).None?
    decreases Unbuilt(t.registrations, pending), Depth(t.parents, scope), 3
  {
    match Lookup(t.registrations, a)
    case None => Resolution(Failure(UnregisteredType), t, pending)
    case Some(reg) =>
      if reg.lifecycle == Singleton && t.parents[scope].Some? then
        ResolveByIdInternal(t, t.parents[scope].value, a, pending)
      else
        ResolveInScope(t, scope, a, reg, pending)
  }

  /**
   * The part of `resolveByTypeIdInternal` run by the container that keeps
   * the instance: cache check, production, and saving (source lines 55-82).
   */
  function ResolveInScope(t: ContainerTree, scope: ScopeId, a: TypeId, reg: Registration, pending: seq<TypeId>): (r: Resolution<Instance>)
    requires Valid(t) && scope < |t.parents|
    requires Lookup(t.registrations, a) == Some(reg) && (reg.lifecycle == Singleton ==> scope == 0)
    ensures Step(t, r.tree, scope, pending)
    ensures r.result.Success? ==> r.pending == pending && Produces(r.tree.heap, reg.producer, r.result.value)
    ensures r.result != Failure(IncorrectImplementation)
    ensures SavedInCache(reg.lifecycle) && FindInstance(t.caches[scope], a).Some? ==>
      r == Resolution(Success(FindInstance(t.caches[scope], a).value), t, pending)
    ensures r.result.Success? && SavedInCache(reg.lifecycle) ==>
      FindInstance(r.tree.caches[scope], a) == Some(r.result.value)
    ensures r.result.Success? && Allocates(reg.producer) &&
            (reg.lifecycle == Transient || FindInstance(t.caches[scope], a).None?) ==>
              Fresh(t, r.tree, r.result.value)
    ensures forall s | 0 <= s < |t.caches| && s != scope && FindInstance(t.caches[s], a).None? ::
      FindInstance(r.tree.caches[s], a).None?
    decreases Unbuilt(t.registrations, pending), Depth(t.parents, scope), 2
  {
    var saved := SavedInCache(reg.lifecycle);
    var existing := if saved then FindInstance(t.caches[scope], a) else None;
    if existing.Some? then Resolution(Success(existing.value), t, pending)
    else
      var made := Produce(t, scope, a, reg, pending);
      if made.result.Success? && saved then
        StoreKeepsInvariants(made.tree, scope, a, made.result.value, pending);
        Resolution(made.result, Store(made.tree, scope, a, made.result.value), made.pending)
      else made
  }

  /**
   * Invokes the producer of a registration (source lines 68-73): a factory is
   * called with no arguments, a concretion is constructed; a registration that
   * was never given a producer fails here.
   */
  function Produce(t: ContainerTree, scope: ScopeId, a: TypeId, reg: Registration, pending: seq<TypeId>): (r: Resolution<Instance>)
    requires Valid(t) && scope < |t.parents|
    requires Lookup(t.registrations, a) == Some(reg) && (reg.lifecycle == Singleton ==> scope == 0)
    ensures Step(t, r.tree, scope, pending)
    ensures reg.producer.None? ==> r == Resolution(Failure(MissingProducer), t, pending)
    ensures r.result.Success? ==> r.pending == pending && Produces(r.tree.heap, reg.producer, r.result.value)
    ensures r.result.Success? ==> !PendingAbstraction(t.registrations, a, pending)
    // producing `a` never caches `a` anywhere: only the caller stores it
    ensures forall s | 0 <= s < |t.caches| && FindInstance(t.caches[s], a).None? :: FindInstance(r.tree.caches[s], a).None?
    ensures r.result.Success? && Allocates(reg.producer) ==> Fresh(t, r.tree, r.result.value)
    ensures r.result != Failure(IncorrectImplementation)
    decreases Unbuilt(t.registrations, pending), Depth(t.parents, scope), 1
  {
    match reg.producer
    case None => Resolution(Failure(MissingProducer), t, pending)
    case Some(FactoryFn(f)) =>
      InvokeKeepsStep(t, scope, f, pending);
      Invoke(t, f, pending)
    case Some(ClassType(c)) =>
      LookupConcretionIsRegistered(t.registrations, a, c);
      assert PendingAbstraction(t.registrations, a, pending + [c.id]);
      var made := CreateConcretion(t, scope, c, pending);
      if c.id in pending then made
      else
        KeepsPendingUncachedWeaken(t, made.tree, pending, c.id);
        made
  }

  /**
   * `createConcretion`: rejects a concretion already under construction,
   * pushes its identifier, resolves its constructor parameters in order in
   * the same container, pops the identifier and allocates the object.
   */
  function CreateConcretion(t: ContainerTree, scope: ScopeId, c: Concretion, pending: seq<TypeId>): (r: Resolution<Instance>)
    requires Valid(t) && scope < |t.parents| && c.id in ConcretionIds(t.registrations)
    ensures Valid(r.tree) && Grows(t, r.tree) && Untouched(t, r.tree, scope)
    ensures c.id in pending ==> r == Resolution(Failure(DependencyCycle), t, pending)
    ensures c.id !in pending ==> KeepsPendingUncached(t, r.tree, pending + [c.id])
    ensures r.result.Success? ==> r.pending == pending
    ensures r.result != Failure(IncorrectImplementation)
    ensures r.result.Success? ==>
      && Fresh(t, r.tree, r.result.value)
      && r.tree.heap[r.result.value.ref].Constructed?
      && r.tree.heap[r.result.value.ref].concretionId == c.id
      && ArgsMatch(t.registrations, r.tree.heap, c.params, r.tree.heap[r.result.value.ref].args)
    decreases Unbuilt(t.registrations, pending), Depth(t.parents, scope), 0
  {
    if c.id in pending then Resolution(Failure(DependencyCycle), t, pending)
    else
      var pushed := pending + [c.id];
      PushShrinksUnbuilt(t.registrations, pending, c.id);
      var values := ResolveParams(t, scope, c.params, pushed);
      if values.result.Failure? then Resolution(Failure(values.result.error), values.tree, values.pending)
      else if |values.pending| == 0 || values.pending[|values.pending| - 1] != c.id then
        assert false;
        Resolution(Failure(IncorrectImplementation), values.tree, values.pending)
      else
        var popped := values.pending[..|values.pending| - 1];
        var (v, heap) := Allocate(values.tree.heap, Constructed(c.id, values.result.value));
        var t' := values.tree.(heap := heap);
        GrowsKeepsValid(values.tree, t');
        ArgsMatchInLargerHeap(t.registrations, values.tree.heap, heap, c.params, values.result.value);
        Resolution(Success(v), t', popped)
  }

  /** The loop over constructor parameters: resolved one by one, in declared order. */
  function ResolveParams(t: ContainerTree, scope: ScopeId, params: seq<TypeId>, pending: seq<TypeId>): (r: Resolution<seq<Instance>>)
    requires Valid(t) && scope < |t.parents|
    ensures Step(t, r.tree, scope, pending)
    ensures r.result.Success? ==> r.pending == pending
    ensures r.result != Failure(IncorrectImplementation)
    ensures r.result.Success? ==> ArgsMatch(t.registrations, r.tree.heap, params, r.result.value)
    decreases Unbuilt(t.registrations, pending), Depth(t.parents, scope), 4, |params|
  {
    if |params| == 0 then Resolution(Success([]), t, pending)
    else
      var first := ResolveByIdInternal(t, scope, params[0], pending);
      if first.result.Failure? then Resolution(Failure(first.result.error), first.tree, first.pending)
      else
        var rest := ResolveParams(first.tree, scope, params[1..], first.pending);
        if rest.result.Failure? then rest
        else
          var values := [first.result.value] + rest.result.value;
          ArgsMatchPrepend(t.registrations, first.tree.heap, rest.tree.heap, params, first.result.value, rest.result.value);
          Resolution(Success(values), rest.tree, rest.pending)
  }

  lemma {:induction false} ArgsMatchInLargerHeap(registrations: seq<Registration>, heap: seq<ObjectRecord>, heap': seq<ObjectRecord>,
                                                 params: seq<TypeId>, args: seq<Instance>)
    requires heap <= heap' && ArgsMatch(registrations, heap, params, args)
    ensures ArgsMatch(registrations, heap', params, args)
    decreases |params|
  {
    if |params| > 0 {
      ProducesInLargerHeap(heap, heap', Lookup(registrations, params[0]).value.producer, args[0]);
      ArgsMatchInLargerHeap(registrations, heap, heap', params[1..], args[1..]);
    }
  }

  lemma ArgsMatchPrepend(registrations: seq<Registration>, heap: seq<ObjectRecord>, heap': seq<ObjectRecord>,
                         params: seq<TypeId>, first: Instance, rest: seq<Instance>)
    requires |params| > 0 && heap <= heap'
    requires Lookup(registrations, params[0]).Some? && Produces(heap, Lookup(registrations, params[0]).value.producer, first)
    requires ArgsMatch(registrations, heap', params[1..], rest)
    ensures ArgsMatch(registrations, heap', params, [first] + rest)
  {
    ProducesInLargerHeap(heap, heap', Lookup(registrations, params[0]).value.producer, first);
    assert ([first] + rest)[1..] == rest;
  }

  /**
   * `resolve` / `resolveByTypeId`: a top-level resolution, which starts
   * with an empty pending stack.
   */
  function ResolveById(t: ContainerTree, scope: ScopeId, a: TypeId): (r: Resolved)
    requires Valid(t) && scope < |t.parents|
    ensures Valid(r.tree) && Grows(t, r.tree) && Extends(t, r.tree)
    ensures Lookup(t.registrations, a).None? ==> r == Resolved(Failure(UnregisteredType), t)
    ensures r.result != Failure(IncorrectImplementation)
    ensures r.result.Success? ==>
      Lookup(t.registrations, a).Some? && Produces(r.tree.heap, Lookup(t.registrations, a).value.producer, r.result.value)
  {
    var res := ResolveByIdInternal(t, scope, a, []);
    Resolved(res.result, res.tree)
  }

  /**
   * `createScope`: a new container sharing the table, with the creating
   * container as its parent and an empty cache.
   */
  function CreateScope(t: ContainerTree, scope: ScopeId): (r: (ContainerTree, ScopeId))
    requires Valid(t) && scope < |t.parents|
    ensures var (t', child) := r;
      && Valid(t')
      && child == |t.parents| && child < |t'.parents|
      && t'.registrations == t.registrations
      && t'.parents[child] == Some(scope)
      && t'.caches[child] == []
      && t'.parents[..child] == t.parents && t'.caches[..child] == t.caches && t'.heap == t.heap
      && Depth(t'.parents, child) == Depth(t.parents, scope) + 1
      && Extends(t, t')
  {
    var t' := t.(parents := t.parents + [Some(scope)], caches := t.caches + [[]]);
    assert t'.parents[..|t.parents|] == t.parents;
    assert forall s | 0 <= s < |t.parents| :: Depth(t'.parents, s) == Depth(t.parents, s) by {
      forall s | 0 <= s < |t.parents| ensures Depth(t'.parents, s) == Depth(t.parents, s) {
        DepthInExtension(t.parents, t'.parents, s);
      }
    }
    assert forall s, j | 0 <= s < |t.caches| && 0 <= j < |t.caches[s]| :: t'.caches[s][j] == t.caches[s][j];
    assert forall s, j | 0 <= s < |t.caches| && 0 <= j < |t.caches[s]| :: Justified(t, s, t.caches[s][j]);
    (t', |t.parents|)
  }

  lemma {:induction false} DepthInExtension(parents: seq<Option<ScopeId>>, parents': seq<Option<ScopeId>>, s: ScopeId)
    requires WellFormedParents(parents) && WellFormedParents(parents')
    requires parents <= parents' && s < |parents|
    ensures Depth(parents', s) == Depth(parents, s)
    decreases s
  {
    if s != 0 {
      DepthInExtension(parents, parents', parents[s].value);
    }
  }
}

=== FILE: container_builder.dfy ===
/**
 * The registry builder (src/container-builder.ts): `for` appends a tentative
 * registration and hands back a handle to it; the handle's methods overwrite
 * one field of that registration; `build` freezes all of them, in order, into
 * the table of a new root container.
 *
 * A handle is modelled by the position of the registration it refers to;
 * the builder's state is passed in and returned explicitly.
 */
module ContainerBuilder {
  import opened Wrappers
  import opened Types
  import opened Container

  /** A registration still being configured (ITentativeRegistration). */
  datatype TentativeRegistration = TentativeRegistration(abstractionId: TypeId, lifecycle: Lifecycle, producer: Option<Producer>)

  datatype Builder = Builder(tentative: seq<TentativeRegistration>)

  /** The handle `for` returns: it refers to one tentative registration. */
  datatype RegistrationBuilder = RegistrationBuilder(index: nat)

  /** A handle of this builder. */
  predicate Refers(b: Builder, h: RegistrationBuilder)
  {
    h.index < |b.tentative|
  }

  /**
   * `b'` differs from `b` at most in the producer and lifecycle of the
   * registration `h` refers to.
   */
  ghost predicate ConfiguresOnly(b: Builder, b': Builder, h: RegistrationBuilder)
    requires Refers(b, h)
  {
    && |b'.tentative| == |b.tentative|
    && b'.tentative[h.index].abstractionId == b.tentative[h.index].abstractionId
    && forall j | 0 <= j < |b.tentative| && j != h.index :: b'.tentative[j] == b.tentative[j]
  }

  function NewBuilder(): (b: Builder)
    ensures |b.tentative| == 0
  {
    Builder([])
  }

  /** `for(a)`: appends a Transient registration of `a` without producer. */
  function For(b: Builder, a: TypeId): (r: (Builder, RegistrationBuilder))
    ensures var (b', h) := r;
      && Refers(b', h) && h.index == |b.tentative|
      && |b'.tentative| == |b.tentative| + 1
      && b'.tentative[..|b.tentative|] == b.tentative
      && b'.tentative[h.index].abstractionId == a
      && b'.tentative[h.index].lifecycle == Transient
      && b'.tentative[h.index].producer.None?
  {
    (Builder(b.tentative + [TentativeRegistration(a, Transient, None)]), RegistrationBuilder(|b.tentative|))
  }

  /** `use(concretion)`: construct the concretion by constructor injection. */
  function Use(b: Builder, h: RegistrationBuilder, c: Concretion): (b': Builder)
    requires Refers(b, h)
    ensures ConfiguresOnly(b, b', h)
    ensures b'.tentative[h.index].producer == Some(ClassType(c))
    ensures b'.tentative[h.index].lifecycle == b.tentative[h.index].lifecycle
  {
    Builder(b.tentative[h.index := b.tentative[h.index].(producer := Some(ClassType(c)))])
  }

  /** `useFactory(fn)`: call a zero-argument factory. */
  function UseFactory(b: Builder, h: RegistrationBuilder, f: Factory): (b': Builder)
    requires Refers(b, h)
    ensures ConfiguresOnly(b, b', h)
    ensures b'.tentative[h.index].producer == Some(FactoryFn(f))
    ensures b'.tentative[h.index].lifecycle == b.tentative[h.index].lifecycle
  {
    Builder(b.tentative[h.index := b.tentative[h.index].(producer := Some(FactoryFn(f)))])
  }

  /** `useInstance(v)`: `useFactory(() => v)`, for a value `v` supplied from outside. */
  function UseInstance(b: Builder, h: RegistrationBuilder, v: nat): (b': Builder)
    requires Refers(b, h)
    ensures ConfiguresOnly(b, b', h)
    ensures b'.tentative[h.index].producer == Some(FactoryFn(ReturnInstance(v)))
    ensures b'.tentative[h.index].lifecycle == b.tentative[h.index].lifecycle
  {
    UseFactory(b, h, ReturnInstance(v))
  }

  /** `inLifecycle(l)`: set the lifecycle tag. */
  function InLifecycle(b: Builder, h: RegistrationBuilder, lifecycle: Lifecycle): (b': Builder)
    requires Refers(b, h)
    ensures ConfiguresOnly(b, b', h)
    ensures b'.tentative[h.index].lifecycle == lifecycle
    ensures b'.tentative[h.index].producer == b.tentative[h.index].producer
  {
    Builder(b.tentative[h.index := b.tentative[h.index].(lifecycle := lifecycle)])
  }

  function InTransientLifecycle(b: Builder, h: RegistrationBuilder): (b': Builder)
    requires Refers(b, h)
    ensures ConfiguresOnly(b, b', h)
    ensures b'.tentative[h.index].lifecycle == Transient
    ensures b'.tentative[h.index].producer == b.tentative[h.index].producer
  {
    InLifecycle(b, h, Transient)
  }

  function InSingletonLifecycle(b: Builder, h: RegistrationBuilder): (b': Builder)
    requires Refers(b, h)
    ensures ConfiguresOnly(b, b', h)
    ensures b'.tentative[h.index].lifecycle == Singleton
    ensures b'.tentative[h.index].producer == b.tentative[h.index].producer
  {
    InLifecycle(b, h, Singleton)
  }

  function InScopedLifecycle(b: Builder, h: RegistrationBuilder): (b': Builder)
    requires Refers(b, h)
    ensures ConfiguresOnly(b, b', h)
    ensures b'.tentative[h.index].lifecycle == Scoped
    ensures b'.tentative[h.index].producer == b.tentative[h.index].producer
  {
    InLifecycle(b, h, Scoped)
  }

  /** Freezes one tentative registration, copying its three fields. */
  function Freeze(r: TentativeRegistration): Registration
  {
    Registration(r.abstractionId, r.producer, r.lifecycle)
  }

  /**
   * `build()`: the table has the tentative registrations in order, fields
   * copied, nothing validated; the container is a root with an empty cache.
   */
  function Build(b: Builder): (t: ContainerTree)
    ensures Valid(t)
    ensures |t.registrations| == |b.tentative|
    ensures forall i | 0 <= i < |b.tentative| ::
      && t.registrations[i].abstractionId == b.tentative[i].abstractionId
      && t.registrations[i].producer == b.tentative[i].producer
      && t.registrations[i].lifecycle == b.tentative[i].lifecycle
    ensures t.parents == [None] && t.caches == [[]] && t.heap == []
  {
    ContainerTree(seq(|b.tentative|, i requires 0 <= i < |b.tentative| => Freeze(b.tentative[i])), [None], [[]], [])
  }
}

=== FILE: lifecycles.dfy ===
/**
 * What the three lifecycles, the scope tree and the pending stack promise
 * across several resolutions (src/container.ts, and the equal / not-equal
 * patterns of the lifecycle tests).
 */
module Lifecycles {
  import opened Wrappers
  import opened Types
  import opened Container

  /** Resolving a singleton from any scope is resolving it at the root. */
  lemma {:induction false} SingletonResolvedAtRoot(t: ContainerTree, scope: ScopeId, a: TypeId, pending: seq<TypeId>)
    requires Valid(t) && scope < |t.parents|
    requires Lookup(t.registrations, a).Some? && Lookup(t.registrations, a).value.lifecycle == Singleton
    ensures ResolveByIdInternal(t, scope, a, pending) == ResolveByIdInternal(t, 0, a, pending)
    decreases scope
  {
    if scope != 0 {
      SingletonResolvedAtRoot(t, t.parents[scope].value, a, pending);
    }
  }

  /**
   * A cache entry for `a` exists only where the lifecycle of `a` saves it:
   * Scoped registrations in any scope, Singleton ones at the root only, and
   * never Transient ones or ones without a producer.
   */
  lemma CachedOnlyWhereSaved(t: ContainerTree, scope: ScopeId, a: TypeId)
    requires Valid(t) && scope < |t.parents|
    requires FindInstance(t.caches[scope], a).Some?
    ensures Lookup(t.registrations, a).Some?
    ensures var reg := Lookup(t.registrations, a).value;
      && reg.producer.Some?
      && SavedInCache(reg.lifecycle)
      && (reg.lifecycle == Singleton ==> scope == 0)
      && Produces(t.heap, reg.producer, FindInstance(t.caches[scope], a).value)
  {
    var j :| 0 <= j < |t.caches[scope]| && t.caches[scope][j] == InstantiatedConcretion(a, FindInstance(t.caches[scope], a).value);
    assert Justified(t, scope, t.caches[scope][j]);
  }

  /** Transient instances are never cached, in any scope. */
  lemma TransientNeverCached(t: ContainerTree, a: TypeId)
    requires Valid(t)
    requires Lookup(t.registrations, a).Some? && Lookup(t.registrations, a).value.lifecycle == Transient
    ensures forall s | 0 <= s < |t.caches| :: FindInstance(t.caches[s], a).None?
  {
    forall s | 0 <= s < |t.caches|
      ensures FindInstance(t.caches[s], a).None?
    {
      if FindInstance(t.caches[s], a).Some? {
        CachedOnlyWhereSaved(t, s, a);
      }
    }
  }

  /**
   * Two transient resolutions never share an instance when the producer
   * allocates: whatever happened in between (further resolutions, new
   * scopes), in whichever scopes.
   */
  lemma TransientNeverShared(t: ContainerTree, s1: ScopeId, a: TypeId, t2: ContainerTree, s2: ScopeId)
    requires Valid(t) && s1 < |t.parents|
    requires var reg := Lookup(t.registrations, a); reg.Some? && reg.value.lifecycle == Transient && Allocates(reg.value.producer)
    requires ResolveById(t, s1, a).result.Success?
    requires Valid(t2) && Extends(ResolveById(t, s1, a).tree, t2) && s2 < |t2.parents|
    requires ResolveById(t2, s2, a).result.Success?
    ensures ResolveById(t2, s2, a).result.value != ResolveById(t, s1, a).result.value
  {
    var first := ResolveById(t, s1, a);
    var v1 := first.result.value;
    var reg := Lookup(t.registrations, a).value;
    assert v1.Object? && v1.ref < |first.tree.heap| by {
      assert Produces(first.tree.heap, reg.producer, v1);
    }
    assert |first.tree.heap| <= |t2.heap|;
    var second := ResolveByIdInternal(t2, s2, a, []);
    assert Fresh(t2, second.tree, second.result.value);
  }

  /**
   * Once a Scoped abstraction has been resolved in a scope, that scope keeps
   * returning the same instance, without producing anything, whatever is
   * resolved or whichever scopes are created afterwards.
   */
  lemma ScopedInstanceReused(t: ContainerTree, scope: ScopeId, a: TypeId, t2: ContainerTree)
    requires Valid(t) && scope < |t.parents|
    requires Lookup(t.registrations, a).Some? && Lookup(t.registrations, a).value.lifecycle == Scoped
    requires ResolveById(t, scope, a).result.Success?
    requires Valid(t2) && Extends(ResolveById(t, scope, a).tree, t2)
    ensures ResolveById(t2, scope, a) == Resolved(ResolveById(t, scope, a).result, t2)
  {
    var first := ResolveByIdInternal(t, scope, a, []);
    assert FindInstance(first.tree.caches[scope], a) == Some(first.result.value);
    FindInstanceInExtension(first.tree.caches[scope], t2.caches[scope], a);
  }

  /**
   * Two different scopes (siblings, or a root and a descendant) never share a
   * Scoped instance of an allocating producer: a scope `s2` holding no
   * instance of its own builds a new one, whatever happened since `s1` got
   * its instance (further resolutions, new scopes, `s2` itself created
   * later).
   */
  lemma ScopedSiblingsDistinct(t: ContainerTree, s1: ScopeId, a: TypeId, t2: ContainerTree, s2: ScopeId)
    requires Valid(t) && s1 < |t.parents|
    requires var reg := Lookup(t.registrations, a); reg.Some? && reg.value.lifecycle == Scoped && Allocates(reg.value.producer)
    requires ResolveById(t, s1, a).result.Success?
    requires Valid(t2) && Extends(ResolveById(t, s1, a).tree, t2) && s2 < |t2.parents| && s2 != s1
    requires FindInstance(t2.caches[s2], a).None?
    requires ResolveById(t2, s2, a).result.Success?
    ensures ResolveById(t2, s2, a).result.value != ResolveById(t, s1, a).result.value
  {
    var first := ResolveByIdInternal(t, s1, a, []);
    var reg := Lookup(t.registrations, a).value;
    var v1 := first.result.value;
    assert v1.Object? && v1.ref < |first.tree.heap| by {
      assert Produces(first.tree.heap, reg.producer, v1);
    }
    assert |first.tree.heap| <= |t2.heap|;
    var second := ResolveByIdInternal(t2, s2, a, []);
    assert Fresh(t2, second.tree, second.result.value);
  }

  /**
   * All scopes of one tree get the identical singleton: once it has been
   * resolved from any scope, every scope, including scopes created later,
   * returns it without producing anything.
   */
  lemma SingletonSharedByAllScopes(t: ContainerTree, s1: ScopeId, a: TypeId, t2: ContainerTree, s2: ScopeId)
    requires Valid(t) && s1 < |t.parents|
    requires Lookup(t.registrations, a).Some? && Lookup(t.registrations, a).value.lifecycle == Singleton
    requires ResolveById(t, s1, a).result.Success?
    requires Valid(t2) && Extends(ResolveById(t, s1, a).tree, t2) && s2 < |t2.parents|
    ensures ResolveById(t2, s2, a) == Resolved(ResolveById(t, s1, a).result, t2)
  {
    var first := ResolveByIdInternal(t, s1, a, []);
    assert FindInstance(first.tree.caches[0], a) == Some(first.result.value);
    FindInstanceInExtension(first.tree.caches[0], t2.caches[0], a);
    SingletonResolvedAtRoot(t2, s2, a, []);
  }

  /** A factory registration never fails and never touches the pending stack. */
  lemma {:induction false} FactoryNeverFails(t: ContainerTree, scope: ScopeId, a: TypeId, pending: seq<TypeId>)
    requires Valid(t) && scope < |t.parents|
    requires Lookup(t.registrations, a).Some? && Lookup(t.registrations, a).value.producer.Some?
    requires Lookup(t.registrations, a).value.producer.value.FactoryFn?
    ensures var r := ResolveByIdInternal(t, scope, a, pending);
      r.result.Success? && r.pending == pending
    decreases scope
  {
    var reg := Lookup(t.registrations, a).value;
    if reg.lifecycle == Singleton && scope != 0 {
      FactoryNeverFails(t, t.parents[scope].value, a, pending);
    } else {
      var r := ResolveInScope(t, scope, a, reg, pending);
      var made := Produce(t, scope, a, reg, pending);
      assert made == Invoke(t, reg.producer.value.factory, pending);
    }
  }

  /** `useInstance(v)`: resolving the abstraction yields exactly `v`, from any scope. */
  lemma SuppliedInstanceResolved(t: ContainerTree, scope: ScopeId, a: TypeId, v: nat)
    requires Valid(t) && scope < |t.parents|
    requires Lookup(t.registrations, a).Some?
    requires Lookup(t.registrations, a).value.producer == Some(FactoryFn(ReturnInstance(v)))
    ensures ResolveById(t, scope, a).result == Success(Supplied(v))
  {
    FactoryNeverFails(t, scope, a, []);
  }

  /**
   * A registration without producer survives until it is resolved, and its
   * resolution fails, changing nothing.
   */
  lemma {:induction false} MissingProducerFails(t: ContainerTree, scope: ScopeId, a: TypeId, pending: seq<TypeId>)
    requires Valid(t) && scope < |t.parents|
    requires Lookup(t.registrations, a).Some? && Lookup(t.registrations, a).value.producer.None?
    ensures ResolveByIdInternal(t, scope, a, pending) == Resolution(Failure(MissingProducer), t, pending)
    decreases scope
  {
    var reg := Lookup(t.registrations, a).value;
    if reg.lifecycle == Singleton && scope != 0 {
      MissingProducerFails(t, t.parents[scope].value, a, pending);
    } else {
      if FindInstance(t.caches[scope], a).Some? {
        CachedOnlyWhereSaved(t, scope, a);
      }
      var r := ResolveInScope(t, scope, a, reg, pending);
    }
  }

  /**
   * Building a concretion already on the pending stack fails with a cycle,
   * whatever the lifecycle, unless an instance is already cached.
   */
  lemma PendingConcretionRejected(t: ContainerTree, scope: ScopeId, a: TypeId, c: Concretion, pending: seq<TypeId>)
    requires Valid(t) && scope < |t.parents|
    requires Lookup(t.registrations, a).Some? && Lookup(t.registrations, a).value.producer == Some(ClassType(c))
    requires c.id in pending
    requires FindInstance(t.caches[Home(Lookup(t.registrations, a).value.lifecycle, scope)], a).None?
    ensures ResolveByIdInternal(t, scope, a, pending) == Resolution(Failure(DependencyCycle), t, pending)
  {
    var reg := Lookup(t.registrations, a).value;
    if reg.lifecycle == Singleton {
      SingletonResolvedAtRoot(t, scope, a, pending);
      var r := ResolveInScope(t, 0, a, reg, pending);
      var made := Produce(t, 0, a, reg, pending);
    } else {
      var r := ResolveInScope(t, scope, a, reg, pending);
      var made := Produce(t, scope, a, reg, pending);
    }
  }

  /**
   * A failed resolution stores nothing for the abstraction it was asked
   * for: an instance is saved only after it has been produced.
   */
  lemma {:induction false} FailedResolutionCachesNothing(t: ContainerTree, scope: ScopeId, a: TypeId, pending: seq<TypeId>)
    requires Valid(t) && scope < |t.parents|
    requires Lookup(t.registrations, a).Some?
    requires FindInstance(t.caches[Home(Lookup(t.registrations, a).value.lifecycle, scope)], a).None?
    requires ResolveByIdInternal(t, scope, a, pending).result.Failure?
    ensures var r := ResolveByIdInternal(t, scope, a, pending);
      FindInstance(r.tree.caches[Home(Lookup(t.registrations, a).value.lifecycle, scope)], a).None?
    decreases scope
  {
    var reg := Lookup(t.registrations, a).value;
    if reg.lifecycle == Singleton && scope != 0 {
      FailedResolutionCachesNothing(t, t.parents[scope].value, a, pending);
    } else {
      var r := ResolveInScope(t, scope, a, reg, pending);
      var made := Produce(t, scope, a, reg, pending);
      if reg.producer.Some? && reg.producer.value.ClassType? {
        var c := reg.producer.value.concretion;
        LookupConcretionIsRegistered(t.registrations, a, c);
        var built := CreateConcretion(t, scope, c, pending);
        if c.id !in pending {
          assert PendingAbstraction(t.registrations, a, pending + [c.id]);
        }
      }
    }
  }
}

=== FILE: scenarios.dfy ===
/**
 * The container tests, stated for all identifiers at once: each lemma builds
 * the registry the test builds (through `for(...).use(...)` and `build`) and
 * proves the outcome the test expects of resolving its entry point.
 */
module Scenarios {
  import opened Wrappers
  import opened Types
  import opened Container
  import opened ContainerBuilder
  import opened Lifecycles
  import opened Construction
  import opened BuilderProperties

  /** `for(a).use(c)`: a Transient registration of `a` constructed as `c`. */
  function Register(b: Builder, a: TypeId, c: Concretion): (b': Builder)
    ensures b'.tentative == b.tentative + [TentativeRegistration(a, Transient, Some(ClassType(c)))]
  {
    var (b1, h) := For(b, a);
    Use(b1, h, c)
  }

  /** `for(a).useInstance(v)`: a Transient registration of `a` supplying `v`. */
  function Supply(b: Builder, a: TypeId, v: nat): (b': Builder)
    ensures b'.tentative == b.tentative + [TentativeRegistration(a, Transient, Some(FactoryFn(ReturnInstance(v))))]
  {
    var (b1, h) := For(b, a);
    UseInstance(b1, h, v)
  }

  /** `for(a).use(c).inLifecycle(l)`: a registration of `a` constructed as `c`, kept as `l` says. */
  function RegisterIn(b: Builder, a: TypeId, c: Concretion, l: Lifecycle): (b': Builder)
    ensures b'.tentative == b.tentative + [TentativeRegistration(a, l, Some(ClassType(c)))]
  {
    var (b1, h) := For(b, a);
    InLifecycle(Use(b1, h, c), h, l)
  }

  /**
   * A Transient concretion registration is resolved by constructing the
   * concretion in the asking scope, with nothing looked up or stored.
   */
  lemma TransientConcretionConstructed(t: ContainerTree, scope: ScopeId, a: TypeId, c: Concretion, pending: seq<TypeId>)
    requires Valid(t) && scope < |t.parents|
    requires Lookup(t.registrations, a).Some?
    requires Lookup(t.registrations, a).value.producer == Some(ClassType(c))
    requires Lookup(t.registrations, a).value.lifecycle == Transient
    ensures c.id in ConcretionIds(t.registrations)
    ensures ResolveByIdInternal(t, scope, a, pending) == CreateConcretion(t, scope, c, pending)
  {
    var reg := Lookup(t.registrations, a).value;
    LookupConcretionIsRegistered(t.registrations, a, c);
    var r := ResolveInScope(t, scope, a, reg, pending);
    var made := Produce(t, scope, a, reg, pending);
  }

  /**
   * Resolving a Transient concretion fails with a cycle when the concretion
   * is already pending, and otherwise fails as its first parameter does.
   */
  lemma FirstParamFailurePropagates(t: ContainerTree, scope: ScopeId, a: TypeId, c: Concretion, pending: seq<TypeId>, e: ResolveError)
    requires Valid(t) && scope < |t.parents|
    requires Lookup(t.registrations, a).Some?
    requires Lookup(t.registrations, a).value.producer == Some(ClassType(c))
    requires Lookup(t.registrations, a).value.lifecycle == Transient
    requires c.id in pending ==> e == DependencyCycle
    requires c.id !in pending ==>
      |c.params| > 0 && ResolveByIdInternal(t, scope, c.params[0], pending + [c.id]).result == Failure(e)
    ensures ResolveByIdInternal(t, scope, a, pending).result == Failure(e)
  {
    TransientConcretionConstructed(t, scope, a, c, pending);
    if c.id !in pending {
      var values := ResolveParams(t, scope, c.params, pending + [c.id]);
      assert values.result == Failure(e);
    }
  }

  /** A class whose constructor takes its own abstraction is rejected (one-level cycle). */
  lemma OneLevelCycleDetected(a: TypeId, c: Concretion)
    requires c.params == [a]
    ensures var t := Build(Register(NewBuilder(), a, c));
      ResolveById(t, 0, a).result == Failure(DependencyCycle)
  {
    var b := Register(NewBuilder(), a, c);
    var t := Build(b);
    BuildResolvesFirstRegistration(b, 0);
    FirstParamFailurePropagates(t, 0, a, c, [c.id], DependencyCycle);
    assert [] + [c.id] == [c.id];
    FirstParamFailurePropagates(t, 0, a, c, [], DependencyCycle);
  }

  /** Two classes that take each other's abstraction are rejected (two-level cycle). */
  lemma TwoLevelCycleDetected(a1: TypeId, c1: Concretion, a2: TypeId, c2: Concretion)
    requires a1 != a2
    requires c1.params == [a2] && c2.params == [a1]
    ensures var t := Build(Register(Register(NewBuilder(), a1, c1), a2, c2));
      ResolveById(t, 0, a1).result == Failure(DependencyCycle)
  {
    var b := Register(Register(NewBuilder(), a1, c1), a2, c2);
    var t := Build(b);
    BuildResolvesFirstRegistration(b, 0);
    BuildResolvesFirstRegistration(b, 1);
    FirstParamFailurePropagates(t, 0, a1, c1, [c1.id, c2.id], DependencyCycle);
    assert [c1.id] + [c2.id] == [c1.id, c2.id];
    FirstParamFailurePropagates(t, 0, a2, c2, [c1.id], DependencyCycle);
    assert [] + [c1.id] == [c1.id];
    FirstParamFailurePropagates(t, 0, a1, c1, [], DependencyCycle);
  }

  /** Three classes depending on each other in a ring are rejected (three-level cycle). */
  lemma ThreeLevelCycleDetected(a1: TypeId, c1: Concretion, a2: TypeId, c2: Concretion, a3: TypeId, c3: Concretion)
    requires a1 != a2 && a2 != a3 && a1 != a3
    requires c1.params == [a2] && c2.params == [a3] && c3.params == [a1]
    ensures var t := Build(Register(Register(Register(NewBuilder(), a1, c1), a2, c2), a3, c3));
      ResolveById(t, 0, a1).result == Failure(DependencyCycle)
  {
    var b := Register(Register(Register(NewBuilder(), a1, c1), a2, c2), a3, c3);
    var t := Build(b);
    BuildResolvesFirstRegistration(b, 0);
    BuildResolvesFirstRegistration(b, 1);
    BuildResolvesFirstRegistration(b, 2);
    FirstParamFailurePropagates(t, 0, a1, c1, [c1.id, c2.id, c3.id], DependencyCycle);
    assert [c1.id, c2.id] + [c3.id] == [c1.id, c2.id, c3.id];
    FirstParamFailurePropagates(t, 0, a3, c3, [c1.id, c2.id], DependencyCycle);
    assert [c1.id] + [c2.id] == [c1.id, c2.id];
    FirstParamFailurePropagates(t, 0, a2, c2, [c1.id], DependencyCycle);
    assert [] + [c1.id] == [c1.id];
    FirstParamFailurePropagates(t, 0, a1, c1, [], DependencyCycle);
  }

  /**
   * A class whose only dependency is self-dependent is rejected too: the
   * cycle below the entry point surfaces as the entry point's failure.
   */
  lemma NestedCycleDetected(parent: TypeId, cp: Concretion, child: TypeId, cc: Concretion)
    requires parent != child
    requires cp.params == [child] && cc.params == [child]
    ensures var t := Build(Register(Register(NewBuilder(), parent, cp), child, cc));
      ResolveById(t, 0, parent).result == Failure(DependencyCycle)
  {
    var b := Register(Register(NewBuilder(), parent, cp), child, cc);
    var t := Build(b);
    BuildResolvesFirstRegistration(b, 0);
    BuildResolvesFirstRegistration(b, 1);
    FirstParamFailurePropagates(t, 0, child, cc, [cp.id, cc.id], DependencyCycle);
    assert [cp.id] + [cc.id] == [cp.id, cc.id];
    FirstParamFailurePropagates(t, 0, child, cc, [cp.id], DependencyCycle);
    assert [] + [cp.id] == [cp.id];
    FirstParamFailurePropagates(t, 0, parent, cp, [], DependencyCycle);
  }

  /**
   * Two dependencies registered as instances, and a class taking both: the
   * resolved object is a fresh instance of the class holding exactly those
   * two instances, in declared order.
   */
  lemma InstanceDependenciesInjected(a1: TypeId, d1: nat, a2: TypeId, d2: nat, a: TypeId, c: Concretion)
    requires a1 != a2 && a1 != a && a2 != a
    requires c.params == [a1, a2]
    ensures var t := Build(Register(Supply(Supply(NewBuilder(), a1, d1), a2, d2), a, c));
      var r := ResolveById(t, 0, a);
      && r.result.Success?
      && r.result.value.Object?
      && r.result.value.ref + 1 == |r.tree.heap|
      && r.tree.heap[r.result.value.ref] == Constructed(c.id, [Supplied(d1), Supplied(d2)])
  {
    var b := Register(Supply(Supply(NewBuilder(), a1, d1), a2, d2), a, c);
    var t := Build(b);
    BuildResolvesFirstRegistration(b, 0);
    BuildResolvesFirstRegistration(b, 1);
    BuildResolvesFirstRegistration(b, 2);
    TransientConcretionConstructed(t, 0, a, c, []);
    InstancesPassedInOrder(t, 0, c, [], [Supplied(d1), Supplied(d2)]);
  }

  /**
   * A concretion without constructor parameters always resolves, in every
   * lifecycle and scope, unless it is under construction and has no cached
   * instance to hand out.
   */
  lemma ParameterlessConcretionResolves(t: ContainerTree, scope: ScopeId, a: TypeId, c: Concretion, pending: seq<TypeId>)
    requires Valid(t) && scope < |t.parents|
    requires Lookup(t.registrations, a).Some? && Lookup(t.registrations, a).value.producer == Some(ClassType(c))
    requires c.params == []
    requires c.id !in pending || FindInstance(t.caches[Home(Lookup(t.registrations, a).value.lifecycle, scope)], a).Some?
    ensures ResolveByIdInternal(t, scope, a, pending).result.Success?
  {
    var home := Home(Lookup(t.registrations, a).value.lifecycle, scope);
    if FindInstance(t.caches[home], a).None? {
      ConstructedOnMiss(t, scope, a, c, pending);
      var values := ResolveParams(t, home, c.params, pending + [c.id]);
      assert values == Resolution(Success([]), t, pending + [c.id]);
      assert CreateConcretion(t, home, c, pending).result.Success?;
    } else {
      CachedOnlyWhereSaved(t, home, a);
    }
  }

  /**
   * One registry, three registrations: a Transient class `a` resolved twice
   * yields two distinct objects; a Singleton class `b` resolved from the root
   * and then from a child scope yields the same instance both times; `c`,
   * never given a producer, fails to resolve with a missing producer.
   */
  lemma MixedRegistryScenario(a: TypeId, ca: Concretion, b: TypeId, cb: Concretion, c: TypeId)
    requires a != b && b != c && a != c
    requires ca.params == [] && cb.params == []
    ensures var (b1, hb) := For(Register(NewBuilder(), a, ca), b);
      var (b2, hc) := For(InSingletonLifecycle(Use(b1, hb, cb), hb), c);
      var t := Build(b2);
      var x1 := ResolveById(t, 0, a);
      var x2 := ResolveById(x1.tree, 0, a);
      var (t3, child) := CreateScope(x2.tree, 0);
      var y1 := ResolveById(t3, 0, b);
      var y2 := ResolveById(y1.tree, child, b);
      var z := ResolveById(y2.tree, 0, c);
      && x1.result.Success? && x2.result.Success? && x1.result.value != x2.result.value
      && x2.tree.heap[x1.result.value.ref] == Constructed(ca.id, [])
      && x2.tree.heap[x2.result.value.ref] == Constructed(ca.id, [])
      && y1.result.Success? && y2.result == y1.result
      && z.result == Failure(MissingProducer)
  {
    var (b1, hb) := For(Register(NewBuilder(), a, ca), b);
    var (b2, hc) := For(InSingletonLifecycle(Use(b1, hb, cb), hb), c);
    assert b2.tentative == [
      TentativeRegistration(a, Transient, Some(ClassType(ca))),
      TentativeRegistration(b, Singleton, Some(ClassType(cb))),
      TentativeRegistration(c, Transient, None)];
    var t := Build(b2);
    BuildResolvesFirstRegistration(b2, 0);
    BuildResolvesFirstRegistration(b2, 1);
    BuildResolvesFirstRegistration(b2, 2);
    ParameterlessConcretionResolves(t, 0, a, ca, []);
    var x1 := ResolveById(t, 0, a);
    ParameterlessConcretionResolves(x1.tree, 0, a, ca, []);
    var x2 := ResolveById(x1.tree, 0, a);
    TransientNeverShared(t, 0, a, x1.tree, 0);
    var (t3, child) := CreateScope(x2.tree, 0);
    ParameterlessConcretionResolves(t3, 0, b, cb, []);
    var y1 := ResolveById(t3, 0, b);
    SingletonSharedByAllScopes(t3, 0, b, y1.tree, child);
    var y2 := ResolveById(y1.tree, child, b);
    MissingProducerFails(y2.tree, 0, c, []);
  }

  /**
   * The argument list of a constructor taking one value twice, then another
   * twice. Kept apart from the scenarios that use it: stated next to their
   * resolution terms, this sequence fact is far more work for the solver.
   */
  lemma SharedPairs(x: Instance, y: Instance)
    ensures [x] + [x, y, y] == [x, x, y, y]
  {
  }

  /**
   * A Scoped `C2(I3, I3)` over a Scoped parameterless `C3`, neither cached
   * yet, built by the root: the new `C2` holds one `C3` twice, and that `C3`
   * is the one the root cache now keeps for `I3`.
   */
  lemma ScopedPairBuilt(t: ContainerTree, i2: TypeId, c2: Concretion, i3: TypeId, c3: Concretion, pending: seq<TypeId>)
    requires Valid(t)
    requires Lookup(t.registrations, i2).Some? && Lookup(t.registrations, i2).value.producer == Some(ClassType(c2))
    requires Lookup(t.registrations, i2).value.lifecycle == Scoped
    requires Lookup(t.registrations, i3).Some? && Lookup(t.registrations, i3).value.producer == Some(ClassType(c3))
    requires Lookup(t.registrations, i3).value.lifecycle == Scoped
    requires c2.id != c3.id && c2.id !in pending && c3.id !in pending
    requires c2.params == [i3, i3] && c3.params == []
    requires FindInstance(t.caches[0], i2).None? && FindInstance(t.caches[0], i3).None?
    ensures var d := ResolveByIdInternal(t, 0, i2, pending);
      && d.result.Success? && d.result.value.Object? && d.result.value.ref < |d.tree.heap|
      && FindInstance(d.tree.caches[0], i3).Some?
      && var y := FindInstance(d.tree.caches[0], i3).value;
      && d.tree.heap[d.result.value.ref] == Constructed(c2.id, [y, y])
      && y.Object? && y.ref < |d.tree.heap| && d.tree.heap[y.ref] == Constructed(c3.id, [])
  {
    var p2 := pending + [c2.id];
    ParameterlessConstructed(t, 0, i3, c3, p2);
    var d3 := ResolveByIdInternal(t, 0, i3, p2);
    var y := d3.result.value;
    SavedParamTwice(t, 0, i3, p2);
    LookupConcretionIsRegistered(t.registrations, i2, c2);
    ParamsResolvedConstructs(t, 0, c2, pending);
    var cc2 := CreateConcretion(t, 0, c2, pending);
    assert cc2 == Resolution(Success(Object(|d3.tree.heap|)),
                           d3.tree.(heap := d3.tree.heap + [Constructed(c2.id, [y, y])]), pending);
    ConstructedOnMiss(t, 0, i2, c2, pending);
    var d2 := ResolveByIdInternal(t, 0, i2, pending);
    assert FindInstance(d3.tree.caches[0], i3) == Some(y);
    FindInstanceInExtension(d3.tree.caches[0], d2.tree.caches[0], i3);
  }

  /**
   * The parameters of a Singleton `C1(I2, I2, I3, I3)` over the Scoped pair
   * above, resolved by the root: the first `I2` builds the `C2`, and every
   * later parameter comes from the root cache that construction filled.
   */
  lemma SingletonParamsShared(t: ContainerTree, c1: Concretion, i2: TypeId, c2: Concretion, i3: TypeId, c3: Concretion)
    requires Valid(t)
    requires Lookup(t.registrations, i2).Some? && Lookup(t.registrations, i2).value.producer == Some(ClassType(c2))
    requires Lookup(t.registrations, i2).value.lifecycle == Scoped
    requires Lookup(t.registrations, i3).Some? && Lookup(t.registrations, i3).value.producer == Some(ClassType(c3))
    requires Lookup(t.registrations, i3).value.lifecycle == Scoped
    requires c1.id != c2.id && c2.id != c3.id && c1.id != c3.id
    requires c1.params == [i2, i2, i3, i3] && c2.params == [i3, i3] && c3.params == []
    requires FindInstance(t.caches[0], i2).None? && FindInstance(t.caches[0], i3).None?
    ensures var d := ResolveByIdInternal(t, 0, i2, [c1.id]);
      && d.result.Success? && FindInstance(d.tree.caches[0], i3).Some?
      && var y := FindInstance(d.tree.caches[0], i3).value;
      ResolveParams(t, 0, c1.params, [c1.id]) == Resolution(Success([d.result.value, d.result.value, y, y]), d.tree, [c1.id])
  {
    ScopedPairBuilt(t, i2, c2, i3, c3, [c1.id]);
    var d2 := ResolveByIdInternal(t, 0, i2, [c1.id]);
    var y := FindInstance(d2.tree.caches[0], i3).value;
    var cached := [d2.result.value, y, y];
    forall k | 1 <= k < |c1.params|
      ensures && Lookup(t.registrations, c1.params[k]).Some?
              && SavedInCache(Lookup(t.registrations, c1.params[k]).value.lifecycle)
              && FindInstance(d2.tree.caches[Home(Lookup(t.registrations, c1.params[k]).value.lifecycle, 0)], c1.params[k])
                   == Some(cached[k - 1])
    {
      if k == 1 {
        assert c1.params[k] == i2 && cached[k - 1] == d2.result.value;
      } else {
        assert c1.params[k] == i3 && cached[k - 1] == y;
      }
    }
    CachedAfterFirst(t, 0, c1.params, [c1.id], cached);
    SharedPairs(d2.result.value, y);
  }

  /**
   * A Singleton `C1(I2, I2, I3, I3)` over the Scoped pair above, nothing
   * cached yet, built by the root: both `I2` arguments are the new `C2`, and
   * both `I3` arguments are the `C3` that `C2` holds.
   */
  lemma SingletonOverScopedBuilt(t: ContainerTree, i1: TypeId, c1: Concretion, i2: TypeId, c2: Concretion, i3: TypeId, c3: Concretion)
    requires Valid(t)
    requires Lookup(t.registrations, i1).Some? && Lookup(t.registrations, i1).value.producer == Some(ClassType(c1))
    requires Lookup(t.registrations, i1).value.lifecycle == Singleton
    requires Lookup(t.registrations, i2).Some? && Lookup(t.registrations, i2).value.producer == Some(ClassType(c2))
    requires Lookup(t.registrations, i2).value.lifecycle == Scoped
    requires Lookup(t.registrations, i3).Some? && Lookup(t.registrations, i3).value.producer == Some(ClassType(c3))
    requires Lookup(t.registrations, i3).value.lifecycle == Scoped
    requires c1.id != c2.id && c2.id != c3.id && c1.id != c3.id
    requires c1.params == [i2, i2, i3, i3] && c2.params == [i3, i3] && c3.params == []
    requires FindInstance(t.caches[0], i1).None? && FindInstance(t.caches[0], i2).None? && FindInstance(t.caches[0], i3).None?
    ensures var x := ResolveByIdInternal(t, 0, i1, []);
      && x.result.Success? && x.result.value.Object? && x.result.value.ref < |x.tree.heap|
      && x.tree.heap[x.result.value.ref].Constructed?
      && var args := x.tree.heap[x.result.value.ref].args;
      && |args| == 4
      && x.tree.heap[x.result.value.ref] == Constructed(c1.id, [args[0], args[0], args[2], args[2]])
      && args[0].Object? && args[0].ref < |x.tree.heap|
      && x.tree.heap[args[0].ref] == Constructed(c2.id, [args[2], args[2]])
      && args[2].Object? && args[2].ref < |x.tree.heap|
      && x.tree.heap[args[2].ref] == Constructed(c3.id, [])
  {
    ScopedPairBuilt(t, i2, c2, i3, c3, [c1.id]);
    SingletonParamsShared(t, c1, i2, c2, i3, c3);
    var d2 := ResolveByIdInternal(t, 0, i2, [c1.id]);
    var y := FindInstance(d2.tree.caches[0], i3).value;
    var args := [d2.result.value, d2.result.value, y, y];
    assert [] + [c1.id] == [c1.id];
    LookupConcretionIsRegistered(t.registrations, i1, c1);
    ParamsResolvedConstructs(t, 0, c1, []);
    ConstructedOnMiss(t, 0, i1, c1, []);
    var x := ResolveByIdInternal(t, 0, i1, []);
    assert x.result == Success(Object(|d2.tree.heap|)) && x.tree.heap == d2.tree.heap + [Constructed(c1.id, args)];
    assert x.tree.heap[d2.result.value.ref] == d2.tree.heap[d2.result.value.ref];
    assert x.tree.heap[y.ref] == d2.tree.heap[y.ref];
  }

  /**
   * The three-level registry with a Singleton first level over Scoped second
   * and third levels: `C1(I2, I2, I3, I3)`, `C2(I3, I3)`, `C3()`. Two scopes
   * are created from the root and `I1` is resolved twice in each. All four
   * requests get one `C1`; its two `I2` arguments are one `C2`, its two `I3`
   * arguments are one `C3`, and that `C3` is also both arguments of the `C2`:
   * the scoped dependencies of the singleton are resolved, and shared, at the root.
   */
  lemma SingletonOverScopedScenario(i1: TypeId, c1: Concretion, i2: TypeId, c2: Concretion, i3: TypeId, c3: Concretion)
    requires i1 != i2 && i2 != i3 && i1 != i3
    requires c1.id != c2.id && c2.id != c3.id && c1.id != c3.id
    requires c1.params == [i2, i2, i3, i3] && c2.params == [i3, i3] && c3.params == []
    ensures var t := Build(RegisterIn(RegisterIn(RegisterIn(NewBuilder(), i1, c1, Singleton), i2, c2, Scoped), i3, c3, Scoped));
      var (t1, s1) := CreateScope(t, 0);
      var (t2, s2) := CreateScope(t1, 0);
      var x1 := ResolveById(t2, s1, i1);
      var x2 := ResolveById(x1.tree, s1, i1);
      var x3 := ResolveById(x2.tree, s2, i1);
      var x4 := ResolveById(x3.tree, s2, i1);
      && x1.result.Success? && x2.result == x1.result && x3.result == x1.result && x4.result == x1.result
      && x1.result.value.Object? && x1.result.value.ref < |x1.tree.heap|
      && x1.tree.heap[x1.result.value.ref].Constructed?
      && var args := x1.tree.heap[x1.result.value.ref].args;
      && |args| == 4
      && x1.tree.heap[x1.result.value.ref] == Constructed(c1.id, [args[0], args[0], args[2], args[2]])
      && args[0].Object? && args[0].ref < |x1.tree.heap|
      && x1.tree.heap[args[0].ref] == Constructed(c2.id, [args[2], args[2]])
      && args[2].Object? && args[2].ref < |x1.tree.heap|
      && x1.tree.heap[args[2].ref] == Constructed(c3.id, [])
  {
    var b := RegisterIn(RegisterIn(RegisterIn(NewBuilder(), i1, c1, Singleton), i2, c2, Scoped), i3, c3, Scoped);
    var t := Build(b);
    BuildResolvesFirstRegistration(b, 0);
    BuildResolvesFirstRegistration(b, 1);
    BuildResolvesFirstRegistration(b, 2);
    var (t1, s1) := CreateScope(t, 0);
    var (t2, s2) := CreateScope(t1, 0);
    assert t2.caches[0] == t1.caches[0] == [];
    SingletonOverScopedBuilt(t2, i1, c1, i2, c2, i3, c3);
    SingletonResolvedAtRoot(t2, s1, i1, []);
    var x1 := ResolveById(t2, s1, i1);
    SingletonSharedByAllScopes(t2, s1, i1, x1.tree, s1);
    SingletonSharedByAllScopes(t2, s1, i1, x1.tree, s2);
  }
}

=== FILE: three_level.dfy ===
/**
 * The three-level lifecycle registry: `I1` constructed as `C1(I2, I2, I3, I3)`,
 * `I2` as `C2(I3, I3)` and `I3` as `C3()`. Two scopes are created from the
 * root and `I1` is resolved twice in each; the first-level instances, their
 * second-level fields and all third-level fields are then compared.
 */
module ThreeLevel {
  import opened Wrappers
  import opened Types
  import opened Container
  import opened ContainerBuilder
  import opened Lifecycles
  import opened Construction
  import opened Scenarios
  import opened BuilderProperties

  // ---------------------------------------------------------------------------
  // Reading the fields of the resolved objects
  // ---------------------------------------------------------------------------

  /**
   * The `k`-th constructor argument of `v` as stored in `heap`, or `None` when
   * `v` is not a constructed object with that many arguments.
   */
  function Field(heap: seq<ObjectRecord>, v: Option<Instance>, k: nat): Option<Instance>
  {
    if v.Some? && v.value.Object? && v.value.ref < |heap| && heap[v.value.ref].Constructed?
       && k < |heap[v.value.ref].args|
    then Some(heap[v.value.ref].args[k])
    else None
  }

  /** Fields `k` and `k + 1` of every value, in order, flattened into one list. */
  function FieldPairs(heap: seq<ObjectRecord>, vs: seq<Option<Instance>>, k: nat): (r: seq<Option<Instance>>)
    ensures |r| == 2 * |vs|
  {
    if |vs| == 0 then [] else [Field(heap, vs[0], k), Field(heap, vs[0], k + 1)] + FieldPairs(heap, vs[1..], k)
  }

  /** Entry `i` of the flattened list is field `k + i % 2` of value `i / 2`. */
  lemma {:induction false} FieldPairsAt(heap: seq<ObjectRecord>, vs: seq<Option<Instance>>, k: nat, i: nat)
    requires i < 2 * |vs|
    ensures FieldPairs(heap, vs, k)[i] == Field(heap, vs[i / 2], k + i % 2)
    decreases |vs|
  {
    if 2 <= i {
      FieldPairsAt(heap, vs[1..], k, i - 2);
      assert (i - 2) / 2 == i / 2 - 1 && (i - 2) % 2 == i % 2;
    }
  }

  /** The second-level instances of some first-level ones: every `d21`, `d22`. */
  function Twos(heap: seq<ObjectRecord>, ones: seq<Option<Instance>>): seq<Option<Instance>>
  {
    FieldPairs(heap, ones, 0)
  }

  /**
   * The third-level instances of some first-level ones: every `d31`, `d32` of
   * the first-level instances, then every `d31`, `d32` of their second-level ones.
   */
  function Threes(heap: seq<ObjectRecord>, ones: seq<Option<Instance>>): seq<Option<Instance>>
  {
    FieldPairs(heap, ones, 2) + FieldPairs(heap, Twos(heap, ones), 0)
  }

  /** The first part of the third-level list: fields `d31`, `d32` of the first-level instances. */
  lemma ThreeOfOne(heap: seq<ObjectRecord>, ones: seq<Option<Instance>>, i: nat)
    requires i < 2 * |ones|
    ensures |Threes(heap, ones)| == 6 * |ones|
    ensures Threes(heap, ones)[i] == Field(heap, ones[i / 2], 2 + i % 2)
  {
    FieldPairsAt(heap, ones, 2, i);
  }

  /** The second part of the third-level list: fields `d31`, `d32` of the second-level instances. */
  lemma ThreeOfTwo(heap: seq<ObjectRecord>, ones: seq<Option<Instance>>, k: nat)
    requires k < 4 * |ones|
    ensures |Threes(heap, ones)| == 6 * |ones|
    ensures Threes(heap, ones)[2 * |ones| + k] == Field(heap, Twos(heap, ones)[k / 2], k % 2)
  {
    var twos := Twos(heap, ones);
    var first := FieldPairs(heap, ones, 2);
    var second := FieldPairs(heap, twos, 0);
    FieldPairsAt(heap, twos, 0, k);
    assert Threes(heap, ones)[2 * |ones| + k] == second[k];
  }

  /** Every two entries differ. */
  predicate AllDistinct<T(==)>(s: seq<T>)
  {
    forall i, j | 0 <= i < j < |s| :: s[i] != s[j]
  }

  /** Every entry equals the next one. */
  predicate AllEqual<T(==)>(s: seq<T>)
  {
    forall i | 0 < i < |s| :: s[i - 1] == s[i]
  }

  /** Every concretion of the registry is its own class, with the constructor signatures above. */
  predicate Shaped(i2: TypeId, i3: TypeId, c1: Concretion, c2: Concretion, c3: Concretion)
  {
    && c1.id != c2.id && c2.id != c3.id && c1.id != c3.id
    && c1.params == [i2, i2, i3, i3] && c2.params == [i3, i3] && c3.params == []
  }

  /** `a` is registered as constructed by `c` and kept as `l` says. */
  ghost predicate RegisteredAs(registrations: seq<Registration>, a: TypeId, c: Concretion, l: Lifecycle)
  {
    && Lookup(registrations, a).Some?
    && Lookup(registrations, a).value.producer == Some(ClassType(c))
    && Lookup(registrations, a).value.lifecycle == l
  }

  /** Resolving a parameter list whose first parameter is `a`. */
  lemma ParamsCons(t: ContainerTree, scope: ScopeId, a: TypeId, rest: seq<TypeId>, pending: seq<TypeId>)
    requires Valid(t) && scope < |t.parents|
    requires ResolveByIdInternal(t, scope, a, pending).result.Success?
    ensures var first := ResolveByIdInternal(t, scope, a, pending);
      var tail := ResolveParams(first.tree, scope, rest, first.pending);
      tail.result.Success? ==>
        ResolveParams(t, scope, [a] + rest, pending)
          == Resolution(Success([first.result.value] + tail.result.value), tail.tree, tail.pending)
  {
    ResolveParamsCons(t, scope, [a] + rest, pending);
    assert ([a] + rest)[0] == a && ([a] + rest)[1..] == rest;
  }

  /** Resolving a one-parameter list is resolving the parameter. */
  lemma OneParamResolved(t: ContainerTree, scope: ScopeId, a: TypeId, pending: seq<TypeId>)
    requires Valid(t) && scope < |t.parents|
    requires ResolveByIdInternal(t, scope, a, pending).result.Success?
    ensures var first := ResolveByIdInternal(t, scope, a, pending);
      ResolveParams(t, scope, [a], pending) == Resolution(Success([first.result.value]), first.tree, first.pending)
  {
    var first := ResolveByIdInternal(t, scope, a, pending);
    ResolveParamsCons(t, scope, [a], pending);
    assert [a][1..] == [];
    assert ResolveParams(first.tree, scope, [], first.pending) == Resolution(Success([]), first.tree, first.pending);
    assert [first.result.value] + [] == [first.result.value];
  }

  /** Resolving two parameters one after the other. */
  lemma TwoParamsResolved(t: ContainerTree, scope: ScopeId, a: TypeId, b: TypeId, pending: seq<TypeId>)
    requires Valid(t) && scope < |t.parents|
    requires ResolveByIdInternal(t, scope, a, pending).result.Success?
    requires var first := ResolveByIdInternal(t, scope, a, pending);
      ResolveByIdInternal(first.tree, scope, b, first.pending).result.Success?
    ensures var first := ResolveByIdInternal(t, scope, a, pending);
      var second := ResolveByIdInternal(first.tree, scope, b, first.pending);
      ResolveParams(t, scope, [a, b], pending)
        == Resolution(Success([first.result.value, second.result.value]), second.tree, second.pending)
  {
    var first := ResolveByIdInternal(t, scope, a, pending);
    var second := ResolveByIdInternal(first.tree, scope, b, first.pending);
    OneParamResolved(first.tree, scope, b, first.pending);
    ParamsCons(t, scope, a, [b], pending);
    assert [a] + [b] == [a, b] && [first.result.value] + [second.result.value] == [first.result.value, second.result.value];
  }

  // ---------------------------------------------------------------------------
  // Every level Transient
  // ---------------------------------------------------------------------------

  /** The objects a Transient `I2` allocates from heap length `n`: two `C3`s, then the `C2` holding them. */
  function TransientPairLayout(n: nat, c2: TypeId, c3: TypeId): seq<ObjectRecord>
  {
    [Constructed(c3, []), Constructed(c3, []), Constructed(c2, [Object(n), Object(n + 1)])]
  }

  /**
   * The objects a Transient `I1` allocates from heap length `n`: a `C2` pair
   * for each `I2` parameter, a `C3` for each `I3` parameter, then the `C1`.
   */
  function TransientLayout(n: nat, c1: TypeId, c2: TypeId, c3: TypeId): seq<ObjectRecord>
  {
    TransientPairLayout(n, c2, c3) + TransientPairLayout(n + 3, c2, c3)
      + [Constructed(c3, []), Constructed(c3, []),
         Constructed(c1, [Object(n + 2), Object(n + 5), Object(n + 6), Object(n + 7)])]
  }

  /** The heap after `m` Transient resolutions of `I1` from an empty heap. */
  function TransientHeap(m: nat, c1: TypeId, c2: TypeId, c3: TypeId): (heap: seq<ObjectRecord>)
    ensures |heap| == 9 * m
  {
    if m == 0 then [] else TransientHeap(m - 1, c1, c2, c3) + TransientLayout(9 * (m - 1), c1, c2, c3)
  }

  /** A Transient `C3()` is a new object on every resolution. */
  lemma TransientLeafBuilt(t: ContainerTree, scope: ScopeId, a: TypeId, c: Concretion, pending: seq<TypeId>)
    requires Valid(t) && scope < |t.parents|
    requires RegisteredAs(t.registrations, a, c, Transient) && c.params == [] && c.id !in pending
    ensures var r := ResolveByIdInternal(t, scope, a, pending);
      && r.result == Success(Object(|t.heap|)) && r.pending == pending
      && r.tree.heap == t.heap + [Constructed(c.id, [])]
  {
    TransientNeverCached(t, a);
    ParameterlessConstructed(t, scope, a, c, pending);
  }

  /** Two Transient `C3()` parameters get two new objects, one after the other. */
  lemma TransientLeavesBuilt(t: ContainerTree, scope: ScopeId, i3: TypeId, c3: Concretion, pending: seq<TypeId>)
    requires Valid(t) && scope < |t.parents|
    requires RegisteredAs(t.registrations, i3, c3, Transient) && c3.params == [] && c3.id !in pending
    ensures var n := |t.heap|;
      var values := ResolveParams(t, scope, [i3, i3], pending);
      && values.result == Success([Object(n), Object(n + 1)]) && values.pending == pending
      && values.tree.heap == t.heap + [Constructed(c3.id, []), Constructed(c3.id, [])]
  {
    TransientLeafBuilt(t, scope, i3, c3, pending);
    var e1 := ResolveByIdInternal(t, scope, i3, pending);
    TransientLeafBuilt(e1.tree, scope, i3, c3, pending);
    TwoParamsResolved(t, scope, i3, i3, pending);
    var e2 := ResolveByIdInternal(e1.tree, scope, i3, pending);
    Appended2(t.heap, e1.tree.heap, e2.tree.heap, Constructed(c3.id, []), Constructed(c3.id, []));
  }

  /** A Transient `C2(I3, I3)` over a Transient `C3()` allocates exactly its pair layout. */
  lemma TransientPairBuilt(t: ContainerTree, scope: ScopeId, i2: TypeId, c2: Concretion, i3: TypeId, c3: Concretion,
                           pending: seq<TypeId>)
    requires Valid(t) && scope < |t.parents|
    requires RegisteredAs(t.registrations, i2, c2, Transient) && RegisteredAs(t.registrations, i3, c3, Transient)
    requires c2.id != c3.id && c2.id !in pending && c3.id !in pending
    requires c2.params == [i3, i3] && c3.params == []
    ensures var r := ResolveByIdInternal(t, scope, i2, pending);
      && r.result == Success(Object(|t.heap| + 2)) && r.pending == pending
      && r.tree.heap == t.heap + TransientPairLayout(|t.heap|, c2.id, c3.id)
  {
    var n := |t.heap|;
    TransientLeavesBuilt(t, scope, i3, c3, pending + [c2.id]);
    var values := ResolveParams(t, scope, c2.params, pending + [c2.id]);
    LookupConcretionIsRegistered(t.registrations, i2, c2);
    ParamsResolvedConstructs(t, scope, c2, pending);
    TransientNeverCached(t, i2);
    ConstructedOnMiss(t, scope, i2, c2, pending);
    assert values.tree.heap + [Constructed(c2.id, [Object(n), Object(n + 1)])]
        == t.heap + TransientPairLayout(n, c2.id, c3.id);
  }

  /** The last three parameters of a Transient `C1`: a new `C2` pair, then two new `C3`s. */
  lemma TransientPairThenLeavesBuilt(t: ContainerTree, scope: ScopeId, c1: Concretion, i2: TypeId, c2: Concretion,
                                     i3: TypeId, c3: Concretion)
    requires Valid(t) && scope < |t.parents|
    requires RegisteredAs(t.registrations, i2, c2, Transient) && RegisteredAs(t.registrations, i3, c3, Transient)
    requires Shaped(i2, i3, c1, c2, c3)
    ensures var n := |t.heap|;
      var values := ResolveParams(t, scope, [i2, i3, i3], [c1.id]);
      && values.result == Success([Object(n + 2), Object(n + 3), Object(n + 4)]) && values.pending == [c1.id]
      && values.tree.heap == t.heap + TransientPairLayout(n, c2.id, c3.id) + [Constructed(c3.id, []), Constructed(c3.id, [])]
  {
    var n := |t.heap|;
    TransientPairBuilt(t, scope, i2, c2, i3, c3, [c1.id]);
    var d := ResolveByIdInternal(t, scope, i2, [c1.id]);
    TransientLeavesBuilt(d.tree, scope, i3, c3, [c1.id]);
    ParamsCons(t, scope, i2, [i3, i3], [c1.id]);
    assert [i2] + [i3, i3] == [i2, i3, i3];
    assert [Object(n + 2)] + [Object(n + 3), Object(n + 4)] == [Object(n + 2), Object(n + 3), Object(n + 4)];
  }

  /** The four parameters of a Transient `C1`: two new `C2` pairs, then two new `C3`s. */
  lemma TransientParamsBuilt(t: ContainerTree, scope: ScopeId, c1: Concretion, i2: TypeId, c2: Concretion,
                             i3: TypeId, c3: Concretion)
    requires Valid(t) && scope < |t.parents|
    requires RegisteredAs(t.registrations, i2, c2, Transient) && RegisteredAs(t.registrations, i3, c3, Transient)
    requires Shaped(i2, i3, c1, c2, c3)
    ensures var n := |t.heap|;
      var values := ResolveParams(t, scope, c1.params, [c1.id]);
      && values.result == Success([Object(n + 2), Object(n + 5), Object(n + 6), Object(n + 7)])
      && values.pending == [c1.id]
      && values.tree.heap + [Constructed(c1.id, values.result.value)] == t.heap + TransientLayout(n, c1.id, c2.id, c3.id)
  {
    TransientParamsSteps(t, scope, c1, i2, c2, i3, c3);
    var d := ResolveByIdInternal(t, scope, i2, [c1.id]);
    TransientParamsFinished(t.heap, c1.id, c2.id, c3.id, d, ResolveParams(d.tree, scope, [i2, i3, i3], [c1.id]),
                            ResolveParams(t, scope, c1.params, [c1.id]));
  }

  /** The two steps of `TransientParamsBuilt`: the first `I2`, then the other three parameters. */
  lemma TransientParamsSteps(t: ContainerTree, scope: ScopeId, c1: Concretion, i2: TypeId, c2: Concretion,
                             i3: TypeId, c3: Concretion)
    requires Valid(t) && scope < |t.parents|
    requires RegisteredAs(t.registrations, i2, c2, Transient) && RegisteredAs(t.registrations, i3, c3, Transient)
    requires Shaped(i2, i3, c1, c2, c3)
    ensures var n := |t.heap|;
      var d := ResolveByIdInternal(t, scope, i2, [c1.id]);
      var rest := ResolveParams(d.tree, scope, [i2, i3, i3], [c1.id]);
      && d.result == Success(Object(n + 2)) && d.tree.heap == t.heap + TransientPairLayout(n, c2.id, c3.id)
      && rest.result == Success([Object(n + 5), Object(n + 6), Object(n + 7)]) && rest.pending == [c1.id]
      && rest.tree.heap == d.tree.heap + TransientPairLayout(n + 3, c2.id, c3.id)
                           + [Constructed(c3.id, []), Constructed(c3.id, [])]
      && ResolveParams(t, scope, c1.params, [c1.id])
         == Resolution(Success([d.result.value] + rest.result.value), rest.tree, rest.pending)
  {
    TransientPairBuilt(t, scope, i2, c2, i3, c3, [c1.id]);
    var d := ResolveByIdInternal(t, scope, i2, [c1.id]);
    TransientPairThenLeavesBuilt(d.tree, scope, c1, i2, c2, i3, c3);
    ParamsCons(t, scope, i2, [i2, i3, i3], [c1.id]);
    assert [i2] + [i2, i3, i3] == c1.params;
  }

  /** What the two steps of `TransientParamsBuilt` add up to, as a fact about their results alone. */
  lemma TransientParamsFinished(h: seq<ObjectRecord>, c1: TypeId, c2: TypeId, c3: TypeId, d: Resolution<Instance>,
                                rest: Resolution<seq<Instance>>, values: Resolution<seq<Instance>>)
    requires var n := |h|;
      && d.result == Success(Object(n + 2)) && d.tree.heap == h + TransientPairLayout(n, c2, c3)
      && rest.result == Success([Object(n + 5), Object(n + 6), Object(n + 7)]) && rest.pending == [c1]
      && rest.tree.heap == d.tree.heap + TransientPairLayout(n + 3, c2, c3) + [Constructed(c3, []), Constructed(c3, [])]
      && values == Resolution(Success([d.result.value] + rest.result.value), rest.tree, rest.pending)
    ensures var n := |h|;
      && values.result == Success([Object(n + 2), Object(n + 5), Object(n + 6), Object(n + 7)])
      && values.pending == [c1]
      && values.tree.heap + [Constructed(c1, values.result.value)] == h + TransientLayout(n, c1, c2, c3)
  {
    var n := |h|;
    assert [Object(n + 2)] + [Object(n + 5), Object(n + 6), Object(n + 7)]
        == [Object(n + 2), Object(n + 5), Object(n + 6), Object(n + 7)];
    TransientLayoutSplit(h, d.tree.heap, rest.tree.heap, c1, c2, c3);
  }

  /** The heap arithmetic of `TransientParamsBuilt`. */
  lemma TransientLayoutSplit(h: seq<ObjectRecord>, h1: seq<ObjectRecord>, h2: seq<ObjectRecord>, c1: TypeId, c2: TypeId, c3: TypeId)
    requires h1 == h + TransientPairLayout(|h|, c2, c3)
    requires h2 == h1 + TransientPairLayout(|h1|, c2, c3) + [Constructed(c3, []), Constructed(c3, [])]
    ensures var n := |h|;
      h2 + [Constructed(c1, [Object(n + 2), Object(n + 5), Object(n + 6), Object(n + 7)])]
        == h + TransientLayout(n, c1, c2, c3)
  {
  }

  /** Two records appended one after the other. */
  lemma Appended2<T>(h: seq<T>, h1: seq<T>, h2: seq<T>, x: T, y: T)
    requires h1 == h + [x] && h2 == h1 + [y]
    ensures h2 == h + [x, y]
  {
  }

  /** A Transient `C1` over Transient levels allocates exactly its layout, the `C1` last. */
  lemma TransientTopBuilt(t: ContainerTree, scope: ScopeId, i1: TypeId, c1: Concretion, i2: TypeId, c2: Concretion,
                          i3: TypeId, c3: Concretion)
    requires Valid(t) && scope < |t.parents|
    requires RegisteredAs(t.registrations, i1, c1, Transient)
    requires RegisteredAs(t.registrations, i2, c2, Transient) && RegisteredAs(t.registrations, i3, c3, Transient)
    requires Shaped(i2, i3, c1, c2, c3)
    ensures var x := ResolveByIdInternal(t, scope, i1, []);
      && x.result == Success(Object(|t.heap| + 8))
      && x.tree.heap == t.heap + TransientLayout(|t.heap|, c1.id, c2.id, c3.id)
  {
    TransientParamsBuilt(t, scope, c1, i2, c2, i3, c3);
    assert [] + [c1.id] == [c1.id];
    LookupConcretionIsRegistered(t.registrations, i1, c1);
    ParamsResolvedConstructs(t, scope, c1, []);
    TransientNeverCached(t, i1);
    ConstructedOnMiss(t, scope, i1, c1, []);
  }

  /** The records of the `q`-th resolution sit at indices `9 * q` to `9 * q + 8`. */
  lemma {:induction false} TransientHeapAt(m: nat, q: nat, j: nat, c1: TypeId, c2: TypeId, c3: TypeId)
    requires q < m && j < 9
    ensures TransientHeap(m, c1, c2, c3)[9 * q + j] == TransientLayout(9 * q, c1, c2, c3)[j]
    decreases m
  {
    if q < m - 1 {
      TransientHeapAt(m - 1, q, j, c1, c2, c3);
    }
  }

  /** The first-level instances of `m` Transient resolutions from an empty heap: every ninth object. */
  function TransientOnes(m: nat): (ones: seq<Option<Instance>>)
    ensures |ones| == m
  {
    seq(m, k requires 0 <= k < m => Some(Object(9 * k + 8)))
  }

  /** The records of one Transient layout, one by one. */
  lemma TransientLayoutRecords(n: nat, c1: TypeId, c2: TypeId, c3: TypeId)
    ensures var l := TransientLayout(n, c1, c2, c3);
      && |l| == 9
      && l[0] == l[1] == l[3] == l[4] == l[6] == l[7] == Constructed(c3, [])
      && l[2] == Constructed(c2, [Object(n), Object(n + 1)])
      && l[5] == Constructed(c2, [Object(n + 3), Object(n + 4)])
      && l[8] == Constructed(c1, [Object(n + 2), Object(n + 5), Object(n + 6), Object(n + 7)])
  {
  }

  /** The `C1` of the `q`-th resolution, at index `9 * q + 8`. */
  lemma TransientOneRecord(m: nat, q: nat, c1: TypeId, c2: TypeId, c3: TypeId)
    requires q < m
    ensures TransientHeap(m, c1, c2, c3)[9 * q + 8]
         == Constructed(c1, [Object(9 * q + 2), Object(9 * q + 5), Object(9 * q + 6), Object(9 * q + 7)])
  {
    TransientHeapAt(m, q, 8, c1, c2, c3);
    TransientLayoutRecords(9 * q, c1, c2, c3);
  }

  /** The `C2` records of the `q`-th resolution, at indices `9 * q + 2` and `9 * q + 5`. */
  lemma TransientPairAt(m: nat, q: nat, r: nat, c1: TypeId, c2: TypeId, c3: TypeId)
    requires q < m && r < 2
    ensures TransientHeap(m, c1, c2, c3)[9 * q + 2 + 3 * r]
         == Constructed(c2, [Object(9 * q + 3 * r), Object(9 * q + 3 * r + 1)])
  {
    TransientHeapAt(m, q, 2 + 3 * r, c1, c2, c3);
    TransientPairRecord(9 * q, r, c1, c2, c3);
  }

  /** The two `C2`s of a Transient layout, each holding the two `C3`s allocated just before it. */
  lemma TransientPairRecord(n: nat, r: nat, c1: TypeId, c2: TypeId, c3: TypeId)
    requires r < 2
    ensures TransientLayout(n, c1, c2, c3)[2 + 3 * r] == Constructed(c2, [Object(n + 3 * r), Object(n + 3 * r + 1)])
  {
    TransientLayoutRecords(n, c1, c2, c3);
    if r == 1 {
      assert 2 + 3 * r == 5;
    }
  }

  /** The `C3` records of the `q`-th resolution. */
  lemma TransientLeafAt(m: nat, q: nat, j: nat, c1: TypeId, c2: TypeId, c3: TypeId)
    requires q < m && j < 9 && j % 3 != 2
    ensures TransientHeap(m, c1, c2, c3)[9 * q + j] == Constructed(c3, [])
  {
    TransientHeapAt(m, q, j, c1, c2, c3);
    TransientLeafRecord(9 * q, j, c1, c2, c3);
  }

  /** Every third record of a Transient layout, from the first on, is a `C3`. */
  lemma TransientLeafRecord(n: nat, j: nat, c1: TypeId, c2: TypeId, c3: TypeId)
    requires j < 9 && j % 3 != 2
    ensures TransientLayout(n, c1, c2, c3)[j] == Constructed(c3, [])
  {
    TransientLayoutRecords(n, c1, c2, c3);
    assert j in {0, 1, 3, 4, 6, 7};
  }

  /** Field `d2(r+1)` of a `C1(b + 2, b + 5, b + 6, b + 7)`. */
  lemma TwoAt(heap: seq<ObjectRecord>, ones: seq<Option<Instance>>, q: nat, r: nat, b: nat, c1: TypeId)
    requires q < |ones| && r < 2
    requires ones[q] == Some(Object(b + 8)) && b + 8 < |heap|
    requires heap[b + 8] == Constructed(c1, [Object(b + 2), Object(b + 5), Object(b + 6), Object(b + 7)])
    ensures Twos(heap, ones)[2 * q + r] == Some(Object(b + 2 + 3 * r))
  {
    assert (2 * q + r) / 2 == q && (2 * q + r) % 2 == r;
    FieldPairsAt(heap, ones, 0, 2 * q + r);
    var args := [Object(b + 2), Object(b + 5), Object(b + 6), Object(b + 7)];
    assert Twos(heap, ones)[2 * q + r] == Some(args[r]);
    if r == 1 {
      assert args[1] == Object(b + 5);
    }
  }

  /** Field `d3(r+1)` of a `C1(b + 2, b + 5, b + 6, b + 7)`: the first part of the third-level list. */
  lemma ThreeOfOneAt(heap: seq<ObjectRecord>, ones: seq<Option<Instance>>, q: nat, r: nat, b: nat, c1: TypeId)
    requires q < |ones| && r < 2
    requires ones[q] == Some(Object(b + 8)) && b + 8 < |heap|
    requires heap[b + 8] == Constructed(c1, [Object(b + 2), Object(b + 5), Object(b + 6), Object(b + 7)])
    ensures Threes(heap, ones)[2 * q + r] == Some(Object(b + 6 + r))
  {
    assert (2 * q + r) / 2 == q && (2 * q + r) % 2 == r;
    ThreeOfOne(heap, ones, 2 * q + r);
    var args := [Object(b + 2), Object(b + 5), Object(b + 6), Object(b + 7)];
    assert Threes(heap, ones)[2 * q + r] == Some(args[2 + r]);
    if r == 1 {
      assert args[3] == Object(b + 7);
    }
  }

  /**
   * Field `d3(e+1)` of the `C2` in field `d2(r+1)` of a
   * `C1(b + 2, b + 5, b + 6, b + 7)`: the second part of the third-level list.
   */
  lemma ThreeOfTwoAt(heap: seq<ObjectRecord>, ones: seq<Option<Instance>>, q: nat, r: nat, e: nat, b: nat,
                     c1: TypeId, c2: TypeId)
    requires q < |ones| && r < 2 && e < 2
    requires ones[q] == Some(Object(b + 8)) && b + 8 < |heap|
    requires heap[b + 8] == Constructed(c1, [Object(b + 2), Object(b + 5), Object(b + 6), Object(b + 7)])
    requires heap[b + 2 + 3 * r] == Constructed(c2, [Object(b + 3 * r), Object(b + 3 * r + 1)])
    ensures Threes(heap, ones)[2 * |ones| + 4 * q + 2 * r + e] == Some(Object(b + 3 * r + e))
  {
    var k := 4 * q + 2 * r + e;
    assert k / 2 == 2 * q + r && k % 2 == e;
    TwoAt(heap, ones, q, r, b, c1);
    ThreeOfTwo(heap, ones, k);
    var args := [Object(b + 3 * r), Object(b + 3 * r + 1)];
    assert Threes(heap, ones)[2 * |ones| + k] == Some(args[e]);
    if e == 1 {
      assert args[1] == Object(b + 3 * r + 1);
    }
  }

  /** The first-level instances of `m` Transient resolutions are `m` different `C1`s. */
  lemma TransientOnesDistinct(m: nat, c1: TypeId, c2: TypeId, c3: TypeId)
    ensures var heap := TransientHeap(m, c1, c2, c3);
      AllOfClass(heap, TransientOnes(m), c1) && AllDistinct(TransientOnes(m))
  {
    var heap := TransientHeap(m, c1, c2, c3);
    forall k | 0 <= k < m
      ensures OfClass(heap, TransientOnes(m)[k], c1)
    {
      TransientOneRecord(m, k, c1, c2, c3);
    }
  }

  /** Their `2 * m` second-level fields are `2 * m` different `C2`s. */
  lemma TransientTwosDistinct(m: nat, c1: TypeId, c2: TypeId, c3: TypeId)
    ensures var heap := TransientHeap(m, c1, c2, c3);
      var twos := Twos(heap, TransientOnes(m));
      AllOfClass(heap, twos, c2) && AllDistinct(twos)
  {
    var heap := TransientHeap(m, c1, c2, c3);
    var ones := TransientOnes(m);
    forall i | 0 <= i < 2 * m
      ensures Twos(heap, ones)[i] == Some(Object(9 * (i / 2) + 2 + 3 * (i % 2)))
      ensures OfClass(heap, Twos(heap, ones)[i], c2)
    {
      var q, r := i / 2, i % 2;
      TransientOneRecord(m, q, c1, c2, c3);
      TwoAt(heap, ones, q, r, 9 * q, c1);
      TransientPairAt(m, q, r, c1, c2, c3);
    }
  }

  /** Their `6 * m` third-level fields are `6 * m` different `C3`s. */
  lemma TransientThreesDistinct(m: nat, c1: TypeId, c2: TypeId, c3: TypeId)
    ensures var heap := TransientHeap(m, c1, c2, c3);
      var threes := Threes(heap, TransientOnes(m));
      AllOfClass(heap, threes, c3) && AllDistinct(threes)
  {
    var heap := TransientHeap(m, c1, c2, c3);
    var ones := TransientOnes(m);
    forall i | 0 <= i < 6 * m
      ensures Threes(heap, ones)[i] == Some(Object(ThreeRef(m, i)))
      ensures OfClass(heap, Threes(heap, ones)[i], c3)
    {
      TransientThreeAt(m, i, c1, c2, c3);
    }
    forall i, j | 0 <= i < j < 6 * m
      ensures ThreeRef(m, i) != ThreeRef(m, j)
    {
      ThreeRefsDiffer(m, i, j);
    }
  }

  /** The `i`-th third-level field after `m` Transient resolutions, a `C3`. */
  lemma TransientThreeAt(m: nat, i: nat, c1: TypeId, c2: TypeId, c3: TypeId)
    requires i < 6 * m
    ensures var heap := TransientHeap(m, c1, c2, c3);
      && Threes(heap, TransientOnes(m))[i] == Some(Object(ThreeRef(m, i)))
      && OfClass(heap, Threes(heap, TransientOnes(m))[i], c3)
  {
    if i < 2 * m {
      TransientThreeAtOne(m, i, c1, c2, c3);
    } else {
      TransientThreeAtTwo(m, i, c1, c2, c3);
    }
    var heap := TransientHeap(m, c1, c2, c3);
    assert heap[ThreeRef(m, i)] == Constructed(c3, []);
  }

  /** The first part of `TransientThreeAt`: a field the `C1` holds directly. */
  lemma TransientThreeAtOne(m: nat, i: nat, c1: TypeId, c2: TypeId, c3: TypeId)
    requires i < 2 * m
    ensures var heap := TransientHeap(m, c1, c2, c3);
      && Threes(heap, TransientOnes(m))[i] == Some(Object(ThreeRef(m, i)))
      && ThreeRef(m, i) < |heap| && heap[ThreeRef(m, i)] == Constructed(c3, [])
  {
    Halves(i);
    var q, r := i / 2, i % 2;
    assert q < m && 2 * q + r == i;
    assert ThreeRef(m, i) == 9 * q + 6 + r;
    TransientThreeOfOne(m, q, r, c1, c2, c3);
  }

  /** The second part of `TransientThreeAt`: a field one of its `C2`s holds. */
  lemma TransientThreeAtTwo(m: nat, i: nat, c1: TypeId, c2: TypeId, c3: TypeId)
    requires 2 * m <= i < 6 * m
    ensures var heap := TransientHeap(m, c1, c2, c3);
      && Threes(heap, TransientOnes(m))[i] == Some(Object(ThreeRef(m, i)))
      && ThreeRef(m, i) < |heap| && heap[ThreeRef(m, i)] == Constructed(c3, [])
  {
    var k := i - 2 * m;
    Quarters(k);
    var q, w := k / 4, k % 4;
    assert q < m && 2 * m + 4 * q + w == i;
    assert ThreeRef(m, i) == 9 * q + w + (if 2 <= w then 1 else 0);
    TransientThreeOfTwo(m, q, w, c1, c2, c3);
  }

  /** Division by two, spelled out. */
  lemma Halves(i: nat)
    ensures i == 2 * (i / 2) + i % 2 && i % 2 < 2
  {
  }

  /** Field `d3(r+1)` of the `q`-th first-level instance. */
  lemma TransientThreeOfOne(m: nat, q: nat, r: nat, c1: TypeId, c2: TypeId, c3: TypeId)
    requires q < m && r < 2
    ensures var heap := TransientHeap(m, c1, c2, c3);
      var ref := 9 * q + 6 + r;
      && Threes(heap, TransientOnes(m))[2 * q + r] == Some(Object(ref))
      && ref < |heap| && heap[ref] == Constructed(c3, [])
  {
    TransientOneRecord(m, q, c1, c2, c3);
    ThreeOfOneAt(TransientHeap(m, c1, c2, c3), TransientOnes(m), q, r, 9 * q, c1);
    TransientLeafAt(m, q, 6 + r, c1, c2, c3);
  }

  /**
   * Entry `w` of the four third-level fields reached through the `q`-th
   * first-level instance's `C2`s: field `d3(e+1)` of field `d2(r+1)`, where
   * `w` is `2 * r + e`.
   */
  lemma TransientThreeOfTwo(m: nat, q: nat, w: nat, c1: TypeId, c2: TypeId, c3: TypeId)
    requires q < m && w < 4
    ensures var heap := TransientHeap(m, c1, c2, c3);
      var ref := 9 * q + w + (if 2 <= w then 1 else 0);
      && Threes(heap, TransientOnes(m))[2 * m + 4 * q + w] == Some(Object(ref))
      && ref < |heap| && heap[ref] == Constructed(c3, [])
  {
    TransientThreeOfTwoRef(m, q, w, c1, c2, c3);
    var j := w + (if 2 <= w then 1 else 0);
    assert j % 3 != 2 by {
      assert j in {0, 1, 3, 4};
    }
    TransientLeafAt(m, q, j, c1, c2, c3);
  }

  /** The list entry of `TransientThreeOfTwo`, without the record it points at. */
  lemma TransientThreeOfTwoRef(m: nat, q: nat, w: nat, c1: TypeId, c2: TypeId, c3: TypeId)
    requires q < m && w < 4
    ensures var heap := TransientHeap(m, c1, c2, c3);
      Threes(heap, TransientOnes(m))[2 * m + 4 * q + w] == Some(Object(9 * q + w + (if 2 <= w then 1 else 0)))
  {
    var r := if 2 <= w then 1 else 0;
    var e := w - 2 * r;
    var heap, ones := TransientHeap(m, c1, c2, c3), TransientOnes(m);
    TransientOneRecord(m, q, c1, c2, c3);
    TransientPairAt(m, q, r, c1, c2, c3);
    ThreeOfTwoAt(heap, ones, q, r, e, 9 * q, c1, c2);
    var idx := 2 * m + 4 * q + w;
    assert idx == 2 * |ones| + 4 * q + 2 * r + e;
    assert Threes(heap, ones)[idx] == Some(Object(9 * q + 3 * r + e));
  }

  /**
   * Where the `i`-th third-level field after `m` Transient resolutions points: the
   * `C3`s the `C1`s hold come first, then the ones their `C2`s hold.
   */
  function ThreeRef(m: nat, i: nat): nat
  {
    if i < 2 * m then 9 * (i / 2) + 6 + i % 2
    else var k := i - 2 * m; 9 * (k / 4) + k % 4 + (if 2 <= k % 4 then 1 else 0)
  }

  /** Distinct positions of the third-level list point at distinct objects. */
  lemma ThreeRefsDiffer(m: nat, i: nat, j: nat)
    requires i < j < 6 * m
    ensures ThreeRef(m, i) != ThreeRef(m, j)
  {
    if j < 2 * m {
      Halves(i);
      Halves(j);
      NineApart(i / 2, 6 + i % 2, j / 2, 6 + j % 2);
    } else if i < 2 * m {
      var k := j - 2 * m;
      Halves(i);
      Quarters(k);
      NineApart(i / 2, 6 + i % 2, k / 4, k % 4 + (if 2 <= k % 4 then 1 else 0));
    } else {
      var k, k' := i - 2 * m, j - 2 * m;
      Quarters(k);
      Quarters(k');
      NineApart(k / 4, k % 4 + (if 2 <= k % 4 then 1 else 0), k' / 4, k' % 4 + (if 2 <= k' % 4 then 1 else 0));
    }
  }

  /** Division by four, spelled out. */
  lemma Quarters(k: nat)
    ensures k == 4 * (k / 4) + k % 4 && k % 4 < 4
  {
  }

  /** Two offsets below nine from different multiples of nine, or different offsets, give different numbers. */
  lemma NineApart(a: nat, x: nat, b: nat, y: nat)
    requires x < 9 && y < 9 && (a != b || x != y)
    ensures 9 * a + x != 9 * b + y
  {
    if a < b {
      assert 9 * a + 9 <= 9 * b;
    } else if b < a {
      assert 9 * b + 9 <= 9 * a;
    }
  }

  /**
   * After `m` Transient resolutions, the first-level instances, their
   * second-level fields and all third-level fields are three lists of
   * pairwise different objects, of classes `C1`, `C2` and `C3` respectively.
   */
  lemma TransientHeapDistinct(m: nat, c1: TypeId, c2: TypeId, c3: TypeId)
    ensures var heap := TransientHeap(m, c1, c2, c3);
      var ones := TransientOnes(m);
      && AllOfClass(heap, ones, c1) && AllOfClass(heap, Twos(heap, ones), c2) && AllOfClass(heap, Threes(heap, ones), c3)
      && AllDistinct(ones) && AllDistinct(Twos(heap, ones)) && AllDistinct(Threes(heap, ones))
  {
    TransientOnesDistinct(m, c1, c2, c3);
    TransientTwosDistinct(m, c1, c2, c3);
    TransientThreesDistinct(m, c1, c2, c3);
  }

  /** One more Transient resolution of `I1` appends one more layout to the heap. */
  lemma TransientResolvedAgain(t: ContainerTree, scope: ScopeId, m: nat, i1: TypeId, c1: Concretion, i2: TypeId,
                               c2: Concretion, i3: TypeId, c3: Concretion)
    requires Valid(t) && scope < |t.parents| && t.heap == TransientHeap(m, c1.id, c2.id, c3.id)
    requires RegisteredAs(t.registrations, i1, c1, Transient)
    requires RegisteredAs(t.registrations, i2, c2, Transient) && RegisteredAs(t.registrations, i3, c3, Transient)
    requires Shaped(i2, i3, c1, c2, c3)
    ensures ResolveById(t, scope, i1).result == Success(Object(9 * m + 8))
    ensures ResolveById(t, scope, i1).tree.heap == TransientHeap(m + 1, c1.id, c2.id, c3.id)
  {
    TransientTopBuilt(t, scope, i1, c1, i2, c2, i3, c3);
  }

  /** What the test reads off a resolution: the instance, or nothing when it failed. */
  function Got(x: Resolved): Option<Instance>
  {
    if x.result.Success? then Some(x.result.value) else None
  }

  /** The tree the three-level test resolves in: the registry built with lifecycles `l1`, `l2`, `l3`, and two new scopes. */
  function ThreeLevelTree(i1: TypeId, c1: Concretion, l1: Lifecycle, i2: TypeId, c2: Concretion, l2: Lifecycle,
                          i3: TypeId, c3: Concretion, l3: Lifecycle): (r: (ContainerTree, ScopeId, ScopeId))
    requires i1 != i2 && i2 != i3 && i1 != i3
    ensures var (t, s1, s2) := r;
      && Valid(t) && s1 == 1 && s2 == 2 && |t.parents| == 3 && t.heap == [] && t.caches == [[], [], []]
      && RegisteredAs(t.registrations, i1, c1, l1) && RegisteredAs(t.registrations, i2, c2, l2)
      && RegisteredAs(t.registrations, i3, c3, l3)
  {
    var b := RegisterIn(RegisterIn(RegisterIn(NewBuilder(), i1, c1, l1), i2, c2, l2), i3, c3, l3);
    BuildResolvesFirstRegistration(b, 0);
    BuildResolvesFirstRegistration(b, 1);
    BuildResolvesFirstRegistration(b, 2);
    var (t1, s1) := CreateScope(Build(b), 0);
    var (t2, s2) := CreateScope(t1, 0);
    (t2, s1, s2)
  }

  /** The four first-level instances of the three-level test, and the heap after the four resolutions. */
  function ThreeLevelRun(t: ContainerTree, s1: ScopeId, s2: ScopeId, i1: TypeId): (seq<Option<Instance>>, seq<ObjectRecord>)
    requires Valid(t) && s1 < |t.parents| && s2 < |t.parents|
  {
    var x1 := ResolveById(t, s1, i1);
    var x2 := ResolveById(x1.tree, s1, i1);
    var x3 := ResolveById(x2.tree, s2, i1);
    var x4 := ResolveById(x3.tree, s2, i1);
    ([Got(x1), Got(x2), Got(x3), Got(x4)], x4.tree.heap)
  }

  /** With every level Transient, the four resolutions append four layouts, one `C1` each. */
  lemma AllTransientRun(i1: TypeId, c1: Concretion, i2: TypeId, c2: Concretion, i3: TypeId, c3: Concretion)
    requires i1 != i2 && i2 != i3 && i1 != i3
    requires Shaped(i2, i3, c1, c2, c3)
    ensures var (t, s1, s2) := ThreeLevelTree(i1, c1, Transient, i2, c2, Transient, i3, c3, Transient);
      ThreeLevelRun(t, s1, s2, i1) == (TransientOnes(4), TransientHeap(4, c1.id, c2.id, c3.id))
  {
    var (t, s1, s2) := ThreeLevelTree(i1, c1, Transient, i2, c2, Transient, i3, c3, Transient);
    assert t.heap == TransientHeap(0, c1.id, c2.id, c3.id);
    TransientResolvedAgain(t, s1, 0, i1, c1, i2, c2, i3, c3);
    var x1 := ResolveById(t, s1, i1);
    TransientResolvedAgain(x1.tree, s1, 1, i1, c1, i2, c2, i3, c3);
    var x2 := ResolveById(x1.tree, s1, i1);
    TransientResolvedAgain(x2.tree, s2, 2, i1, c1, i2, c2, i3, c3);
    var x3 := ResolveById(x2.tree, s2, i1);
    TransientResolvedAgain(x3.tree, s2, 3, i1, c1, i2, c2, i3, c3);
    var x4 := ResolveById(x3.tree, s2, i1);
    OnesOfFour(Got(x1), Got(x2), Got(x3), Got(x4));
    assert x4.tree.heap == TransientHeap(4, c1.id, c2.id, c3.id);
  }

  /** The four first-level instances, in resolution order. */
  lemma OnesOfFour(a: Option<Instance>, b: Option<Instance>, c: Option<Instance>, d: Option<Instance>)
    requires a == Some(Object(8)) && b == Some(Object(17)) && c == Some(Object(26)) && d == Some(Object(35))
    ensures [a, b, c, d] == TransientOnes(4)
  {
  }

  /**
   * The three-level registry with every level Transient: two scopes are
   * created from the root and `I1` is resolved twice in each. The four `C1`s
   * are pairwise different, and so are their eight second-level fields and
   * their twenty-four third-level fields, nested ones included.
   */
  lemma AllTransientScenario(i1: TypeId, c1: Concretion, i2: TypeId, c2: Concretion, i3: TypeId, c3: Concretion)
    requires i1 != i2 && i2 != i3 && i1 != i3
    requires Shaped(i2, i3, c1, c2, c3)
    ensures var (t, s1, s2) := ThreeLevelTree(i1, c1, Transient, i2, c2, Transient, i3, c3, Transient);
      var (ones, heap) := ThreeLevelRun(t, s1, s2, i1);
      && AllOfClass(heap, ones, c1.id) && AllOfClass(heap, Twos(heap, ones), c2.id) && AllOfClass(heap, Threes(heap, ones), c3.id)
      && AllDistinct(ones) && AllDistinct(Twos(heap, ones)) && AllDistinct(Threes(heap, ones))
  {
    AllTransientRun(i1, c1, i2, c2, i3, c3);
    TransientHeapDistinct(4, c1.id, c2.id, c3.id);
  }

  // ---------------------------------------------------------------------------
  // Second and third levels kept in a cache
  // ---------------------------------------------------------------------------

  /**
   * The objects a `C1` over cached second and third levels allocates from
   * heap length `n`, none of them cached yet: one `C3`, one `C2` holding it
   * twice, then the `C1` holding that `C2` twice and that `C3` twice.
   */
  function SharedLayout(n: nat, c1: TypeId, c2: TypeId, c3: TypeId): seq<ObjectRecord>
  {
    [Constructed(c3, []), Constructed(c2, [Object(n), Object(n)]),
     Constructed(c1, [Object(n + 1), Object(n + 1), Object(n), Object(n)])]
  }

  /** The records of a shared layout sit at indices `b` to `b + 2` of `heap`. */
  predicate SharedRecords(heap: seq<ObjectRecord>, b: nat, c1: TypeId, c2: TypeId, c3: TypeId)
  {
    && b + 2 < |heap|
    && heap[b] == Constructed(c3, [])
    && heap[b + 1] == Constructed(c2, [Object(b), Object(b)])
    && heap[b + 2] == Constructed(c1, [Object(b + 1), Object(b + 1), Object(b), Object(b)])
  }

  /**
   * A `C2(I3, I3)` over a parameterless `C3`, both kept in the cache of
   * `scope` and neither cached yet: one new `C3`, then a new `C2` holding it
   * twice, and the cache of `scope` now answers `I3` with that `C3`.
   */
  lemma SharedPairBuilt(t: ContainerTree, scope: ScopeId, i2: TypeId, c2: Concretion, l2: Lifecycle, i3: TypeId,
                        c3: Concretion, l3: Lifecycle, pending: seq<TypeId>)
    requires Valid(t) && scope < |t.parents|
    requires RegisteredAs(t.registrations, i2, c2, l2) && RegisteredAs(t.registrations, i3, c3, l3)
    requires SavedInCache(l2) && SavedInCache(l3) && Home(l2, scope) == scope && Home(l3, scope) == scope
    requires c2.id != c3.id && c2.id !in pending && c3.id !in pending
    requires c2.params == [i3, i3] && c3.params == []
    requires FindInstance(t.caches[scope], i2).None? && FindInstance(t.caches[scope], i3).None?
    ensures var n := |t.heap|;
      var d := ResolveByIdInternal(t, scope, i2, pending);
      && d.result == Success(Object(n + 1)) && d.pending == pending
      && d.tree.heap == t.heap + [Constructed(c3.id, []), Constructed(c2.id, [Object(n), Object(n)])]
      && FindInstance(d.tree.caches[scope], i3) == Some(Object(n))
  {
    PairSteps(t, scope, i2, c2, l2, i3, c3, l3, pending);
    PairFinished(t.heap, scope, i3, c2.id, c3.id, ResolveParams(t, scope, [i3, i3], pending + [c2.id]),
                 ResolveByIdInternal(t, scope, i2, pending));
  }

  /** The two steps of `SharedPairBuilt`: the parameters `[I3, I3]`, then the `C2` built from them. */
  lemma PairSteps(t: ContainerTree, scope: ScopeId, i2: TypeId, c2: Concretion, l2: Lifecycle, i3: TypeId,
                  c3: Concretion, l3: Lifecycle, pending: seq<TypeId>)
    requires Valid(t) && scope < |t.parents|
    requires RegisteredAs(t.registrations, i2, c2, l2) && RegisteredAs(t.registrations, i3, c3, l3)
    requires SavedInCache(l2) && SavedInCache(l3) && Home(l2, scope) == scope && Home(l3, scope) == scope
    requires c2.id != c3.id && c2.id !in pending && c3.id !in pending
    requires c2.params == [i3, i3] && c3.params == []
    requires FindInstance(t.caches[scope], i2).None? && FindInstance(t.caches[scope], i3).None?
    ensures var n := |t.heap|;
      var values := ResolveParams(t, scope, [i3, i3], pending + [c2.id]);
      var d := ResolveByIdInternal(t, scope, i2, pending);
      && values.result == Success([Object(n), Object(n)]) && values.tree.heap == t.heap + [Constructed(c3.id, [])]
      && FindInstance(values.tree.caches[scope], i3) == Some(Object(n))
      && d.result == Success(Object(n + 1)) && d.pending == pending
      && d.tree.heap == values.tree.heap + [Constructed(c2.id, values.result.value)]
      && |d.tree.caches| == |values.tree.caches| && values.tree.caches[scope] <= d.tree.caches[scope]
  {
    LeafTwice(t, scope, i3, c3, l3, pending + [c2.id]);
    BuiltFromParams(t, scope, i2, c2, l2, pending);
  }

  /** What the two steps of `SharedPairBuilt` add up to, as a fact about their results alone. */
  lemma PairFinished(h: seq<ObjectRecord>, scope: ScopeId, i3: TypeId, c2: TypeId, c3: TypeId,
                     values: Resolution<seq<Instance>>, d: Resolution<Instance>)
    requires var n := |h|;
      && values.result == Success([Object(n), Object(n)])
      && values.tree.heap == h + [Constructed(c3, [])]
      && scope < |values.tree.caches| && FindInstance(values.tree.caches[scope], i3) == Some(Object(n))
      && d.tree.heap == values.tree.heap + [Constructed(c2, values.result.value)]
      && |d.tree.caches| == |values.tree.caches| && values.tree.caches[scope] <= d.tree.caches[scope]
    ensures var n := |h|;
      && d.tree.heap == h + [Constructed(c3, []), Constructed(c2, [Object(n), Object(n)])]
      && FindInstance(d.tree.caches[scope], i3) == Some(Object(n))
  {
    FindInstanceInExtension(values.tree.caches[scope], d.tree.caches[scope], i3);
  }

  /** The two `I3` parameters of the pair: one new `C3`, then a cache hit on it. */
  lemma LeafTwice(t: ContainerTree, scope: ScopeId, a: TypeId, c: Concretion, l: Lifecycle, pending: seq<TypeId>)
    requires Valid(t) && scope < |t.parents|
    requires RegisteredAs(t.registrations, a, c, l) && SavedInCache(l) && Home(l, scope) == scope
    requires c.params == [] && c.id !in pending && FindInstance(t.caches[scope], a).None?
    ensures var n := |t.heap|;
      var values := ResolveParams(t, scope, [a, a], pending);
      && values.result == Success([Object(n), Object(n)]) && values.pending == pending
      && values.tree.heap == t.heap + [Constructed(c.id, [])]
      && FindInstance(values.tree.caches[scope], a) == Some(Object(n))
  {
    LeafCached(t, scope, a, c, l, pending);
    SavedParamTwice(t, scope, a, pending);
  }

  /**
   * A parameterless class kept in the cache of `scope`, not cached yet: one
   * new object, which the cache of `scope` now keeps.
   */
  lemma LeafCached(t: ContainerTree, scope: ScopeId, a: TypeId, c: Concretion, l: Lifecycle, pending: seq<TypeId>)
    requires Valid(t) && scope < |t.parents|
    requires RegisteredAs(t.registrations, a, c, l) && SavedInCache(l) && Home(l, scope) == scope
    requires c.params == [] && c.id !in pending && FindInstance(t.caches[scope], a).None?
    ensures var r := ResolveByIdInternal(t, scope, a, pending);
      && r.result == Success(Object(|t.heap|)) && r.pending == pending
      && r.tree.heap == t.heap + [Constructed(c.id, [])]
      && FindInstance(r.tree.caches[scope], a) == Some(Object(|t.heap|))
  {
    ParameterlessConstructed(t, scope, a, c, pending);
  }

  /**
   * The parameters of a `C1(I2, I2, I3, I3)` over the cached pair above: the
   * first `I2` builds the pair, and every later parameter is a cache hit.
   */
  lemma SharedParamsBuilt(t: ContainerTree, scope: ScopeId, c1: Concretion, i2: TypeId, c2: Concretion, l2: Lifecycle,
                          i3: TypeId, c3: Concretion, l3: Lifecycle)
    requires Valid(t) && scope < |t.parents|
    requires RegisteredAs(t.registrations, i2, c2, l2) && RegisteredAs(t.registrations, i3, c3, l3)
    requires SavedInCache(l2) && SavedInCache(l3) && Home(l2, scope) == scope && Home(l3, scope) == scope
    requires Shaped(i2, i3, c1, c2, c3)
    requires FindInstance(t.caches[scope], i2).None? && FindInstance(t.caches[scope], i3).None?
    ensures var n := |t.heap|;
      var values := ResolveParams(t, scope, c1.params, [c1.id]);
      && values.result == Success([Object(n + 1), Object(n + 1), Object(n), Object(n)])
      && values.pending == [c1.id]
      && values.tree.heap == t.heap + [Constructed(c3.id, []), Constructed(c2.id, [Object(n), Object(n)])]
  {
    var n := |t.heap|;
    SharedPairBuilt(t, scope, i2, c2, l2, i3, c3, l3, [c1.id]);
    var d := ResolveByIdInternal(t, scope, i2, [c1.id]);
    assert FindInstance(d.tree.caches[scope], i2) == Some(Object(n + 1));
    PairAnswers(t.registrations, d.tree, scope, c1, i2, c2, l2, i3, c3, l3, n);
    CachedAfterFirst(t, scope, c1.params, [c1.id], [Object(n + 1), Object(n), Object(n)]);
    SharedPairs(Object(n + 1), Object(n));
  }

  /** Once the pair is cached, the cache answers every parameter of `C1` after the first. */
  lemma PairAnswers(registrations: seq<Registration>, tree: ContainerTree, scope: ScopeId, c1: Concretion, i2: TypeId,
                    c2: Concretion, l2: Lifecycle, i3: TypeId, c3: Concretion, l3: Lifecycle, n: nat)
    requires scope < |tree.caches|
    requires RegisteredAs(registrations, i2, c2, l2) && RegisteredAs(registrations, i3, c3, l3)
    requires SavedInCache(l2) && SavedInCache(l3) && Home(l2, scope) == scope && Home(l3, scope) == scope
    requires Shaped(i2, i3, c1, c2, c3)
    requires FindInstance(tree.caches[scope], i2) == Some(Object(n + 1)) && FindInstance(tree.caches[scope], i3) == Some(Object(n))
    ensures forall k | 1 <= k < |c1.params| ::
      && Lookup(registrations, c1.params[k]).Some?
      && SavedInCache(Lookup(registrations, c1.params[k]).value.lifecycle)
      && FindInstance(tree.caches[Home(Lookup(registrations, c1.params[k]).value.lifecycle, scope)], c1.params[k])
           == Some([Object(n + 1), Object(n), Object(n)][k - 1])
  {
    forall k | 1 <= k < |c1.params|
      ensures && Lookup(registrations, c1.params[k]).Some?
              && SavedInCache(Lookup(registrations, c1.params[k]).value.lifecycle)
              && FindInstance(tree.caches[Home(Lookup(registrations, c1.params[k]).value.lifecycle, scope)], c1.params[k])
                   == Some([Object(n + 1), Object(n), Object(n)][k - 1])
    {
      if k == 1 {
        assert c1.params[k] == i2;
      } else {
        assert c1.params[k] == i3;
      }
    }
  }

  /**
   * A `C1` of any lifecycle over cached second and third levels, nothing
   * cached yet where they are kept, allocates exactly the shared layout, the
   * `C1` last.
   */
  lemma SharedTopBuilt(t: ContainerTree, scope: ScopeId, i1: TypeId, c1: Concretion, l1: Lifecycle, i2: TypeId,
                       c2: Concretion, l2: Lifecycle, i3: TypeId, c3: Concretion, l3: Lifecycle)
    requires Valid(t) && scope < |t.parents|
    requires RegisteredAs(t.registrations, i1, c1, l1)
    requires RegisteredAs(t.registrations, i2, c2, l2) && RegisteredAs(t.registrations, i3, c3, l3)
    requires var h := Home(l1, scope);
      && SavedInCache(l2) && SavedInCache(l3) && Home(l2, h) == h && Home(l3, h) == h
      && FindInstance(t.caches[h], i1).None? && FindInstance(t.caches[h], i2).None? && FindInstance(t.caches[h], i3).None?
    requires Shaped(i2, i3, c1, c2, c3)
    ensures var x := ResolveByIdInternal(t, scope, i1, []);
      && x.result == Success(Object(|t.heap| + 2))
      && x.tree.heap == t.heap + SharedLayout(|t.heap|, c1.id, c2.id, c3.id)
  {
    TopSteps(t, scope, i1, c1, l1, i2, c2, l2, i3, c3, l3);
    TopFinished(t.heap, c1.id, c2.id, c3.id, ResolveParams(t, Home(l1, scope), c1.params, [c1.id]),
                ResolveByIdInternal(t, scope, i1, []));
  }

  /** The two steps of `SharedTopBuilt`: the parameters of `C1`, then the `C1` built from them. */
  lemma TopSteps(t: ContainerTree, scope: ScopeId, i1: TypeId, c1: Concretion, l1: Lifecycle, i2: TypeId,
                 c2: Concretion, l2: Lifecycle, i3: TypeId, c3: Concretion, l3: Lifecycle)
    requires Valid(t) && scope < |t.parents|
    requires RegisteredAs(t.registrations, i1, c1, l1)
    requires RegisteredAs(t.registrations, i2, c2, l2) && RegisteredAs(t.registrations, i3, c3, l3)
    requires var h := Home(l1, scope);
      && SavedInCache(l2) && SavedInCache(l3) && Home(l2, h) == h && Home(l3, h) == h
      && FindInstance(t.caches[h], i1).None? && FindInstance(t.caches[h], i2).None? && FindInstance(t.caches[h], i3).None?
    requires Shaped(i2, i3, c1, c2, c3)
    ensures var n := |t.heap|;
      var values := ResolveParams(t, Home(l1, scope), c1.params, [c1.id]);
      var x := ResolveByIdInternal(t, scope, i1, []);
      && values.result == Success([Object(n + 1), Object(n + 1), Object(n), Object(n)])
      && values.tree.heap == t.heap + [Constructed(c3.id, []), Constructed(c2.id, [Object(n), Object(n)])]
      && x.result == Success(Object(|values.tree.heap|))
      && x.tree.heap == values.tree.heap + [Constructed(c1.id, values.result.value)]
  {
    SharedParamsBuilt(t, Home(l1, scope), c1, i2, c2, l2, i3, c3, l3);
    assert [] + [c1.id] == [c1.id];
    BuiltFromParams(t, scope, i1, c1, l1, []);
  }

  /** What the two steps of `SharedTopBuilt` add up to, as a fact about their results alone. */
  lemma TopFinished(h: seq<ObjectRecord>, c1: TypeId, c2: TypeId, c3: TypeId, values: Resolution<seq<Instance>>,
                    x: Resolution<Instance>)
    requires var n := |h|;
      && values.result == Success([Object(n + 1), Object(n + 1), Object(n), Object(n)])
      && values.tree.heap == h + [Constructed(c3, []), Constructed(c2, [Object(n), Object(n)])]
      && x.result == Success(Object(|values.tree.heap|))
      && x.tree.heap == values.tree.heap + [Constructed(c1, values.result.value)]
    ensures x.result == Success(Object(|h| + 2)) && x.tree.heap == h + SharedLayout(|h|, c1, c2, c3)
  {
    SharedLayoutSplit(h, values.tree.heap, c1, c2, c3);
  }

  /**
   * A class registration not cached where it is kept, whose parameters
   * resolve there: the request answers a new object holding those values.
   */
  lemma BuiltFromParams(t: ContainerTree, scope: ScopeId, a: TypeId, c: Concretion, l: Lifecycle, pending: seq<TypeId>)
    requires Valid(t) && scope < |t.parents|
    requires RegisteredAs(t.registrations, a, c, l) && c.id !in pending
    requires FindInstance(t.caches[Home(l, scope)], a).None?
    requires ResolveParams(t, Home(l, scope), c.params, pending + [c.id]).result.Success?
    ensures var values := ResolveParams(t, Home(l, scope), c.params, pending + [c.id]);
      var x := ResolveByIdInternal(t, scope, a, pending);
      && x.result == Success(Object(|values.tree.heap|)) && x.pending == pending
      && x.tree.heap == values.tree.heap + [Constructed(c.id, values.result.value)]
      && |x.tree.caches| == |values.tree.caches|
      && values.tree.caches[Home(l, scope)] <= x.tree.caches[Home(l, scope)]
  {
    LookupConcretionIsRegistered(t.registrations, a, c);
    ParamsResolvedConstructs(t, Home(l, scope), c, pending);
    ConstructedOnMiss(t, scope, a, c, pending);
  }

  /** The heap arithmetic of `SharedTopBuilt`. */
  lemma SharedLayoutSplit(h: seq<ObjectRecord>, h1: seq<ObjectRecord>, c1: TypeId, c2: TypeId, c3: TypeId)
    requires var n := |h|; h1 == h + [Constructed(c3, []), Constructed(c2, [Object(n), Object(n)])]
    ensures var n := |h|;
      h1 + [Constructed(c1, [Object(n + 1), Object(n + 1), Object(n), Object(n)])] == h + SharedLayout(n, c1, c2, c3)
  {
  }

  /** Field `d2(r+1)` of a first-level instance in a shared layout at `b`. */
  lemma SharedTwoAt(heap: seq<ObjectRecord>, ones: seq<Option<Instance>>, q: nat, r: nat, b: nat,
                    c1: TypeId, c2: TypeId, c3: TypeId)
    requires q < |ones| && r < 2
    requires ones[q] == Some(Object(b + 2)) && SharedRecords(heap, b, c1, c2, c3)
    ensures Twos(heap, ones)[2 * q + r] == Some(Object(b + 1))
  {
    assert (2 * q + r) / 2 == q && (2 * q + r) % 2 == r;
    FieldPairsAt(heap, ones, 0, 2 * q + r);
  }

  /** Field `d3(r+1)` of a first-level instance in a shared layout at `b`. */
  lemma SharedThreeOfOneAt(heap: seq<ObjectRecord>, ones: seq<Option<Instance>>, q: nat, r: nat, b: nat,
                           c1: TypeId, c2: TypeId, c3: TypeId)
    requires q < |ones| && r < 2
    requires ones[q] == Some(Object(b + 2)) && SharedRecords(heap, b, c1, c2, c3)
    ensures Threes(heap, ones)[2 * q + r] == Some(Object(b))
  {
    assert (2 * q + r) / 2 == q && (2 * q + r) % 2 == r;
    ThreeOfOne(heap, ones, 2 * q + r);
  }

  /** Field `d3(e+1)` of field `d2(r+1)` of a first-level instance in a shared layout at `b`. */
  lemma SharedThreeOfTwoAt(heap: seq<ObjectRecord>, ones: seq<Option<Instance>>, q: nat, w: nat, b: nat,
                           c1: TypeId, c2: TypeId, c3: TypeId)
    requires q < |ones| && w < 4
    requires ones[q] == Some(Object(b + 2)) && SharedRecords(heap, b, c1, c2, c3)
    ensures Threes(heap, ones)[2 * |ones| + 4 * q + w] == Some(Object(b))
  {
    var r := if 2 <= w then 1 else 0;
    var e := w - 2 * r;
    var k := 4 * q + w;
    assert k / 2 == 2 * q + r && k % 2 == e;
    SharedTwoAt(heap, ones, q, r, b, c1, c2, c3);
    ThreeOfTwo(heap, ones, k);
  }

  /**
   * First-level instances each the `C1` of a shared layout, at `bases[q]`
   * for the `q`-th: every second-level field of the `q`-th is the `C2` of its
   * layout, every third-level field reached from it is the `C3` of its layout.
   */
  lemma SharedFields(heap: seq<ObjectRecord>, ones: seq<Option<Instance>>, bases: seq<nat>, c1: TypeId, c2: TypeId, c3: TypeId)
    requires |bases| == |ones|
    requires forall q | 0 <= q < |ones| :: ones[q] == Some(Object(bases[q] + 2)) && SharedRecords(heap, bases[q], c1, c2, c3)
    ensures |Twos(heap, ones)| == 2 * |ones| && |Threes(heap, ones)| == 6 * |ones|
    ensures forall i | 0 <= i < 2 * |ones| :: Twos(heap, ones)[i] == Some(Object(bases[i / 2] + 1))
    ensures forall i | 0 <= i < 2 * |ones| :: Threes(heap, ones)[i] == Some(Object(bases[i / 2]))
    ensures forall i | 2 * |ones| <= i < 6 * |ones| :: Threes(heap, ones)[i] == Some(Object(bases[(i - 2 * |ones|) / 4]))
    ensures AllOfClass(heap, ones, c1) && AllOfClass(heap, Twos(heap, ones), c2) && AllOfClass(heap, Threes(heap, ones), c3)
  {
    forall i | 0 <= i < 2 * |ones|
      ensures Twos(heap, ones)[i] == Some(Object(bases[i / 2] + 1))
      ensures Threes(heap, ones)[i] == Some(Object(bases[i / 2]))
    {
      Halves(i);
      SharedTwoAt(heap, ones, i / 2, i % 2, bases[i / 2], c1, c2, c3);
      SharedThreeOfOneAt(heap, ones, i / 2, i % 2, bases[i / 2], c1, c2, c3);
    }
    forall i | 2 * |ones| <= i < 6 * |ones|
      ensures Threes(heap, ones)[i] == Some(Object(bases[(i - 2 * |ones|) / 4]))
    {
      var k := i - 2 * |ones|;
      SharedThreeOfTwoAt(heap, ones, k / 4, k % 4, bases[k / 4], c1, c2, c3);
    }
  }

  /**
   * First-level instances all the `C1` of one shared layout at `b`: every
   * second-level field is its `C2` and every third-level field its `C3`.
   */
  lemma UniformFields(heap: seq<ObjectRecord>, ones: seq<Option<Instance>>, b: nat, c1: TypeId, c2: TypeId, c3: TypeId)
    requires SharedRecords(heap, b, c1, c2, c3)
    requires forall q | 0 <= q < |ones| :: ones[q] == Some(Object(b + 2))
    ensures forall i | 0 <= i < |Twos(heap, ones)| :: Twos(heap, ones)[i] == Some(Object(b + 1))
    ensures forall i | 0 <= i < |Threes(heap, ones)| :: Threes(heap, ones)[i] == Some(Object(b))
    ensures AllEqual(ones) && AllEqual(Twos(heap, ones)) && AllEqual(Threes(heap, ones))
    ensures AllOfClass(heap, ones, c1) && AllOfClass(heap, Twos(heap, ones), c2) && AllOfClass(heap, Threes(heap, ones), c3)
  {
    var n := |ones|;
    assert |Threes(heap, ones)| == 6 * n;
    forall i | 0 <= i < 2 * n
      ensures Twos(heap, ones)[i] == Some(Object(b + 1))
      ensures Threes(heap, ones)[i] == Some(Object(b))
    {
      Halves(i);
      SharedTwoAt(heap, ones, i / 2, i % 2, b, c1, c2, c3);
      SharedThreeOfOneAt(heap, ones, i / 2, i % 2, b, c1, c2, c3);
    }
    forall i | 2 * n <= i < 6 * n
      ensures Threes(heap, ones)[i] == Some(Object(b))
    {
      var k := i - 2 * n;
      SharedThreeOfTwoAt(heap, ones, k / 4, k % 4, b, c1, c2, c3);
    }
  }

  /** The records of one shared layout. */
  lemma SharedLayoutRecords(heap: seq<ObjectRecord>, before: seq<ObjectRecord>, after: seq<ObjectRecord>,
                            c1: TypeId, c2: TypeId, c3: TypeId)
    requires heap == before + SharedLayout(|before|, c1, c2, c3) + after
    ensures SharedRecords(heap, |before|, c1, c2, c3)
  {
    var b := |before|;
    var l := SharedLayout(b, c1, c2, c3);
    assert heap[b] == l[0] && heap[b + 1] == l[1] && heap[b + 2] == l[2];
  }

  /**
   * Two requests for a Scoped `C1` over Scoped levels in a scope that has
   * cached none of them: the first builds one shared layout, the second is
   * answered from the cache, and no other scope's cache changes.
   */
  lemma ScopedResolvedTwice(t: ContainerTree, scope: ScopeId, other: ScopeId, i1: TypeId, c1: Concretion, i2: TypeId,
                            c2: Concretion, i3: TypeId, c3: Concretion)
    requires Valid(t) && scope < |t.parents| && other < |t.parents| && other != scope && other != 0
    requires RegisteredAs(t.registrations, i1, c1, Scoped)
    requires RegisteredAs(t.registrations, i2, c2, Scoped) && RegisteredAs(t.registrations, i3, c3, Scoped)
    requires FindInstance(t.caches[scope], i1).None? && FindInstance(t.caches[scope], i2).None?
    requires FindInstance(t.caches[scope], i3).None?
    requires Shaped(i2, i3, c1, c2, c3)
    ensures var x := ResolveById(t, scope, i1);
      && x.result == Success(Object(|t.heap| + 2)) && ResolveById(x.tree, scope, i1) == x
      && x.tree.heap == t.heap + SharedLayout(|t.heap|, c1.id, c2.id, c3.id)
      && x.tree.caches[other] == t.caches[other]
  {
    SharedTopBuilt(t, scope, i1, c1, Scoped, i2, c2, Scoped, i3, c3, Scoped);
    var x := ResolveById(t, scope, i1);
    ScopedInstanceReused(t, scope, i1, x.tree);
    var y := ResolveByIdInternal(t, scope, i1, []);
    assert Untouched(t, y.tree, scope);
  }

  /**
   * With every level Scoped, each scope builds one shared layout on its
   * first request and answers its second from its cache.
   */
  lemma AllScopedRun(i1: TypeId, c1: Concretion, i2: TypeId, c2: Concretion, i3: TypeId, c3: Concretion)
    requires i1 != i2 && i2 != i3 && i1 != i3
    requires Shaped(i2, i3, c1, c2, c3)
    ensures var (t, s1, s2) := ThreeLevelTree(i1, c1, Scoped, i2, c2, Scoped, i3, c3, Scoped);
      ThreeLevelRun(t, s1, s2, i1)
        == ([Some(Object(2)), Some(Object(2)), Some(Object(5)), Some(Object(5))],
            SharedLayout(0, c1.id, c2.id, c3.id) + SharedLayout(3, c1.id, c2.id, c3.id))
  {
    var (t, s1, s2) := ThreeLevelTree(i1, c1, Scoped, i2, c2, Scoped, i3, c3, Scoped);
    ScopedRunFrom(t, s1, s2, i1, c1, i2, c2, i3, c3);
  }

  /** The all-Scoped run, from any tree with the registry and two distinct, empty, non-root scopes. */
  lemma ScopedRunFrom(t: ContainerTree, s1: ScopeId, s2: ScopeId, i1: TypeId, c1: Concretion, i2: TypeId, c2: Concretion,
                      i3: TypeId, c3: Concretion)
    requires Valid(t) && s1 < |t.parents| && s2 < |t.parents| && s1 != s2 && s1 != 0 && s2 != 0
    requires RegisteredAs(t.registrations, i1, c1, Scoped)
    requires RegisteredAs(t.registrations, i2, c2, Scoped) && RegisteredAs(t.registrations, i3, c3, Scoped)
    requires Shaped(i2, i3, c1, c2, c3)
    requires t.heap == [] && t.caches[s1] == [] && t.caches[s2] == []
    ensures ThreeLevelRun(t, s1, s2, i1)
      == ([Some(Object(2)), Some(Object(2)), Some(Object(5)), Some(Object(5))],
          SharedLayout(0, c1.id, c2.id, c3.id) + SharedLayout(3, c1.id, c2.id, c3.id))
  {
    ScopedResolvedTwice(t, s1, s2, i1, c1, i2, c2, i3, c3);
    var x1 := ResolveById(t, s1, i1);
    ScopedResolvedTwice(x1.tree, s2, s1, i1, c1, i2, c2, i3, c3);
    var x3 := ResolveById(x1.tree, s2, i1);
    assert x1.tree.heap == SharedLayout(0, c1.id, c2.id, c3.id);
  }

  /**
   * Requests for a Singleton `C1` over cached levels, from any scopes of a
   * tree that has cached none of them at the root: the first builds one
   * shared layout, and the later ones are answered from the root cache.
   */
  lemma SingletonResolvedOnce(t: ContainerTree, s1: ScopeId, s2: ScopeId, i1: TypeId, c1: Concretion, i2: TypeId,
                              c2: Concretion, l2: Lifecycle, i3: TypeId, c3: Concretion, l3: Lifecycle)
    requires Valid(t) && s1 < |t.parents| && s2 < |t.parents|
    requires RegisteredAs(t.registrations, i1, c1, Singleton)
    requires RegisteredAs(t.registrations, i2, c2, l2) && RegisteredAs(t.registrations, i3, c3, l3)
    requires SavedInCache(l2) && SavedInCache(l3)
    requires FindInstance(t.caches[0], i1).None? && FindInstance(t.caches[0], i2).None?
    requires FindInstance(t.caches[0], i3).None?
    requires Shaped(i2, i3, c1, c2, c3)
    ensures var x := ResolveById(t, s1, i1);
      && x.result == Success(Object(|t.heap| + 2))
      && x.tree.heap == t.heap + SharedLayout(|t.heap|, c1.id, c2.id, c3.id)
      && ResolveById(x.tree, s1, i1) == x && ResolveById(x.tree, s2, i1) == x
  {
    SharedTopBuilt(t, s1, i1, c1, Singleton, i2, c2, l2, i3, c3, l3);
    var x := ResolveById(t, s1, i1);
    SingletonSharedByAllScopes(t, s1, i1, x.tree, s1);
    SingletonSharedByAllScopes(t, s1, i1, x.tree, s2);
  }

  /**
   * With a Singleton first level over cached second and third levels, the
   * root builds one shared layout on the first request and every later
   * request, from either scope, is answered from the root cache.
   */
  lemma SingletonOverCachedRun(i1: TypeId, c1: Concretion, i2: TypeId, c2: Concretion, l2: Lifecycle,
                               i3: TypeId, c3: Concretion, l3: Lifecycle)
    requires i1 != i2 && i2 != i3 && i1 != i3
    requires SavedInCache(l2) && SavedInCache(l3)
    requires Shaped(i2, i3, c1, c2, c3)
    ensures var (t, s1, s2) := ThreeLevelTree(i1, c1, Singleton, i2, c2, l2, i3, c3, l3);
      ThreeLevelRun(t, s1, s2, i1)
        == ([Some(Object(2)), Some(Object(2)), Some(Object(2)), Some(Object(2))], SharedLayout(0, c1.id, c2.id, c3.id))
  {
    var (t, s1, s2) := ThreeLevelTree(i1, c1, Singleton, i2, c2, l2, i3, c3, l3);
    SingletonRunFrom(t, s1, s2, i1, c1, i2, c2, l2, i3, c3, l3);
  }

  /** The Singleton-first run, from any tree with the registry, nothing cached at the root and an empty heap. */
  lemma SingletonRunFrom(t: ContainerTree, s1: ScopeId, s2: ScopeId, i1: TypeId, c1: Concretion, i2: TypeId,
                         c2: Concretion, l2: Lifecycle, i3: TypeId, c3: Concretion, l3: Lifecycle)
    requires Valid(t) && s1 < |t.parents| && s2 < |t.parents|
    requires RegisteredAs(t.registrations, i1, c1, Singleton)
    requires RegisteredAs(t.registrations, i2, c2, l2) && RegisteredAs(t.registrations, i3, c3, l3)
    requires SavedInCache(l2) && SavedInCache(l3)
    requires Shaped(i2, i3, c1, c2, c3)
    requires t.heap == [] && t.caches[0] == []
    ensures ThreeLevelRun(t, s1, s2, i1)
      == ([Some(Object(2)), Some(Object(2)), Some(Object(2)), Some(Object(2))], SharedLayout(0, c1.id, c2.id, c3.id))
  {
    SingletonResolvedOnce(t, s1, s2, i1, c1, i2, c2, l2, i3, c3, l3);
    var x1 := ResolveById(t, s1, i1);
    var x2 := ResolveById(x1.tree, s1, i1);
    assert x2 == x1;
    var x3 := ResolveById(x2.tree, s2, i1);
    assert x3 == x1;
    var x4 := ResolveById(x3.tree, s2, i1);
    assert x4 == x1;
    assert ThreeLevelRun(t, s1, s2, i1) == ([Got(x1), Got(x2), Got(x3), Got(x4)], x4.tree.heap);
    assert x4.tree.heap == [] + SharedLayout(0, c1.id, c2.id, c3.id) == SharedLayout(0, c1.id, c2.id, c3.id);
    assert Got(x4) == Got(x1) == Some(Object(2));
  }

  /** What the all-Scoped test observes of the heap the two scopes built. */
  lemma TwoLayoutsObserved(heap: seq<ObjectRecord>, ones: seq<Option<Instance>>, c1: TypeId, c2: TypeId, c3: TypeId)
    requires ones == [Some(Object(2)), Some(Object(2)), Some(Object(5)), Some(Object(5))]
    requires heap == SharedLayout(0, c1, c2, c3) + SharedLayout(3, c1, c2, c3)
    ensures && AllOfClass(heap, ones, c1) && AllOfClass(heap, Twos(heap, ones), c2) && AllOfClass(heap, Threes(heap, ones), c3)
            && AllEqual(ones[..2]) && AllEqual(ones[2..]) && ones[0] != ones[2]
            && AllEqual(Twos(heap, ones[..1])) && AllEqual(Twos(heap, ones[2..3]))
            && Field(heap, ones[0], 0) != Field(heap, ones[2], 0)
            && AllEqual(Threes(heap, ones[..1])) && AllEqual(Threes(heap, ones[2..3]))
            && Field(heap, ones[0], 2) != Field(heap, ones[2], 2)
  {
    SharedLayoutRecords(heap, [], SharedLayout(3, c1, c2, c3), c1, c2, c3);
    SharedLayoutRecords(heap, SharedLayout(0, c1, c2, c3), [], c1, c2, c3);
    SharedFields(heap, ones, [0, 0, 3, 3], c1, c2, c3);
    ScopeObserved(heap, ones[..1], 0, c1, c2, c3);
    ScopeObserved(heap, ones[2..3], 3, c1, c2, c3);
  }

  /** One scope's first-level instance, the `C1` of the shared layout at `b`, and its fields. */
  lemma ScopeObserved(heap: seq<ObjectRecord>, ones: seq<Option<Instance>>, b: nat, c1: TypeId, c2: TypeId, c3: TypeId)
    requires ones == [Some(Object(b + 2))] && SharedRecords(heap, b, c1, c2, c3)
    ensures AllEqual(Twos(heap, ones)) && AllEqual(Threes(heap, ones))
    ensures Field(heap, ones[0], 0) == Some(Object(b + 1)) && Field(heap, ones[0], 2) == Some(Object(b))
  {
    UniformFields(heap, ones, b, c1, c2, c3);
  }

  /** What the Singleton-first tests observe of the one layout the root built. */
  lemma OneLayoutObserved(heap: seq<ObjectRecord>, ones: seq<Option<Instance>>, c1: TypeId, c2: TypeId, c3: TypeId)
    requires ones == [Some(Object(2)), Some(Object(2)), Some(Object(2)), Some(Object(2))]
    requires heap == SharedLayout(0, c1, c2, c3)
    ensures && AllOfClass(heap, ones, c1) && AllOfClass(heap, Twos(heap, ones), c2) && AllOfClass(heap, Threes(heap, ones), c3)
            && AllEqual(ones) && AllEqual(Twos(heap, ones)) && AllEqual(Threes(heap, ones))
  {
    SharedLayoutRecords(heap, [], [], c1, c2, c3);
    UniformFields(heap, ones, 0, c1, c2, c3);
  }

  /**
   * The three-level registry with every level Scoped: two scopes are created
   * from the root and `I1` is resolved twice in each. Within a scope both
   * requests get one `C1`, its two `I2` fields are one `C2`, and all its
   * third-level fields, nested ones included, are one `C3`; across the two
   * scopes the `C1`s, the `C2`s and the `C3`s all differ.
   */
  lemma AllScopedScenario(i1: TypeId, c1: Concretion, i2: TypeId, c2: Concretion, i3: TypeId, c3: Concretion)
    requires i1 != i2 && i2 != i3 && i1 != i3
    requires Shaped(i2, i3, c1, c2, c3)
    ensures var (t, s1, s2) := ThreeLevelTree(i1, c1, Scoped, i2, c2, Scoped, i3, c3, Scoped);
      var (ones, heap) := ThreeLevelRun(t, s1, s2, i1);
      && AllOfClass(heap, ones, c1.id) && AllOfClass(heap, Twos(heap, ones), c2.id) && AllOfClass(heap, Threes(heap, ones), c3.id)
      && AllEqual(ones[..2]) && AllEqual(ones[2..]) && ones[0] != ones[2]
      && AllEqual(Twos(heap, ones[..1])) && AllEqual(Twos(heap, ones[2..3])) && Field(heap, ones[0], 0) != Field(heap, ones[2], 0)
      && AllEqual(Threes(heap, ones[..1])) && AllEqual(Threes(heap, ones[2..3])) && Field(heap, ones[0], 2) != Field(heap, ones[2], 2)
  {
    AllScopedRun(i1, c1, i2, c2, i3, c3);
    TwoLayoutsObserved(SharedLayout(0, c1.id, c2.id, c3.id) + SharedLayout(3, c1.id, c2.id, c3.id),
                       [Some(Object(2)), Some(Object(2)), Some(Object(5)), Some(Object(5))], c1.id, c2.id, c3.id);
  }

  /**
   * The three-level registry with a Singleton first level over second and
   * third levels that are each Scoped or Singleton: two scopes are created
   * from the root and `I1` is resolved twice in each. All four requests get
   * one `C1`, all eight second-level fields are one `C2`, and all
   * twenty-four third-level fields are one `C3`.
   */
  lemma SingletonOverCachedScenario(i1: TypeId, c1: Concretion, i2: TypeId, c2: Concretion, l2: Lifecycle,
                                    i3: TypeId, c3: Concretion, l3: Lifecycle)
    requires i1 != i2 && i2 != i3 && i1 != i3
    requires SavedInCache(l2) && SavedInCache(l3)
    requires Shaped(i2, i3, c1, c2, c3)
    ensures var (t, s1, s2) := ThreeLevelTree(i1, c1, Singleton, i2, c2, l2, i3, c3, l3);
      var (ones, heap) := ThreeLevelRun(t, s1, s2, i1);
      && AllOfClass(heap, ones, c1.id) && AllOfClass(heap, Twos(heap, ones), c2.id) && AllOfClass(heap, Threes(heap, ones), c3.id)
      && AllEqual(ones) && AllEqual(Twos(heap, ones)) && AllEqual(Threes(heap, ones))
  {
    SingletonOverCachedRun(i1, c1, i2, c2, l2, i3, c3, l3);
    OneLayoutObserved(SharedLayout(0, c1.id, c2.id, c3.id), [Some(Object(2)), Some(Object(2)), Some(Object(2)), Some(Object(2))],
                      c1.id, c2.id, c3.id);
  }

  /** `v` is an object of class `cid` in `heap`. */
  predicate OfClass(heap: seq<ObjectRecord>, v: Option<Instance>, cid: TypeId)
  {
    v.Some? && v.value.Object? && v.value.ref < |heap| && heap[v.value.ref].Constructed?
    && heap[v.value.ref].concretionId == cid
  }

  /** Every entry is an object of class `cid` in `heap`. */
  predicate AllOfClass(heap: seq<ObjectRecord>, vs: seq<Option<Instance>>, cid: TypeId)
  {
    forall i | 0 <= i < |vs| :: OfClass(heap, vs[i], cid)
  }
}

=== FILE: types.dfy ===
/**
 * Type metadata consumed by the container (src/type.ts). The compile-time
 * transformer that produces it is not part of this model: identifiers and
 * constructor parameter lists arrive here as plain data.
 */
module Types {

  /** An opaque, globally unique type identifier; compared only for equality. */
  type TypeId = string

  /**
   * A constructible class: its own identifier and the identifiers of its
   * constructor parameters, in declaration order (IClassType / IConstructor).
   * Invoking the constructor itself is modelled by the container's heap.
   */
  datatype Concretion = Concretion(id: TypeId, params: seq<TypeId>)
}

=== FILE: wrappers.dfy ===
/** Failure-compatible wrappers used across the model. */
module Wrappers {

  /** An optional value: `undefined` in the source becomes `None`. */
  datatype Option<+T> = None | Some(value: T)

  /** The outcome of an operation that throws in the source: `Failure` carries the error kind. */
  datatype Result<+T, +E> = Success(value: T) | Failure(error: E)
}
